=== FILE: README.md ===
# vaultpilot-indexer incremental pipeline, modelled in Dafny

This project models the indexing core of the vaultpilot-indexer Obsidian plugin.
The plugin watches a vault's markdown notes and keeps two stores in step:

- an append-only JSONL index holding one record per indexed note;
- a persisted index state holding a content hash per path, a retry queue of failed summaries, counters and a rebuild checkpoint.

The model covers:

- content hashing and the state store: load, save and defaults;
- the exclusion rules: comma/newline rule lists, folder prefixes and `*` globs;
- the JSONL writer's append and compact;
- the coalescing event queue;
- the OpenAI-compatible gateway: model discovery, summaries and error mapping;
- the operations snapshot;
- the plugin's event handling: process an event, force-process a file, upsert and remove retry items;
- full rebuilds with a checkpoint, their resumption and clearing;
- the retry of failed summaries.

Modules, one file each:

| module | file | covers |
|---|---|---|
| `Wrappers` | wrappers.dfy | `Option`, `Result` |
| `Text` | text.dfy | JavaScript `trim`, ASCII `toLowerCase`, `split` on a character class, code-point order, decimal rendering |
| `IndexTypes` | index_types.dfy | the records of the type definitions and the error-code enum |
| `HashState` | hash_state.dfy | `normalizeMarkdown`, `computeContentHash`, `createEmptyState`, `StateStore.load/save` |
| `Exclusions` | exclusions.dfy | `parseRuleList`, `normalizePath`, the wildcard regular expression, `isPathExcluded` |
| `OrderedMap` | ordered_map.dfy | a JavaScript `Map` as an insertion-ordered sequence; first-occurrence dedup |
| `IndexLog` | index_log.dfy | `JsonlIndexWriter.append/compact` |
| `Sorting` | sorting.dfy | the stable `Array.prototype.sort` with a comparator |
| `EventQueue` | event_queue.dfy | `IndexEventQueue` |
| `Gateway` | gateway.dfy | `OpenAiCompatibleGateway.listModels/summarize/mapError` |
| `Ops` | ops.dfy | `buildOpsSnapshot` |
| `RetryQueue` | retry_queue.dfy | `upsertRetryQueueItem`, `removeRetryQueueItem`, `nextRetryCount` |
| `Pipeline` | pipeline.dfy | `processEvent`, `forceProcessFile`, `hasExcludedTag`, `hasApiConfig`, `retryFailedSummaries` |
| `Rebuild` | rebuild.dfy | `rebuildIndex`, `resumeRebuild`, `clearRebuildCheckpoint` |

Conventions:

- Everything the plugin reads from its host becomes a parameter:
  - the clock;
  - the vault lookup;
  - the SHA-256 digest;
  - the tag and outlink extractors;
  - the outcome of each HTTP request.
- The state store is followed as a value. `HashState.Reload` is what a load returns after a save, so each step of a rebuild sees what the previous step saved.
- An HTTP exchange is its outcome: a status and a parsed body, or a thrown error. The body may itself throw.

The model makes three behaviours of the code visible. Each is stated as a lemma about the code as written:

- After a delete, `stats.total_notes` still counts the deleted note until the next completed note (`Pipeline.DeleteLeavesTotalStale`).
- Retrying a failed summary of an unchanged note does nothing. `retryFailedSummaries` empties the retry queue before the queued `modify` events run, and `processEvent` then skips each note because its hash is unchanged (`Pipeline.RetryOfUnchangedNoteIsLost`).
- A rebuild's checkpoint records only every tenth path and the last one. A resumed rebuild therefore re-runs the unrecorded notes, and its final `processed_count` can exceed `total_files`. A run over more than ten notes that throws at the eleventh and is then resumed finishes with a count nine above the number of notes (`Rebuild.InterruptedThenResumed`).

## Model

| member | source | states |
|---|---|---|
| Text.Trim | src/hashState.ts:9 | the result has no white space at either end |
| Text.TrimUnique | src/hashState.ts:9 | trimming white space around a trimmed text gives back exactly that text |
| Text.TrimIgnoresSpace | src/hashState.ts:9 | white space added at either end does not change the trimmed text |
| Text.TrimOfTrimmed | src/hashState.ts:9 | trimming is the identity on already trimmed text |
| Text.TrimInfix | src/hashState.ts:9 | the trimmed text is the input with only white space removed before and after it |
| Text.TrimEmptyIffAllSpace | src/main.ts:602-604 | a value trims to empty exactly when it is all white space |
| Text.TrimAll | src/exclusions.ts:4 | every item is replaced by its trimmed form, position by position |
| Text.NonEmpty | src/exclusions.ts:5 | the kept items are exactly the non-empty ones, each taken from the input |
| Text.NonEmptyAppend | src/exclusions.ts:5 | filtering a concatenation filters each part: the kept pieces stay in input order, repeats included |
| Text.NonEmptySingle | src/exclusions.ts:5 | a single piece is kept exactly when it is non-empty |
| Text.Lower | src/exclusions.ts:18 | lower-casing maps each character and keeps the length |
| Text.LowerIdempotent | src/main.ts:597-600 | lower-casing twice is lower-casing once |
| Text.SplitJoin | src/exclusions.ts:3 | splitting a separator-joined list of separator-free items gives the items back |
| Text.SplitKeepsText | src/exclusions.ts:3 | the pieces of a split, concatenated, are the input with the separators removed |
| Text.SplitPiecesFree | src/exclusions.ts:3 | no piece of a split holds a separator |
| Text.LexLeTotal | src/gateway.ts:51 | any two model ids are ordered one way or the other |
| Text.LexLeTransitive | src/gateway.ts:51 | the model-id order is transitive |
| Text.LexLeAntisymmetric | src/gateway.ts:51 | two ids each ordered before the other are equal |
| Text.LexLeFirstDifference | src/gateway.ts:51 | ids are ordered by their first differing character |
| Text.DecimalRoundTrip | src/gateway.ts:39 | the decimal rendering of a status reads back as that status |
| Text.DecimalInjective | src/gateway.ts:110 | different statuses give different `HTTP <status>` messages |
| IndexTypes.ErrorCodeNameInjective | schema/error-codes.ts:5-26 | different error codes have different wire spellings |
| HashState.NormalizeMarkdown | src/hashState.ts:8-10 | the normal form has no white space at either end |
| HashState.ContentHash | src/hashState.ts:12-14 | a note's hash is the digest of its normal form, so only the normal form matters (`HashState.SameNormalFormSameHash`) |
| HashState.NormalizeKeepsCleanText | src/hashState.ts:8-10 | a CR-free text without surrounding white space is its own normal form |
| HashState.SameNormalFormSameHash | src/hashState.ts:12-14 | contents with one normal form get one hash |
| HashState.ReplaceCrlfUndoesToCrlf | src/hashState.ts:9 | the CRLF replacement undoes writing every line break as CRLF |
| HashState.LineEndingStyleIgnored | src/hashState.ts:8-14 | a text and its CRLF rendering normalise and hash alike |
| HashState.SurroundingWhitespaceIgnored | src/hashState.ts:8-14 | white space (CR and LF included) around the content does not change its normal form or hash |
| HashState.CrlfExample | test/hashState.test.ts:5-11 | two lines with trailing CRLFs normalise and hash like the same lines joined by one LF |
| HashState.NormalizeDoubleCr | src/hashState.ts:9 | one pass turns `a\r\r\nb` into `a\r\nb`: only the CR next to the LF is paired |
| HashState.NormalizeSingleCrlf | src/hashState.ts:9 | one pass turns `a\r\nb` into `a\nb` |
| HashState.NormalizeNotIdempotent | src/hashState.ts:9 | normalising twice differs from normalising once: `a\r\r\nb` gives `a\r\nb`, then `a\nb` |
| HashState.CreateEmptyState | src/hashState.ts:16-29 | the empty state has no hashes, no retries, zero counters, schema 1.0.0 and no checkpoint |
| HashState.Load | src/hashState.ts:38-51 | a missing file loads the empty state; malformed JSON fails; each stored field wins over its default, a stored checkpoint is kept as it is, `null` stats stay `null`, and absent fields take the empty state's values |
| HashState.Merge | src/hashState.ts:45-50 | the spread of a parsed file over the empty state, with `??` defaults for the hash map and retry queue; what it yields is stated by `HashState.Load` |
| HashState.Save | src/hashState.ts:53-56 | a save writes every field of the state; absent counters are written as `null` |
| HashState.SaveLoadRoundTrip | src/hashState.ts:38-56 | loading what was saved gives back the saved state, `null` counters included |
| Exclusions.ParseRuleList | src/exclusions.ts:1-6 | every rule is non-empty, trimmed and free of commas and line breaks |
| Exclusions.ParseJoinRoundTrip | src/exclusions.ts:1-6 | parsing a comma-joined list of valid rules gives the rules back |
| Exclusions.ParseRuleListExample | test/exclusions.test.ts:5-8 | `a,b\n c \n\n` parses to `[a, b, c]`, for any three rule names |
| Exclusions.NormalizePath | src/exclusions.ts:17-19 | a normalised path has no backslash and no upper-case letter |
| Exclusions.NormalizeIsCanon | src/exclusions.ts:17-19 | normalising is: backslashes to slashes, then lower-casing, then dropping a leading `./` |
| Exclusions.NormalizeIgnoresCaseAndSlash | src/exclusions.ts:17-19 | paths differing only in case and slash direction normalise alike |
| Exclusions.NormalizeIsLower | src/exclusions.ts:18 | a normalised path is already lower case |
| Exclusions.TrimTrailingSlashes | src/exclusions.ts:25 | the result is the folder without its trailing slashes, ending in something else |
| Exclusions.FolderRuleCoversSubpaths | src/exclusions.ts:24-27 | a folder rule covering a path covers everything under it |
| Exclusions.FolderRuleWholeSegments | src/exclusions.ts:26 | a folder rule does not cover a sibling that merely extends its name |
| Exclusions.GlobWithoutStar | src/exclusions.ts:12-15 | a pattern without `*` matches only itself |
| Exclusions.GlobStar | src/exclusions.ts:13 | a leading `*` matches any run without line breaks before the rest of the pattern |
| Exclusions.GlobMatchesChunks | src/exclusions.ts:12-15 | a match is the `*`-separated chunks in order, with line-break-free gaps between them |
| Exclusions.GlobSuffix | src/exclusions.ts:12-15 | `*ext` matches exactly the texts ending in `ext` with no line break before it |
| Exclusions.FolderRuleMatches | src/exclusions.ts:24-27 | a folder rule hits the folder itself and every path below it; its meaning is stated by `Exclusions.FolderRuleCoversSubpaths` and `Exclusions.FolderRuleWholeSegments` |
| Exclusions.GlobMatch | src/exclusions.ts:12-15 | the anchored wildcard test a pattern compiles to, applied to text already lower-cased by its callers; its meaning is stated by `Exclusions.GlobMatchesChunks` |
| Exclusions.IsPathExcluded | src/exclusions.ts:21-33 | a path is excluded when a folder rule or a file pattern hits its normal form; its meaning is stated by `Exclusions.ExcludedBySingleRule` |
| Exclusions.NoRulesNoExclusion | src/exclusions.ts:21-33 | no rules exclude nothing |
| Exclusions.SingleFolderRule | src/exclusions.ts:24-27 | one folder rule excludes exactly the paths it covers |
| Exclusions.SinglePattern | src/exclusions.ts:32 | one pattern excludes exactly the paths it matches after normalising both |
| Exclusions.ExcludedBySingleRule | src/exclusions.ts:21-33 | a path is excluded exactly when one folder or one pattern excludes it |
| Exclusions.MoreRulesExcludeMore | src/exclusions.ts:21-33 | adding a rule never un-excludes a path |
| Exclusions.VerdictIgnoresCaseAndSlash | src/exclusions.ts:21-33 | the verdict ignores case and slash direction in paths and rules |
| Exclusions.FolderExample | test/exclusions.test.ts:11 | a note inside a named folder is excluded by that folder |
| Exclusions.PatternExample | test/exclusions.test.ts:12 | a file ending in `ext` is excluded by `*ext` |
| Exclusions.UnrelatedPathExample | test/exclusions.test.ts:13 | a path matching neither the folder nor the suffix is kept |
| OrderedMap.Get | src/eventQueue.ts:33 | a lookup finds an element with the key exactly when the key is present |
| OrderedMap.PutKeys | src/eventQueue.ts:37 | `set` keeps the key order and appends a new key at the end |
| OrderedMap.GetPut | src/eventQueue.ts:37 | after `set` the key maps to the new value and every other key is unchanged |
| OrderedMap.PutPresent | src/eventQueue.ts:37 | `set` on a present key replaces the value in place |
| OrderedMap.PutDistinct | src/eventQueue.ts:37 | `set` keeps keys unique |
| OrderedMap.FirstSeenSpec | src/gateway.ts:51 | dedup keeps each value once and keeps exactly the values present |
| OrderedMap.FirstSeenOrder | src/gateway.ts:51 | deduplicated values keep the order of their first occurrences |
| OrderedMap.DistinctPermutation | src/eventQueue.ts:74 | a rearrangement of unique keys is unique |
| IndexLog.Append | src/indexWriter.ts:13-17 | an append keeps the old lines and adds the record as the last line, creating the file if missing |
| IndexLog.Compact | src/indexWriter.ts:19-37 | compaction leaves a missing file missing, fails on an unparsable line, else rewrites the latest record per note in first-seen order |
| IndexLog.LatestKeys | src/indexWriter.ts:31-34 | compacted notes come in the order of their first appearance |
| IndexLog.OnePerNote | src/indexWriter.ts:27-34 | compaction keeps one record per note and drops no note |
| IndexLog.LastWriteWins | src/indexWriter.ts:29-32 | each note's compacted record is its last one in the file |
| IndexLog.NothingInvented | src/indexWriter.ts:27-34 | every compacted record was in the file |
| IndexLog.LatestOfDistinct | src/indexWriter.ts:27-34 | a file with one record per note compacts to itself |
| IndexLog.CompactIdempotent | src/indexWriter.ts:19-37 | compacting twice is compacting once |
| IndexLog.RecordsOfRewritten | src/indexWriter.ts:34-35 | the rewritten file parses back to exactly the records written |
| IndexLog.NoRecordsEmptyFile | src/indexWriter.ts:35 | a file without records compacts to an empty file |
| IndexLog.AppendThenCompact | src/indexWriter.ts:13-37 | after an append, compaction keeps the appended record for its note |
| Sorting.Sort | src/eventQueue.ts:74 | the sort keeps the length and the elements |
| Sorting.SortSorted | src/eventQueue.ts:74 | under a total preorder the result is sorted |
| Sorting.SortOfSorted | src/eventQueue.ts:74 | a sorted list comes back unchanged |
| Sorting.InsertTied | src/eventQueue.ts:74 | an inserted element goes ahead of every element it ties with |
| Sorting.SortStable | src/eventQueue.ts:74 | elements the order ranks level keep their input order |
| EventQueue.NewQueue | src/eventQueue.ts:13-30 | a new queue is empty, idle, without timer and with zero counters |
| EventQueue.Enqueue | src/eventQueue.ts:32-40 | the queue keeps one event per note counted by `queued`, arms the timer and leaves the other counters |
| EventQueue.EnqueueMapView | src/eventQueue.ts:37 | after `enqueue(e)` the note's pending event is `e` and other notes' are unchanged |
| EventQueue.EnqueueCountsDuplicates | src/eventQueue.ts:33-38 | the duplicate counter grows exactly when the note already had a pending event; otherwise `queued` grows |
| EventQueue.Clear | src/eventQueue.ts:50-57 | clearing drops pending events and the timer and zeroes only `queued` |
| EventQueue.Drain | src/eventQueue.ts:68-93 | a drain is a no-op while running or when empty; else it sorts the batch, empties the queue, counts each event as processed or failed and stamps the time |
| EventQueue.Tally | src/eventQueue.ts:78-85 | the loop counts exactly the events the processor accepts |
| EventQueue.FlushNow | src/eventQueue.ts:42-48 | a flush cancels the timer, then drains |
| EventQueue.DrainBatchOrdered | src/eventQueue.ts:74 | the batch is the pending events in non-decreasing timestamp order |
| EventQueue.ByTimestamp | src/eventQueue.ts:74 | the drain order compares timestamps; `EventQueue.ByTimestampIsTotalPreorder` shows it is a total preorder |
| EventQueue.DrainKeepsOrderOfTies | src/eventQueue.ts:74 | events with equal timestamps are drained in the order they were queued |
| EventQueue.CountOk | src/eventQueue.ts:78-85 | the number of batch events the processor accepts is at most the batch size |
| EventQueue.CountOkAll | src/eventQueue.ts:78-85 | with a processor that never throws, every event counts as processed |
| EventQueue.DuplicateScenario | test/eventQueue.test.ts:5-26 | two events for one note flush as one call, on the later event, with one duplicate dropped |
| EventQueue.MixedBatchScenario | test/e2e.pipeline.spec.ts:5-19 | `modify a@1`, `modify a@2`, `delete b@3` flush as `[a@2, b@3]` with nothing failed |
| Gateway.MapError | src/gateway.ts:166-177 | 401 and 403 map to AUTH_FAILED, 429 to RATE_LIMIT, every other status to UPSTREAM_INVALID_RESPONSE |
| Gateway.ThrownCode | src/gateway.ts:147-160 | an abort is a TIMEOUT and any other thrown error a NETWORK_ERROR |
| Gateway.TrimmedIds | src/gateway.ts:47-48 | each listed item contributes its trimmed id, or nothing usable when it has none |
| Gateway.ListModels | src/gateway.ts:22-68 | discovery succeeds exactly on a 2xx response with a parsable body; a success lists exactly the catalog of the body's ids (trimmed, non-empty, unique, sorted); a failure has no models, a code and a message; only a non-2xx response sets `unsupported` |
| Gateway.ListModelsRejected | src/gateway.ts:33-41 | a non-2xx response carries the mapped code, `HTTP <status>`, and `unsupported` exactly for 404, 405 and 501 |
| Gateway.CatalogModels | src/gateway.ts:47-51 | the catalog is the trimmed non-empty ids, deduplicated and sorted; `Gateway.CatalogModelsOrdered` and `Gateway.CatalogModelsMembers` state what that yields |
| Gateway.DeepseekOrder | test/gateway.test.ts:73-90 | the two ids of the catalog test are in ascending order |
| Gateway.CatalogModelsOrdered | src/gateway.ts:47-51 | the listed models are unique and in ascending order |
| Gateway.CatalogModelsMembers | src/gateway.ts:47-51 | a model is listed exactly when some item's trimmed id is it and it is non-empty |
| Gateway.ListModelsPair | test/gateway.test.ts:67-91 | two distinct ordered ids are listed in that order |
| Gateway.NotFoundUnsupported | test/gateway.test.ts:93-107 | a 404 marks discovery unsupported |
| Gateway.SliceTo | src/gateway.ts:136 | the slice is the prefix of the text up to `end` clamped to the length, and for a negative `end` the prefix that leaves out the last `-end` characters (empty when that is all of them) |
| Gateway.Failure | src/gateway.ts:99-160 | a failure has an empty summary, a code and a message |
| Gateway.Summarize | src/gateway.ts:70-164 | the metadata names the provider, model, latency and time; success exactly when a 2xx body has non-blank content; a success carries the truncated trimmed content and token counts, a failure a code and a message |
| Gateway.SummarizeErrorCodes | src/gateway.ts:99-160 | TIMEOUT exactly on abort, NETWORK_ERROR exactly on other thrown errors, AUTH_FAILED on 401/403, RATE_LIMIT on 429, UPSTREAM_INVALID_RESPONSE on other statuses and missing content |
| Gateway.SummaryTruncated | src/gateway.ts:135-146 | the summary is a prefix of the trimmed content, at most `max_chars` long, all of it when it fits, and non-empty when `max_chars` is positive; exactly the first `max_chars` characters of the trimmed content, or all of it when shorter |
| Gateway.SummarizeMessages | src/gateway.ts:99-160 | the message is `HTTP <status>`, the thrown error's message, or the missing-content text |
| Gateway.RateLimited | test/gateway.test.ts:43-65 | a 429 fails with RATE_LIMIT and `HTTP 429` |
| Gateway.SummarizeSucceeds | test/gateway.test.ts:10-41 | a 200 with content succeeds with a non-empty summary for the configured model |
| RetryQueue.NextRetryCount | src/main.ts:622-625 | the next count is one for a new note, else the first stored item's count plus one |
| RetryQueue.Upsert | src/main.ts:606-616 | an upsert keeps the length for a present note and adds one for a new note |
| RetryQueue.UpsertKeys | src/main.ts:606-616 | an upsert keeps the note order and appends a new note at the end |
| RetryQueue.GetUpsert | src/main.ts:606-616 | after an upsert the note holds the new item with the old last-retry time kept, and other notes are unchanged |
| RetryQueue.UpsertDistinct | src/main.ts:606-616 | an upsert keeps one item per note |
| RetryQueue.Remove | src/main.ts:618-620 | removal keeps exactly the items of other notes |
| RetryQueue.RemoveAppend | src/main.ts:618-620 | removing from a concatenation removes from each part: the kept items stay in queue order, repeats included |
| RetryQueue.RemoveSingle | src/main.ts:618-620 | a single item is dropped exactly when it belongs to the note |
| RetryQueue.RemoveDistinct | src/main.ts:618-620 | removal keeps one item per note |
| RetryQueue.RemoveAbsent | src/main.ts:618-620 | removing an absent note changes nothing |
| RetryQueue.RemoveUndoesUpsert | src/main.ts:606-620 | removing a note after upserting it is removing it from the original queue |
| RetryQueue.TwoFailures | src/main.ts:322-334 | two failures of one note leave one item, counted 2 |
| Ops.BuildOpsSnapshot | src/ops.ts:11-17 | the snapshot passes the queue counters and last success through; failures come from the counters, or the retry queue's length when there are none |
| Ops.SnapshotFiguresAgree | src/ops.ts:13-14 | while the failure counter is current, failures and retries agree |
| Pipeline.HasApiConfig | src/main.ts:602-604 | the API is configured when URL and token are both non-blank; `Pipeline.ApiConfigNeedsText` states it character by character |
| Pipeline.HasExcludedTag | src/main.ts:597-600 | a note is excluded by tag when one of its tags equals an excluded tag ignoring case |
| Pipeline.ShouldExcludePath | src/main.ts:593-595 | the path verdict uses the settings' folder and pattern rules |
| Pipeline.ApiConfigNeedsText | src/main.ts:602-604 | the API is configured exactly when URL and token both hold a non-space character |
| Pipeline.ExcludedTagIgnoresCase | src/main.ts:597-600 | a tag equal to an excluded tag up to case excludes the note |
| Pipeline.NoExcludedTags | src/main.ts:597-600 | with no excluded tags nothing is excluded by tag |
| Pipeline.SummariseNote | src/main.ts:301-337 | pending exactly without API config; ok exactly when the gateway succeeds, and then the summary and metadata are the gateway's and the note's retry item is removed; a failure keeps the gateway's metadata, has no summary and upserts the failure item; never skipped |
| Pipeline.IndexNote | src/main.ts:291-369 | completing a note always saves and stamps the time, and leaves the schema and checkpoint |
| Pipeline.RenamedFrom | src/main.ts:355 | the old path is dropped only for a rename that names a non-empty one |
| Pipeline.ProcessEvent | src/main.ts:260-370 | an event that saves nothing changes nothing and writes no record |
| Pipeline.ChangedNoteIndexed | src/main.ts:278-369 | a kept markdown note with a new or changed fingerprint, or renamed, is indexed, dropping a rename's old path |
| Pipeline.ForceProcessFile | src/main.ts:476-555 | forcing a note always saves and keeps the checkpoint |
| Pipeline.ForgetOnly | src/main.ts:263-276 | a delete or an excluded path drops the note's hash and touches nothing else |
| Pipeline.NonNoteIgnored | src/main.ts:278-281 | a path that is not a markdown file changes nothing |
| Pipeline.UnchangedSkipped | src/main.ts:283-289 | an unchanged note changes nothing unless the event is a rename |
| Pipeline.ExcludedTagForgets | src/main.ts:294-299 | an excluded tag drops the note's hash and writes no record |
| Pipeline.Completion | src/main.ts:339-369 | a completed note gets a record with its hash, path and title; the hash map gains the path and loses the renamed path, every other entry keeps its value, and without a rename it is the old map with the note's hash set; total and failed counters are current |
| Pipeline.CompletedRecord | src/main.ts:339-351 | the record's summary, status and metadata are the summarisation step's, its tags and links the host's, its time the file's; the retry queue is the one that step leaves |
| Pipeline.CountersFollowStatus | src/main.ts:360-368 | summarised and pending counters grow by one exactly on that status |
| Pipeline.FailureStillRecordsHash | src/main.ts:325-358 | a failed summary is recorded as failed, its hash is kept and its retry item upserted |
| Pipeline.FailureUpsertsRetry | src/main.ts:325-334 | after a failure the note has one retry item with the next count and other notes' items are unchanged |
| Pipeline.RetryQueueOnSuccessOrNoConfig | src/main.ts:301-337 | a success leaves the note out of the retry queue; without API config the queue is unchanged and the status pending |
| Pipeline.ProcessKeepsRetryItemsUnique | src/main.ts:260-370 | processing an event keeps one retry item per note |
| Pipeline.ProcessKeepsFailedCountCurrent | src/main.ts:260-370 | processing keeps the failure counter equal to the retry queue's length |
| Pipeline.DeleteLeavesTotalStale | src/main.ts:263-268 | after deleting a counted note, `total_notes` is one more than the notes hashed |
| Pipeline.RenameMovesEntry | src/main.ts:355-358 | a rename drops the old path's hash and stores the new path's |
| Pipeline.EnqueueRetries | src/main.ts:564-571 | enqueuing the retry items keeps the queue valid and its processing flag |
| Pipeline.RetriesPending | src/main.ts:564-571 | every retry item's note has a pending `modify` event |
| Pipeline.RetryFailedSummaries | src/main.ts:557-576 | an empty retry queue changes nothing; otherwise the queue is emptied and saved, the retried events are flushed in timestamp order, and a current failure counter becomes stale |
| Pipeline.RetryLeavesFailedCountStale | src/main.ts:572-573 | after a retry empties the queue, the snapshot still reports the old failure count against zero retries |
| Pipeline.RetryOfUnchangedNoteIsLost | src/main.ts:283-289 | after a failed summary and a retry, the unchanged note's `modify` event is skipped |
| Rebuild.Eligible | src/main.ts:379 | the eligible files are exactly the vault's files no exclusion rule covers |
| Rebuild.EligibleAppend | src/main.ts:379 | selecting from a concatenation selects from each part: vault order and repeats are kept |
| Rebuild.EligibleSingle | src/main.ts:379 | a single file is kept exactly when no exclusion rule covers its path |
| Rebuild.NotProcessedMembers | src/main.ts:380-382 | a resumed run keeps exactly the files whose path is not recorded |
| Rebuild.IsCheckpointStep | src/main.ts:419 | a checkpoint is written after every tenth note and after the last one; `Rebuild.ReachedStep` states its effect on the count |
| Rebuild.CheckpointedPaths | src/main.ts:416-423 | the paths the first notes of a run push onto the checkpoint; `Rebuild.TenthOnly` and `Rebuild.CheckpointAfterFacts` state what they are |
| Rebuild.Reached | src/main.ts:416-422 | the count the checkpoint holds after some notes; `Rebuild.ReachedStep`, `Rebuild.ReachedMonotone` and `Rebuild.CountAtReached` state its behaviour |
| Rebuild.Next | src/main.ts:412-423 | one pass of the loop appends at most one record |
| Rebuild.RunSpec | src/main.ts:412-423 | the first notes of the loop append at most one record each |
| Rebuild.Stop | src/main.ts:412-414 | a run completes every note unless some note throws, and then stops at that note |
| Rebuild.RebuildIndex | src/main.ts:372-438 | fresh runs take every eligible file, resumed runs the unrecorded ones; a fresh run with none does nothing, else saves an initial checkpoint; the stored state and the appended records are the loop's reference outcome; a run that throws leaves an unfinished checkpoint counted to the last checkpoint step, a run that ends leaves a finished one counted to the end |
| Rebuild.RunFiles | src/main.ts:410-434 | the loop ends in the reference outcome: every completed note processed against the last saved state, its record appended, the checkpoint advanced at checkpoint steps and finished at the end |
| Rebuild.StepFile | src/main.ts:412-423 | one pass of the loop is one step of the reference |
| Rebuild.ForceKeepsCheckpoint | src/main.ts:476-555 | forcing a note never changes the checkpoint |
| Rebuild.RunTracksCheckpoint | src/main.ts:412-423 | during a run the checkpoint changes only at checkpoint steps, as the loop advances it |
| Rebuild.CheckpointAfterFacts | src/main.ts:416-423 | after some notes the checkpoint keeps its flag and total, counts on from the start, and has the checkpoint-step paths appended |
| Rebuild.CountAtReached | src/main.ts:416-422 | the count the loop writes step by step is the last checkpoint step reached |
| Rebuild.OutcomeCheckpoint | src/main.ts:412-434 | a thrown run leaves the checkpoint unfinished with the count and paths of the last checkpoint step; a completed run leaves it finished, counted to the end, total unchanged |
| Rebuild.ForceIndexesUntagged | src/main.ts:476-555 | forcing a note without an excluded tag always logs a record with its path and hash, and leaves the hash map as it was with that hash stored under the path |
| Rebuild.RunIndexesEachNote | src/main.ts:412-414 | a run over notes without excluded tags appends one record per note, in order, with the note's path and hash; every path then holds the hash of the last note run under it, and a path no note has keeps its old value |
| Rebuild.RunStoresHashes | src/main.ts:412-414 | the run's hash map is the old one with each note's hash stored in turn |
| Rebuild.HashesAfterLast | src/main.ts:412-414 | after storing notes in turn, a path holds the hash of the last note with that path |
| Rebuild.HashesAfterUntouched | src/main.ts:412-414 | a path no stored note has keeps its entry, or stays absent |
| Rebuild.RunHashValues | src/main.ts:412-414 | the hash values a run leaves: the last note's hash per path, old values elsewhere |
| Rebuild.RunLogsFiles | src/main.ts:412-414 | each note of the run logs its own record, in order |
| Rebuild.LogsFilesMeans | src/main.ts:412-414 | the k-th record names the k-th note and its hash |
| Rebuild.RunHashesFiles | src/main.ts:412-414 | after the run every note's path has a stored hash |
| Rebuild.RunKeepsEntries | src/main.ts:412-414 | a run loses no stored hash |
| Rebuild.ReachedStep | src/main.ts:416-422 | the recorded count advances to the step's count exactly at checkpoint steps |
| Rebuild.ReachedMonotone | src/main.ts:416-422 | the recorded count never goes back and never passes the files run |
| Rebuild.ResumeRebuild | src/main.ts:440-448 | without an unfinished rebuild nothing changes; else the unrecorded files are run from the recorded count, and a completed run is finished with the count grown by the files run |
| Rebuild.ClearRebuildCheckpoint | src/main.ts:450-457 | clearing marks an existing checkpoint finished and saves it; without one nothing changes |
| Rebuild.ClearedIsNotResumed | src/main.ts:440-457 | after clearing, no unfinished rebuild remains to resume |
| Rebuild.TenthOnly | src/main.ts:419-423 | ten steps into a longer run only the tenth path is recorded |
| Rebuild.NotProcessedOne | src/main.ts:380-382 | skipping one unique path removes exactly that file |
| Rebuild.NotProcessedAppend | src/main.ts:382 | the filter of a concatenation is the concatenation of the filters |
| Rebuild.ResumeRerunsUncheckpointed | src/main.ts:377-423 | after ten of n notes only the tenth path is recorded, so the other nine stay to be run and the count would end at n + 9 |
| Rebuild.InterruptedThenResumed | src/main.ts:372-448 | a fresh rebuild that throws at the eleventh note leaves count 10 and one recorded path; resuming it finishes with total n and count n + 9 |

## Left out

- Unicode: `trim` removes the six ASCII white-space characters, and `toLowerCase` maps only `A`–`Z`. JavaScript also trims and lower-cases the other Unicode space and letter characters.
- SHA-256: the digest is an opaque function parameter. Only equal normal forms giving equal hashes is used.
- JSON: parsing and serialisation are modelled as a parsed value or a parse failure. Null in typed fields other than `stats` is not modelled.
- `localeCompare`: replaced by code-point order. It is a total order, like the locale collation it stands for.
- Strings: a Dafny `string` is a sequence of Unicode scalar values, while JavaScript strings are UTF-16 code units. Lengths, slices and the string order are counted in scalar values. The order differs from JavaScript `<`, which compares code units, only when a character above U+FFFF is compared with one from U+E000 to U+FFFF.
- Asynchrony: interleaving between awaits is not modelled. Nor is an event enqueued while a drain runs, which triggers the re-schedule at src/eventQueue.ts:90-92. The debounce timer is only a flag saying whether it is armed, and the debounce delay is left out.
- EventQueue.Drain: the processor's effect on the index state is not composed into the queue. Each event's outcome is a parameter.
- Pipeline.RetryFailedSummaries: the flushed `processEvent` calls are not applied to the returned state. `Pipeline.RetryOfUnchangedNoteIsLost` states their effect separately.
- Time: one `now` value stands for every clock reading within a step.
- Rebuild.RebuildIndex: the host is a function of the file, so repeated reads of one note see the same content and gateway outcome. A thrown error is the input `failAt`, thrown before the failing note's record is appended; a throw between the append and the save, or in a checkpoint save, is not modelled.
- Tag and link extraction (`extractTags`, `extractOutlinks`): treated as host inputs.
- Not modelled: `hasRebuildCheckpoint`, `getRebuildCheckpointStatus`, notices, the status bar, progress fractions, settings UI, commands, and vault event registration (`enqueueFileEvent`).
- HTTP: a status is a natural number and latency an integer. Request building, headers and the abort timer are left out; only an abort's outcome is kept.
- Gateway.SliceTo: models `slice(0, n)` for integer `n`, including negative `n`. Fractional `max_chars` is not modelled. It counts Unicode scalar values, not UTF-16 code units, so a character above U+FFFF counts once where JavaScript counts two, and a surrogate pair is never split.
- Gateway.SummaryTruncated: the bound `max_chars` is on scalar values, not UTF-16 code units. For text with characters above U+FFFF the JavaScript summary can be shorter and can end in half a surrogate pair, which the model does not show.
- The append-only log's directory creation (`ensurePluginDir`) is left out.
- Exclusions.GlobMatch: follows the code, not the looser reading "`*` matches any run of characters". A `*` becomes `.*` in a regular expression without the `s` flag, so it matches no line break (`\n`, `\r`, U+2028, U+2029). Paths with line breaks are the only case where the two differ. The source's regular expression also carries the `i` flag, whose Unicode case folding the model drops: it matches lower-cased text against the lower-cased pattern character for character. The two agree on ASCII after lower-casing, but not on letters with several lower-case forms, e.g. `/σ/i` matches "ς" while the model does not.

=== FILE: event_queue.dfy ===
/**
 * The coalescing event queue: pending events keyed by note (a later event
 * for a note replaces the earlier one in place), a debounce timer modelled
 * as whether a timer handle is held, a processing flag, and counters.  A
 * drain sorts the pending events by timestamp, empties the queue and runs
 * the processor on each event; the processor's outcome per event is a
 * parameter (`true` when it resolves, `false` when it throws).
 */
module EventQueue {
  import opened Wrappers
  import opened IndexTypes
  import opened OrderedMap
  import opened Sorting

  datatype QueueStats = QueueStats(
    queued: nat,
    processed: nat,
    droppedAsDuplicate: nat,
    failed: nat,
    lastProcessedAt: Option<string>)

  datatype Queue = Queue(
    pending: seq<IndexEvent>,
    timerSet: bool,
    isProcessing: bool,
    stats: QueueStats)

  /** The pending map's key. */
  function NoteKey(e: IndexEvent): string {
    e.noteId
  }

  /** The drain order: the earlier timestamp first, equal timestamps counted as in order. */
  function ByTimestamp(a: IndexEvent, b: IndexEvent): bool {
    a.timestamp <= b.timestamp
  }

  /** What the queue always maintains: one pending event per note, counted by `queued`. */
  predicate Valid(q: Queue) {
    Distinct(Keys(q.pending, NoteKey)) && q.stats.queued == |q.pending|
  }

  /** A freshly constructed queue. */
  function NewQueue(): (q: Queue)
    ensures Valid(q) && q.pending == [] && !q.timerSet && !q.isProcessing
    ensures q.stats == QueueStats(0, 0, 0, 0, None)
  {
    Queue([], false, false, QueueStats(0, 0, 0, 0, None))
  }

  /** The pending event for a note, if any. */
  function PendingFor(q: Queue, noteId: string): Option<IndexEvent> {
    Get(q.pending, NoteKey, noteId)
  }

  /**
   * `enqueue`: the event replaces any pending event for its note (counted
   * as a dropped duplicate), `queued` tracks the pending count, and the
   * debounce timer is (re)armed.
   */
  function Enqueue(q: Queue, e: IndexEvent): (r: Queue)
    requires Valid(q)
    ensures Valid(r)
    ensures r.timerSet && r.isProcessing == q.isProcessing
    ensures r.stats.processed == q.stats.processed && r.stats.failed == q.stats.failed
    ensures r.stats.lastProcessedAt == q.stats.lastProcessedAt
  {
    var dup := PendingFor(q, e.noteId).Some?;
    var pending := Put(q.pending, NoteKey, e);
    PutDistinct(q.pending, NoteKey, e);
    PutKeys(q.pending, NoteKey, e);
    var s := q.stats;
    Queue(pending, true, q.isProcessing,
      s.(queued := |pending|, droppedAsDuplicate := if dup then s.droppedAsDuplicate + 1 else s.droppedAsDuplicate))
  }

  /** `clear`: pending events dropped unprocessed, timer cancelled, counters other than `queued` kept. */
  function Clear(q: Queue): (r: Queue)
    ensures Valid(r) && r.pending == [] && !r.timerSet
    ensures r.isProcessing == q.isProcessing
    ensures r.stats == q.stats.(queued := 0)
  {
    Queue([], false, q.isProcessing, q.stats.(queued := 0))
  }

  /** How many events of the batch the processor accepts. */
  function CountOk(batch: seq<IndexEvent>, ok: IndexEvent -> bool): (n: nat)
    ensures n <= |batch|
  {
    if batch == [] then 0
    else CountOk(batch[..|batch| - 1], ok) + (if ok(batch[|batch| - 1]) then 1 else 0)
  }

  /**
   * `process`: a no-op while a drain is running or nothing is pending;
   * otherwise the pending events, sorted by timestamp, are handed to the
   * processor one by one, each counted as processed or failed, and the
   * drain's completion time is recorded.  The timer handle is left as it is.
   */
  method Drain(q: Queue, now: string, ok: IndexEvent -> bool) returns (r: Queue, batch: seq<IndexEvent>)
    requires Valid(q)
    ensures Valid(r)
    ensures q.isProcessing || q.pending == [] ==> r == q && batch == []
    ensures !q.isProcessing && q.pending != [] ==>
      && batch == Sort(q.pending, ByTimestamp)
      && r.pending == [] && !r.isProcessing && r.timerSet == q.timerSet
      && r.stats.processed == q.stats.processed + CountOk(batch, ok)
      && r.stats.failed == q.stats.failed + (|batch| - CountOk(batch, ok))
      && r.stats.droppedAsDuplicate == q.stats.droppedAsDuplicate
      && r.stats.lastProcessedAt == Some(now)
  {
    if q.isProcessing || |q.pending| == 0 {
      return q, [];
    }
    batch := Sort(q.pending, ByTimestamp);
    var accepted := Tally(batch, ok);
    r := Queue([], q.timerSet, false,
      QueueStats(0, q.stats.processed + accepted, q.stats.droppedAsDuplicate, q.stats.failed + (|batch| - accepted), Some(now)));
  }

  /** The drain loop's count of the events the processor accepts. */
  method Tally(batch: seq<IndexEvent>, ok: IndexEvent -> bool) returns (accepted: nat)
    ensures accepted == CountOk(batch, ok)
  {
    accepted := 0;
    var i := 0;
    while i < |batch|
      invariant 0 <= i <= |batch|
      invariant accepted == CountOk(batch[..i], ok)
    {
      assert batch[..i + 1][..i] == batch[..i];
      if ok(batch[i]) {
        accepted := accepted + 1;
      }
      i := i + 1;
    }
    assert batch[..i] == batch;
  }

  /** `flushNow`: cancel the timer, then drain. */
  method FlushNow(q: Queue, now: string, ok: IndexEvent -> bool) returns (r: Queue, batch: seq<IndexEvent>)
    requires Valid(q)
    ensures Valid(r) && !r.timerSet
    ensures q.isProcessing || q.pending == [] ==> r == q.(timerSet := false) && batch == []
    ensures !q.isProcessing && q.pending != [] ==>
      && batch == Sort(q.pending, ByTimestamp)
      && r.pending == [] && r.stats.queued == 0 && !r.isProcessing
      && r.stats.processed == q.stats.processed + CountOk(batch, ok)
      && r.stats.failed == q.stats.failed + (|batch| - CountOk(batch, ok))
      && r.stats.droppedAsDuplicate == q.stats.droppedAsDuplicate
      && r.stats.lastProcessedAt == Some(now)
  {
    r, batch := Drain(q.(timerSet := false), now, ok);
  }

  // ---------------------------------------------------------------- properties

  /** After `enqueue(e)` the note's pending event is `e` and every other note's is unchanged. */
  lemma EnqueueMapView(q: Queue, e: IndexEvent, noteId: string)
    requires Valid(q)
    ensures PendingFor(Enqueue(q, e), noteId) == if noteId == e.noteId then Some(e) else PendingFor(q, noteId)
  {
    GetPut(q.pending, NoteKey, e, noteId);
  }

  /** The duplicate counter grows by one exactly when the note already had a pending event. */
  lemma EnqueueCountsDuplicates(q: Queue, e: IndexEvent)
    requires Valid(q)
    ensures var r := Enqueue(q, e);
      (e.noteId in Keys(q.pending, NoteKey) ==>
        r.stats.droppedAsDuplicate == q.stats.droppedAsDuplicate + 1 && r.stats.queued == q.stats.queued)
      && (e.noteId !in Keys(q.pending, NoteKey) ==>
        r.stats.droppedAsDuplicate == q.stats.droppedAsDuplicate && r.stats.queued == q.stats.queued + 1)
  {
    PutKeys(q.pending, NoteKey, e);
  }

  /** Timestamps order events totally and transitively. */
  lemma ByTimestampIsTotalPreorder()
    ensures Total(ByTimestamp) && Transitive(ByTimestamp)
  {
  }

  /** A drain's batch is the pending events, rearranged into non-decreasing timestamp order. */
  lemma DrainBatchOrdered(q: Queue)
    ensures multiset(Sort(q.pending, ByTimestamp)) == multiset(q.pending)
    ensures forall i, j :: 0 <= i < j < |q.pending| ==>
      Sort(q.pending, ByTimestamp)[i].timestamp <= Sort(q.pending, ByTimestamp)[j].timestamp
  {
    ByTimestampIsTotalPreorder();
    SortSorted(q.pending, ByTimestamp);
  }

  /** Events with equal timestamps are drained in the order they were queued. */
  lemma DrainKeepsOrderOfTies(q: Queue, e: IndexEvent)
    ensures Tied(Sort(q.pending, ByTimestamp), ByTimestamp, e) == Tied(q.pending, ByTimestamp, e)
  {
    ByTimestampIsTotalPreorder();
    SortStable(q.pending, ByTimestamp, e);
  }

  /** Every event of the batch is handled: with a processor that never throws, nothing fails. */
  lemma {:induction false} CountOkAll(batch: seq<IndexEvent>, ok: IndexEvent -> bool)
    requires forall e :: e in batch ==> ok(e)
    ensures CountOk(batch, ok) == |batch|
    decreases |batch|
  {
    if batch != [] {
      var init := batch[..|batch| - 1];
      assert forall e :: e in init ==> e in batch;
      CountOkAll(init, ok);
    }
  }

  /**
   * The test's duplicate case: two events for one note before a flush give
   * one processor call, on the later event, and one dropped duplicate.
   */
  method DuplicateScenario(e1: IndexEvent, e2: IndexEvent, now: string, ok: IndexEvent -> bool)
    returns (r: Queue, batch: seq<IndexEvent>)
    requires e1.noteId == e2.noteId
    ensures batch == [e2]
    ensures r.stats.droppedAsDuplicate == 1 && r.pending == []
  {
    var q := Enqueue(NewQueue(), e1);
    assert q.pending == [e1];
    q := Enqueue(q, e2);
    assert q.pending == [e2];
    r, batch := FlushNow(q, now, ok);
  }

  /**
   * The end-to-end test's batch: `modify a@1`, `modify a@2`, `delete b@3`
   * flush as the later `a` event then the `b` event, with nothing failed
   * when the processor never throws.
   */
  method MixedBatchScenario(e1: IndexEvent, e2: IndexEvent, e3: IndexEvent, now: string)
    returns (r: Queue, batch: seq<IndexEvent>)
    requires e1.noteId == e2.noteId != e3.noteId
    requires e2.timestamp <= e3.timestamp
    ensures batch == [e2, e3]
    ensures r.stats.failed == 0 && r.stats.processed == 2 && r.stats.droppedAsDuplicate == 1
  {
    var ok := (e: IndexEvent) => true;
    var q := Enqueue(NewQueue(), e1);
    assert q.pending == [e1];
    q := Enqueue(q, e2);
    assert q.pending == [e2];
    assert Keys([e2], NoteKey) == [e2.noteId];
    PutNew([e2], NoteKey, e3);
    q := Enqueue(q, e3);
    assert q.pending == [e2, e3];
    assert SortedBy([e2, e3], ByTimestamp);
    SortOfSorted(q.pending, ByTimestamp);
    CountOkAll([e2, e3], ok);
    r, batch := FlushNow(q, now, ok);
  }
}

=== FILE: exclusions.dfy ===
/**
 * Exclusion rules: rule-list parsing, path normalisation, whole-segment
 * folder matching and anchored `*` globs.  Globs are matched directly
 * instead of through a generated regular expression; the reference
 * definition `ChunksMatch` follows the expression's shape and the two are
 * proved equivalent.
 */
module Exclusions {
  import opened Text

  // ---------------------------------------------------------------- rule lists

  /** Characters that separate entries of a rule list. */
  const RuleSeparators: set<char> := {',', '\n'}

  /** `parseRuleList`: split on commas and newlines, trim, drop empty entries. */
  function ParseRuleList(raw: string): (r: seq<string>)
    ensures forall k :: 0 <= k < |r| ==> r[k] != [] && Trimmed(r[k])
    ensures forall k, c :: 0 <= k < |r| && c in r[k] ==> c !in RuleSeparators
  {
    var pieces := Split(raw, RuleSeparators);
    var r := NonEmpty(TrimAll(pieces));
    SplitPiecesFree(raw, RuleSeparators);
    forall k, c | 0 <= k < |r| && c in r[k]
      ensures c !in RuleSeparators
    {
      var j :| 0 <= j < |TrimAll(pieces)| && TrimAll(pieces)[j] == r[k];
      TrimKeepsChars(pieces[j], c);
    }
    r
  }

  /** Dropping empty entries keeps a list without empty entries as it is. */
  lemma {:induction false} NonEmptyKeepsFull(items: seq<string>)
    requires forall k :: 0 <= k < |items| ==> items[k] != []
    ensures NonEmpty(items) == items
    decreases |items|
  {
    if items != [] {
      NonEmptyKeepsFull(items[1..]);
      assert [items[0]] + items[1..] == items;
    }
  }

  /** Trimming every entry keeps a list of trimmed entries as it is. */
  lemma TrimAllKeepsTrimmed(items: seq<string>)
    requires forall k :: 0 <= k < |items| ==> Trimmed(items[k])
    ensures TrimAll(items) == items
  {
    forall k | 0 <= k < |items|
      ensures TrimAll(items)[k] == items[k]
    {
      TrimOfTrimmed(items[k]);
    }
  }

  /** Writing a valid rule list back with commas and parsing it again gives the same list. */
  lemma ParseJoinRoundTrip(items: seq<string>)
    requires forall k :: 0 <= k < |items| ==> items[k] != [] && Trimmed(items[k])
    requires forall k, c :: 0 <= k < |items| && c in items[k] ==> c !in RuleSeparators
    ensures ParseRuleList(Join(items, ',')) == items
  {
    if items == [] {
      assert Split([], RuleSeparators) == [""];
      assert TrimAll([""]) == [""];
      assert Trim("") == "";
    } else {
      SplitJoin(items, ',', RuleSeparators);
      TrimAllKeepsTrimmed(items);
      NonEmptyKeepsFull(items);
    }
  }

  /** A piece followed by a separator and more text splits off as the first entry. */
  predicate RuleName(a: string) {
    a != [] && Trimmed(a) && ',' !in a && '\n' !in a
  }

  /** The last pieces of the test's rule list: a padded entry, then a blank line. */
  lemma SplitRuleListTail(c: string)
    requires RuleName(c)
    ensures Split(" " + c + " " + "\n\n", RuleSeparators) == [" " + c + " ", "", ""]
  {
    var seps := RuleSeparators;
    var e: string := [];
    var sc := " " + c + " ";
    assert forall x :: x in sc ==> x == ' ' || x in c;
    SplitSingle(e, seps);
    SplitAfterPiece(e, '\n', e, seps);
    assert e + ['\n'] + e == "\n";
    SplitAfterPiece(sc, '\n', "\n", seps);
    assert sc + ['\n'] + "\n" == sc + "\n\n";
  }

  /** The pieces of the test's rule list, with any three rule names in place of `a`, `b`, `c`. */
  lemma SplitRuleListExample(a: string, b: string, c: string)
    requires RuleName(a) && RuleName(b) && RuleName(c)
    ensures Split(a + "," + b + "\n " + c + " \n\n", RuleSeparators) == [a, b, " " + c + " ", "", ""]
  {
    var seps := RuleSeparators;
    var tail := " " + c + " " + "\n\n";
    SplitRuleListTail(c);
    SplitAfterPiece(b, '\n', tail, seps);
    SplitAfterPiece(a, ',', b + ['\n'] + tail, seps);
    assert a + "," + b + "\n " + c + " \n\n" == a + [','] + (b + ['\n'] + tail);
  }

  /** Trimming the pieces of the test's rule list. */
  lemma TrimRuleListExample(a: string, b: string, c: string)
    requires RuleName(a) && RuleName(b) && RuleName(c)
    ensures TrimAll([a, b, " " + c + " ", "", ""]) == [a, b, c, "", ""]
  {
    TrimOfTrimmed(a);
    TrimOfTrimmed(b);
    TrimOfTrimmed(c);
    TrimOfTrimmed("");
    TrimIgnoresSpace(" ", c, " ");
  }

  /** Dropping the blank pieces of the test's rule list. */
  lemma NonEmptyRuleListExample(a: string, b: string, c: string)
    requires a != [] && b != [] && c != []
    ensures NonEmpty([a, b, c, "", ""]) == [a, b, c]
  {
    var e: string := [];
    assert [a, b, c, e, e][1..] == [b, c, e, e];
    assert [b, c, e, e][1..] == [c, e, e];
    assert [c, e, e][1..] == [e, e];
    assert NonEmpty([e, e]) == [];
    assert NonEmpty([c, e, e]) == [c];
    assert NonEmpty([b, c, e, e]) == [b, c];
  }

  /**
   * The test's rule list `"a,b\n c \n\n"`, for any three rule names in
   * place of `a`, `b` and `c`: blank entries vanish and entries are trimmed.
   */
  lemma ParseRuleListExample(a: string, b: string, c: string)
    requires RuleName(a) && RuleName(b) && RuleName(c)
    ensures ParseRuleList(a + "," + b + "\n " + c + " \n\n") == [a, b, c]
  {
    SplitRuleListExample(a, b, c);
    TrimRuleListExample(a, b, c);
    NonEmptyRuleListExample(a, b, c);
  }

  // ---------------------------------------------------------------- paths

  /** A backslash read as a forward slash. */
  function SlashChar(c: char): (r: char)
    ensures r != '\\'
    ensures c != '\\' ==> r == c
  {
    if c == '\\' then '/' else c
  }

  /** `replace(/\\/g, "/")`. */
  function Slashes(s: string): (r: string)
    ensures |r| == |s|
    ensures forall i :: 0 <= i < |s| ==> r[i] == SlashChar(s[i])
  {
    if s == [] then [] else [SlashChar(s[0])] + Slashes(s[1..])
  }

  /** `s` begins with `./`. */
  predicate StartsDotSlash(s: string) {
    |s| >= 2 && s[0] == '.' && s[1] == '/'
  }

  /** `replace(/^\.\//, "")`: one leading `./` removed. */
  function StripDotSlash(s: string): (r: string)
    ensures StartsDotSlash(s) ==> s == "./" + r
    ensures !StartsDotSlash(s) ==> r == s
  {
    if StartsDotSlash(s) then s[2..] else s
  }

  /** `normalizePath`: slashes unified, one leading `./` dropped, ASCII lower-cased. */
  function NormalizePath(path: string): (r: string)
    ensures forall i :: 0 <= i < |r| ==> r[i] != '\\' && !('A' <= r[i] <= 'Z')
  {
    Lower(StripDotSlash(Slashes(path)))
  }

  /** The case- and slash-insensitive reading of one character. */
  function Canon(c: char): (r: char)
    ensures r != '\\' && !('A' <= r <= 'Z')
  {
    LowerChar(SlashChar(c))
  }

  /** Two paths that differ at most in ASCII case and in `\` versus `/`. */
  predicate SameUpToCaseAndSlash(a: string, b: string) {
    |a| == |b| && forall i :: 0 <= i < |a| ==> Canon(a[i]) == Canon(b[i])
  }

  /** Lower-casing and stripping `./` commute: neither touches the other's characters. */
  lemma LowerStripCommute(x: string)
    ensures Lower(StripDotSlash(x)) == StripDotSlash(Lower(x))
  {
    if StartsDotSlash(x) {
      assert Lower(x[2..]) == Lower(x)[2..];
    } else if |x| >= 2 {
      assert LowerChar(x[0]) == '.' ==> x[0] == '.';
      assert LowerChar(x[1]) == '/' ==> x[1] == '/';
    }
  }

  /** Normalisation is stripping `./` from the per-character canonical form. */
  lemma NormalizeIsCanon(path: string)
    ensures NormalizePath(path) == StripDotSlash(Lower(Slashes(path)))
    ensures |Lower(Slashes(path))| == |path|
    ensures forall i :: 0 <= i < |path| ==> Lower(Slashes(path))[i] == Canon(path[i])
  {
    LowerStripCommute(Slashes(path));
  }

  /** Paths that differ only in ASCII case or slash direction normalise alike. */
  lemma NormalizeIgnoresCaseAndSlash(a: string, b: string)
    requires SameUpToCaseAndSlash(a, b)
    ensures NormalizePath(a) == NormalizePath(b)
  {
    NormalizeIsCanon(a);
    NormalizeIsCanon(b);
    assert Lower(Slashes(a)) == Lower(Slashes(b));
  }

  /** A normalised path is its own lower-case form. */
  lemma NormalizeIsLower(path: string)
    ensures Lower(NormalizePath(path)) == NormalizePath(path)
  {
    LowerIdempotent(StripDotSlash(Slashes(path)));
  }

  // ---------------------------------------------------------------- folders

  /** `replace(/\/+$/, "")`: the whole trailing run of slashes removed. */
  function TrimTrailingSlashes(s: string): (r: string)
    ensures r <= s
    ensures r == [] || r[|r| - 1] != '/'
    ensures forall i :: |r| <= i < |s| ==> s[i] == '/'
  {
    if |s| > 0 && s[|s| - 1] == '/' then TrimTrailingSlashes(s[..|s| - 1]) else s
  }

  /** A folder rule applied to a normalised path: the folder itself or anything below it. */
  predicate FolderRuleMatches(normalized: string, folder: string) {
    var f := TrimTrailingSlashes(NormalizePath(folder));
    normalized == f || f + "/" <= normalized
  }

  /** Everything below an excluded path is excluded by the same folder rule. */
  lemma FolderRuleCoversSubpaths(normalized: string, folder: string, rest: string)
    requires FolderRuleMatches(normalized, folder)
    ensures FolderRuleMatches(normalized + "/" + rest, folder)
  {
    var f := TrimTrailingSlashes(NormalizePath(folder));
    if normalized == f {
      assert (normalized + "/" + rest)[..|f| + 1] == f + "/";
    } else {
      assert (normalized + "/" + rest)[..|f| + 1] == normalized[..|f| + 1];
    }
  }

  /**
   * Folder rules match whole segments: a sibling whose name merely extends
   * the folder's name is not matched (`Daily Notes` does not cover `Daily Notes2/x`).
   */
  lemma FolderRuleWholeSegments(normalized: string, folder: string)
    requires var f := TrimTrailingSlashes(NormalizePath(folder));
      |normalized| > |f| && normalized[..|f|] == f && normalized[|f|] != '/'
    ensures !FolderRuleMatches(normalized, folder)
  {
  }

  // ---------------------------------------------------------------- globs

  /** Characters that the regular expression's `.` does not match. */
  predicate IsLineBreak(c: char) {
    c == '\n' || c == '\r' || c == '\U{2028}' || c == '\U{2029}'
  }

  predicate NoLineBreak(s: string) {
    forall i :: 0 <= i < |s| ==> !IsLineBreak(s[i])
  }

  /**
   * The anchored match of `^chunk0.*chunk1.*…$` with every chunk escaped:
   * each `*` matches a run of non-line-break characters, everything else
   * matches itself.
   */
  predicate GlobMatch(p: string, s: string)
    decreases |p|, |s|
  {
    if p == [] then s == []
    else if p[0] == '*' then
      GlobMatch(p[1..], s) || (s != [] && !IsLineBreak(s[0]) && GlobMatch(p, s[1..]))
    else s != [] && s[0] == p[0] && GlobMatch(p[1..], s[1..])
  }

  /** A glob without `*` matches exactly the identical text. */
  lemma {:induction false} GlobWithoutStar(p: string, s: string)
    requires '*' !in p
    ensures GlobMatch(p, s) <==> s == p
    decreases |p|
  {
    if p != [] {
      assert '*' !in p[1..] by {
        forall i | 0 <= i < |p[1..]| ensures p[1..][i] != '*' {
          assert p[1..][i] == p[i + 1];
        }
      }
      if s != [] {
        GlobWithoutStar(p[1..], s[1..]);
        assert s == [s[0]] + s[1..] && p == [p[0]] + p[1..];
      }
    }
  }

  /** A line-break-free text extended at the front stays line-break free iff the new character is. */
  lemma NoLineBreakCons(c: char, t: string)
    ensures NoLineBreak([c] + t) <==> !IsLineBreak(c) && NoLineBreak(t)
  {
    var u := [c] + t;
    assert u[0] == c;
    if NoLineBreak(u) {
      forall i | 0 <= i < |t| ensures !IsLineBreak(t[i]) {
        assert t[i] == u[i + 1];
      }
    }
    if !IsLineBreak(c) && NoLineBreak(t) {
      forall i | 0 <= i < |u| ensures !IsLineBreak(u[i]) {
        if i > 0 {
          assert u[i] == t[i - 1];
        }
      }
    }
  }

  /** How a star match splits: the prefix the `*` absorbed, then a match of the rest. */
  lemma {:induction false} GlobStarSplit(p: string, s: string) returns (k: nat)
    requires p != [] && p[0] == '*' && GlobMatch(p, s)
    ensures k <= |s| && NoLineBreak(s[..k]) && GlobMatch(p[1..], s[k..])
    decreases |s|
  {
    if GlobMatch(p[1..], s) {
      k := 0;
      assert s[0..] == s;
    } else {
      var k' := GlobStarSplit(p, s[1..]);
      k := k' + 1;
      assert s[1..][k'..] == s[k..];
      assert s[..k] == [s[0]] + s[1..][..k'];
      NoLineBreakCons(s[0], s[1..][..k']);
    }
  }

  /** Any line-break-free prefix may be absorbed by a leading `*`. */
  lemma {:induction false} GlobStarAbsorb(p: string, s: string, k: nat)
    requires p != [] && p[0] == '*'
    requires k <= |s| && NoLineBreak(s[..k]) && GlobMatch(p[1..], s[k..])
    ensures GlobMatch(p, s)
    decreases k
  {
    if k == 0 {
      assert s[0..] == s;
    } else {
      assert s[..k] == [s[0]] + s[1..][..k - 1];
      NoLineBreakCons(s[0], s[1..][..k - 1]);
      assert s[1..][k - 1..] == s[k..];
      GlobStarAbsorb(p, s[1..], k - 1);
    }
  }

  /** A leading `*` absorbs some prefix without line breaks, then the rest must match. */
  lemma GlobStar(p: string, s: string)
    requires p != [] && p[0] == '*'
    ensures GlobMatch(p, s) <==>
      exists k :: 0 <= k <= |s| && NoLineBreak(s[..k]) && GlobMatch(p[1..], s[k..])
  {
    if GlobMatch(p, s) {
      var k := GlobStarSplit(p, s);
    }
    if exists k :: 0 <= k <= |s| && NoLineBreak(s[..k]) && GlobMatch(p[1..], s[k..]) {
      var k :| 0 <= k <= |s| && NoLineBreak(s[..k]) && GlobMatch(p[1..], s[k..]);
      GlobStarAbsorb(p, s, k);
    }
  }

  /**
   * Reference reading of the generated expression over the `*`-separated
   * chunks: the text is the first chunk, then for each later chunk a run
   * without line breaks followed by that chunk, and nothing after the last.
   */
  ghost predicate ChunksMatch(chunks: seq<string>, s: string)
    requires |chunks| >= 1
    decreases |chunks|
  {
    if |chunks| == 1 then s == chunks[0]
    else exists gap, t :: s == chunks[0] + gap + t && NoLineBreak(gap) && ChunksMatch(chunks[1..], t)
  }

  /** The witnesses of a match against two or more chunks. */
  lemma ChunksWitness(chunks: seq<string>, s: string) returns (gap: string, t: string)
    requires |chunks| >= 2 && ChunksMatch(chunks, s)
    ensures s == chunks[0] + gap + t && NoLineBreak(gap) && ChunksMatch(chunks[1..], t)
  {
    gap, t :| s == chunks[0] + gap + t && NoLineBreak(gap) && ChunksMatch(chunks[1..], t);
  }

  /** Witnesses suffice for a match against two or more chunks. */
  lemma ChunksStep(chunks: seq<string>, s: string, gap: string, t: string)
    requires |chunks| >= 2
    requires s == chunks[0] + gap + t && NoLineBreak(gap) && ChunksMatch(chunks[1..], t)
    ensures ChunksMatch(chunks, s)
  {
  }

  /** A non-`*` character in front of the first chunk consumes one matching character. */
  lemma ChunksCons(c: char, r: seq<string>, s: string)
    requires |r| >= 1
    ensures ChunksMatch([[c] + r[0]] + r[1..], s) <==> (s != [] && s[0] == c && ChunksMatch(r, s[1..]))
  {
    var cs := [[c] + r[0]] + r[1..];
    assert cs[0] == [c] + r[0] && cs[1..] == r[1..] && |cs| == |r|;
    if |r| == 1 {
      if s != [] && s[0] == c {
        assert s == [c] + s[1..];
      }
    } else {
      if ChunksMatch(cs, s) {
        var gap, t := ChunksWitness(cs, s);
        ConcatAssoc([c], r[0] + gap, t);
        ConcatAssoc([c], r[0], gap);
        var u := r[0] + gap + t;
        assert s == [c] + u;
        assert s[1..] == u;
        ChunksStep(r, u, gap, t);
      }
      if s != [] && s[0] == c && ChunksMatch(r, s[1..]) {
        var gap, t := ChunksWitness(r, s[1..]);
        ConcatAssoc([c], r[0] + gap, t);
        ConcatAssoc([c], r[0], gap);
        assert s == [c] + s[1..];
        ChunksStep(cs, s, gap, t);
      }
    }
  }

  /** The direct matcher agrees with the reference reading of the generated expression. */
  lemma {:induction false} GlobMatchesChunks(p: string, s: string)
    ensures GlobMatch(p, s) <==> ChunksMatch(Split(p, {'*'}), s)
    decreases |p|, 1
  {
    if p == [] {
      assert Split(p, {'*'}) == [""];
    } else if p[0] == '*' {
      StarMatchesChunks(p, s);
    } else {
      LiteralMatchesChunks(p, s);
    }
  }

  /** `GlobMatchesChunks` when the glob starts with `*`: an empty first chunk, then a gap. */
  lemma {:induction false} StarMatchesChunks(p: string, s: string)
    requires p != [] && p[0] == '*'
    ensures GlobMatch(p, s) <==> ChunksMatch(Split(p, {'*'}), s)
    decreases |p|, 0
  {
    var r := Split(p[1..], {'*'});
    var cs := [""] + r;
    assert Split(p, {'*'}) == cs;
    assert cs[0] == "" && cs[1..] == r;
    if GlobMatch(p, s) {
      var k := GlobStarSplit(p, s);
      GlobMatchesChunks(p[1..], s[k..]);
      assert s == cs[0] + s[..k] + s[k..];
      ChunksStep(cs, s, s[..k], s[k..]);
    }
    if ChunksMatch(cs, s) {
      var gap, t := ChunksWitness(cs, s);
      GlobMatchesChunks(p[1..], t);
      assert s[..|gap|] == gap && s[|gap|..] == t;
      GlobStarAbsorb(p, s, |gap|);
    }
  }

  /** `GlobMatchesChunks` when the glob starts with a literal character. */
  lemma {:induction false} LiteralMatchesChunks(p: string, s: string)
    requires p != [] && p[0] != '*'
    ensures GlobMatch(p, s) <==> ChunksMatch(Split(p, {'*'}), s)
    decreases |p|, 0
  {
    var r := Split(p[1..], {'*'});
    assert Split(p, {'*'}) == [[p[0]] + r[0]] + r[1..];
    ChunksCons(p[0], r, s);
    if s != [] {
      GlobMatchesChunks(p[1..], s[1..]);
    }
  }

  // ---------------------------------------------------------------- verdict

  /** `isPathExcluded`: some folder rule covers the path, or some glob matches it. */
  predicate IsPathExcluded(path: string, folders: seq<string>, patterns: seq<string>) {
    var n := NormalizePath(path);
    (exists i :: 0 <= i < |folders| && FolderRuleMatches(n, folders[i]))
    || (exists j :: 0 <= j < |patterns| && GlobMatch(NormalizePath(patterns[j]), n))
  }

  /** With no rules nothing is excluded. */
  lemma NoRulesNoExclusion(path: string)
    ensures !IsPathExcluded(path, [], [])
  {
  }

  /** A single folder rule excludes exactly what it covers. */
  lemma SingleFolderRule(path: string, folder: string)
    ensures IsPathExcluded(path, [folder], []) <==> FolderRuleMatches(NormalizePath(path), folder)
  {
    assert [folder][0] == folder;
  }

  /** A single glob excludes exactly what it matches. */
  lemma SinglePattern(path: string, pattern: string)
    ensures IsPathExcluded(path, [], [pattern]) <==> GlobMatch(NormalizePath(pattern), NormalizePath(path))
  {
    assert [pattern][0] == pattern;
  }

  /** The verdict is positive exactly when one rule on its own excludes the path. */
  lemma ExcludedBySingleRule(path: string, folders: seq<string>, patterns: seq<string>)
    ensures IsPathExcluded(path, folders, patterns) <==>
      (exists i :: 0 <= i < |folders| && IsPathExcluded(path, [folders[i]], []))
      || (exists j :: 0 <= j < |patterns| && IsPathExcluded(path, [], [patterns[j]]))
  {
    forall i | 0 <= i < |folders| {
      SingleFolderRule(path, folders[i]);
    }
    forall j | 0 <= j < |patterns| {
      SinglePattern(path, patterns[j]);
    }
  }

  /** Adding a rule to either list never un-excludes a path. */
  lemma MoreRulesExcludeMore(path: string, folders: seq<string>, patterns: seq<string>, f: string, g: string)
    requires IsPathExcluded(path, folders, patterns)
    ensures IsPathExcluded(path, folders + [f], patterns)
    ensures IsPathExcluded(path, folders, patterns + [g])
  {
    var n := NormalizePath(path);
    if i :| 0 <= i < |folders| && FolderRuleMatches(n, folders[i]) {
      assert (folders + [f])[i] == folders[i];
    } else {
      var j :| 0 <= j < |patterns| && GlobMatch(NormalizePath(patterns[j]), n);
      assert (patterns + [g])[j] == patterns[j];
    }
  }

  /** Rules and paths that differ only in ASCII case or slash direction give the same verdict. */
  lemma VerdictIgnoresCaseAndSlash(path: string, path': string, folders: seq<string>, folders': seq<string>,
                                   patterns: seq<string>, patterns': seq<string>)
    requires SameUpToCaseAndSlash(path, path')
    requires |folders| == |folders'| && |patterns| == |patterns'|
    requires forall i :: 0 <= i < |folders| ==> SameUpToCaseAndSlash(folders[i], folders'[i])
    requires forall j :: 0 <= j < |patterns| ==> SameUpToCaseAndSlash(patterns[j], patterns'[j])
    ensures IsPathExcluded(path, folders, patterns) == IsPathExcluded(path', folders', patterns')
  {
    NormalizeIgnoresCaseAndSlash(path, path');
    forall i | 0 <= i < |folders|
      ensures NormalizePath(folders[i]) == NormalizePath(folders'[i])
    {
      NormalizeIgnoresCaseAndSlash(folders[i], folders'[i]);
    }
    forall j | 0 <= j < |patterns|
      ensures NormalizePath(patterns[j]) == NormalizePath(patterns'[j])
    {
      NormalizeIgnoresCaseAndSlash(patterns[j], patterns'[j]);
    }
  }

  // ---------------------------------------------------------------- examples

  /** Lower-casing distributes over concatenation. */
  lemma LowerAppend(x: string, y: string)
    ensures Lower(x + y) == Lower(x) + Lower(y)
  {
    assert forall i :: 0 <= i < |y| ==> (x + y)[|x| + i] == y[i];
  }

  /** Slash replacement distributes over concatenation. */
  lemma SlashesAppend(x: string, y: string)
    ensures Slashes(x + y) == Slashes(x) + Slashes(y)
  {
    assert forall i :: 0 <= i < |y| ==> (x + y)[|x| + i] == y[i];
  }

  /** Text without backslashes is untouched by slash replacement. */
  lemma SlashesWithoutBackslash(x: string)
    requires '\\' !in x
    ensures Slashes(x) == x
  {
  }

  /** Normalising a path that does not start with `.` and holds no backslash is lower-casing it. */
  lemma NormalizePlainPath(x: string)
    requires '\\' !in x && (x == [] || x[0] != '.')
    ensures NormalizePath(x) == Lower(x)
  {
    SlashesWithoutBackslash(x);
  }

  /** Lower-casing keeps `*`, `/` and line breaks where they are and creates none. */
  lemma LowerKeepsSpecials(x: string)
    ensures forall i :: 0 <= i < |x| ==> (Lower(x)[i] == '*' <==> x[i] == '*')
    ensures forall i :: 0 <= i < |x| ==> (Lower(x)[i] == '/' <==> x[i] == '/')
    ensures forall i :: 0 <= i < |x| ==> (IsLineBreak(Lower(x)[i]) <==> IsLineBreak(x[i]))
  {
  }

  /**
   * The test's folder case, for any folder name: a path directly inside a
   * folder is excluded by that folder's rule.
   */
  lemma FolderExample(dir: string, file: string)
    requires dir != [] && dir[0] != '.' && dir[|dir| - 1] != '/' && '\\' !in dir
    ensures IsPathExcluded(dir + "/" + file, [dir], [])
  {
    var p := dir + "/" + file;
    SlashesAppend(dir + "/", file);
    SlashesAppend(dir, "/");
    SlashesWithoutBackslash(dir);
    assert Slashes("/") == "/";
    var q := dir + "/" + Slashes(file);
    assert Slashes(p) == q;
    assert q[0] == dir[0];
    LowerAppend(dir + "/", Slashes(file));
    LowerAppend(dir, "/");
    assert Lower("/") == "/";
    NormalizePlainPath(dir);
    var f := Lower(dir);
    assert f[|f| - 1] == LowerChar(dir[|dir| - 1]);
    assert TrimTrailingSlashes(f) == f;
    assert NormalizePath(p) == f + "/" + Lower(Slashes(file));
    assert (f + "/") <= NormalizePath(p);
    SingleFolderRule(p, dir);
  }

  /** A `*` followed by star-free text matches exactly the line-break-free texts ending in it. */
  lemma GlobSuffix(ext: string, s: string)
    requires '*' !in ext
    ensures GlobMatch("*" + ext, s) <==>
      |ext| <= |s| && s[|s| - |ext|..] == ext && NoLineBreak(s[..|s| - |ext|])
  {
    var p := "*" + ext;
    assert p[1..] == ext;
    GlobStar(p, s);
    forall k | 0 <= k <= |s|
      ensures GlobMatch(ext, s[k..]) <==> s[k..] == ext
    {
      GlobWithoutStar(ext, s[k..]);
    }
    if GlobMatch(p, s) {
      var k :| 0 <= k <= |s| && NoLineBreak(s[..k]) && GlobMatch(ext, s[k..]);
      assert |s| - |ext| == k;
    }
  }

  /**
   * The test's pattern case, for any extension: a path ending in the
   * extension is excluded by `*` followed by it.
   */
  lemma PatternExample(stem: string, ext: string)
    requires stem != [] && stem[0] != '.' && '\\' !in stem + ext && '*' !in ext
    requires NoLineBreak(stem)
    ensures IsPathExcluded(stem + ext, [], ["*" + ext])
  {
    var g := "*" + ext;
    assert '\\' !in g && g[0] != '.';
    NormalizePlainPath(g);
    LowerAppend("*", ext);
    assert Lower("*") == "*";
    assert '\\' !in stem + ext && (stem + ext)[0] != '.';
    NormalizePlainPath(stem + ext);
    LowerAppend(stem, ext);
    var n := Lower(stem) + Lower(ext);
    LowerKeepsSpecials(ext);
    LowerKeepsSpecials(stem);
    assert '*' !in Lower(ext);
    assert n[|n| - |Lower(ext)|..] == Lower(ext) && n[..|n| - |Lower(ext)|] == Lower(stem);
    GlobSuffix(Lower(ext), n);
    SinglePattern(stem + ext, g);
  }

  /** A folder rule whose first character differs from the path's does not cover it. */
  lemma FolderMismatch(path: string, folder: string)
    requires path != [] && path[0] != '.' && '\\' !in path
    requires folder != [] && folder[0] != '.' && folder[0] != '/' && '\\' !in folder
    requires LowerChar(path[0]) != LowerChar(folder[0])
    ensures !FolderRuleMatches(NormalizePath(path), folder)
  {
    NormalizePlainPath(path);
    NormalizePlainPath(folder);
    var n, f := Lower(path), Lower(folder);
    var tf := TrimTrailingSlashes(f);
    assert tf != [] && tf[0] == f[0];
    assert (tf + "/")[0] == tf[0];
  }

  /** A `*` pattern whose last character differs from the path's does not match it. */
  lemma PatternMismatch(path: string, ext: string)
    requires path != [] && path[0] != '.' && '\\' !in path
    requires ext != [] && '\\' !in ext && '*' !in ext
    requires LowerChar(path[|path| - 1]) != LowerChar(ext[|ext| - 1])
    ensures !GlobMatch(NormalizePath("*" + ext), NormalizePath(path))
  {
    NormalizePlainPath(path);
    var g := "*" + ext;
    assert '\\' !in g && g[0] != '.';
    NormalizePlainPath(g);
    LowerAppend("*", ext);
    assert Lower("*") == "*";
    LowerKeepsSpecials(ext);
    var le := Lower(ext);
    assert '*' !in le;
    GlobSuffix(le, Lower(path));
  }

  /**
   * The test's negative case, for any rules of its shape: a folder rule whose
   * first character differs from the path's and a `*` pattern whose last
   * character differs from the path's exclude nothing.
   */
  lemma UnrelatedPathExample(path: string, folder: string, ext: string)
    requires path != [] && path[0] != '.' && '\\' !in path
    requires folder != [] && folder[0] != '.' && folder[0] != '/' && '\\' !in folder
    requires ext != [] && '\\' !in ext && '*' !in ext
    requires LowerChar(path[0]) != LowerChar(folder[0])
    requires LowerChar(path[|path| - 1]) != LowerChar(ext[|ext| - 1])
    ensures !IsPathExcluded(path, [folder], ["*" + ext])
  {
    FolderMismatch(path, folder);
    PatternMismatch(path, ext);
    SingleFolderRule(path, folder);
    SinglePattern(path, "*" + ext);
    ExcludedBySingleRule(path, [folder], ["*" + ext]);
  }
}

=== FILE: gateway.dfy ===
/**
 * The OpenAI-compatible gateway, reduced to its decisions.  The HTTP
 * exchange is an abstract outcome: a response with its status and parsed
 * body, or a thrown value (the abort fired by the timeout, a network
 * failure, a body that is not JSON).  From the outcome the gateway builds a
 * model catalog or a summary response.
 */
module Gateway {
  import opened Wrappers
  import opened Text
  import opened IndexTypes
  import opened OrderedMap
  import opened Sorting

  datatype Config = Config(baseUrl: string, token: string, model: string, timeoutMs: int)

  /** A thrown value: an `Error` with its `name` and `message`, or anything else. */
  datatype Thrown = ErrorThrown(name: string, message: string) | OtherThrown

  const ProviderName: string := "openai-compatible"
  const UnknownGatewayError: string := "Unknown gateway error"
  const MissingContentMessage: string := "Missing choices[0].message.content"

  /** The `/v1/models` body: `data`, with each item's `id`, or a throw while reading it. */
  datatype ModelsBody = ModelsJson(data: Option<seq<Option<string>>>) | ModelsBodyThrew(thrown: Thrown)

  datatype ModelsOutcome = ModelsResponse(status: nat, body: ModelsBody) | ModelsThrew(thrown: Thrown)

  /** `ModelCatalogResponse`; absent optional fields are `None`. */
  datatype ModelCatalog = ModelCatalog(
    success: bool,
    models: seq<string>,
    errorCode: Option<ErrorCode>,
    errorMessage: Option<string>,
    unsupported: Option<bool>)

  /** The chat-completions body: the first choice's content and the usage counts, or a throw while reading it. */
  datatype ChatBody =
    | ChatJson(content: Option<string>, promptTokens: Option<int>, completionTokens: Option<int>)
    | ChatBodyThrew(thrown: Thrown)

  /** A response or a throw, with the latency measured on that path. */
  datatype ChatOutcome =
    | ChatResponse(status: nat, latencyMs: int, body: ChatBody)
    | ChatThrew(latencyMs: int, thrown: Thrown)

  /** `response.ok`. */
  predicate IsOk(status: int) {
    200 <= status <= 299
  }

  /** `mapError`: the code for a non-OK status. */
  function MapError(status: int): (e: ErrorCode)
    ensures e == AuthFailed <==> status == 401 || status == 403
    ensures e == RateLimit <==> status == 429
    ensures e == AuthFailed || e == RateLimit || e == UpstreamInvalidResponse
  {
    if status == 401 || status == 403 then AuthFailed
    else if status == 429 then RateLimit
    else if status >= 500 then UpstreamInvalidResponse
    else UpstreamInvalidResponse
  }

  /** Whether a thrown value is the abort the timeout fires. */
  predicate IsAbort(t: Thrown) {
    t.ErrorThrown? && t.name == "AbortError"
  }

  /** The code for a throw: TIMEOUT for the abort, NETWORK_ERROR for anything else. */
  function ThrownCode(t: Thrown): (e: ErrorCode)
    ensures e == Timeout <==> IsAbort(t)
    ensures e == Timeout || e == NetworkError
  {
    if IsAbort(t) then Timeout else NetworkError
  }

  /** The message for a throw. */
  function ThrownMessage(t: Thrown): string {
    if t.ErrorThrown? then t.message else UnknownGatewayError
  }

  /** The message for a non-OK status. */
  function StatusMessage(status: nat): string {
    "HTTP " + Decimal(status)
  }

  // ---------------------------------------------------------------- model catalog

  /** Each item's id, trimmed, or the empty string for an item without an id. */
  function TrimmedIds(data: seq<Option<string>>): (ids: seq<string>)
    ensures |ids| == |data|
    ensures forall i :: 0 <= i < |data| ==> ids[i] == (if data[i].Some? then Trim(data[i].value) else "")
  {
    seq(|data|, i requires 0 <= i < |data| => if data[i].Some? then Trim(data[i].value) else "")
  }

  /**
   * The catalog's post-processing: trimmed ids, empty ones dropped, each
   * id kept at its first occurrence, then sorted.
   */
  function CatalogModels(data: seq<Option<string>>): seq<string> {
    Sort(FirstSeen(NonEmpty(TrimmedIds(data))), LexLe)
  }

  /** `listModels`. */
  function ListModels(outcome: ModelsOutcome): (r: ModelCatalog)
    ensures r.success <==> outcome.ModelsResponse? && IsOk(outcome.status) && outcome.body.ModelsJson?
    ensures !r.success ==> r.models == [] && r.errorCode.Some? && r.errorMessage.Some?
    ensures r.success ==> r.errorCode.None? && r.errorMessage.None? && r.unsupported.None?
    ensures r.unsupported.Some? <==> outcome.ModelsResponse? && !IsOk(outcome.status)
    ensures r.success ==> r.models == CatalogModels(outcome.body.data.GetOr([]))
  {
    match outcome
    case ModelsThrew(t) =>
      ModelCatalog(false, [], Some(ThrownCode(t)), Some(ThrownMessage(t)), None)
    case ModelsResponse(status, body) =>
      if !IsOk(status) then
        var unsupported := status == 404 || status == 405 || status == 501;
        ModelCatalog(false, [], Some(MapError(status)), Some(StatusMessage(status)), Some(unsupported))
      else
        match body
        case ModelsBodyThrew(t) =>
          ModelCatalog(false, [], Some(ThrownCode(t)), Some(ThrownMessage(t)), None)
        case ModelsJson(data) =>
          ModelCatalog(true, CatalogModels(data.GetOr([])), None, None, None)
  }

  /** Code-point order is a total preorder. */
  lemma LexLeTotalPreorder()
    ensures Total(LexLe) && Transitive(LexLe)
  {
    forall a, b
      ensures LexLe(a, b) || LexLe(b, a)
    {
      LexLeTotal(a, b);
    }
    forall a, b, c | LexLe(a, b) && LexLe(b, c)
      ensures LexLe(a, c)
    {
      LexLeTransitive(a, b, c);
    }
  }

  /** The catalog holds each id once, in sorted order. */
  lemma CatalogModelsOrdered(data: seq<Option<string>>)
    ensures Distinct(CatalogModels(data)) && SortedBy(CatalogModels(data), LexLe)
  {
    var unique := FirstSeen(NonEmpty(TrimmedIds(data)));
    FirstSeenSpec(NonEmpty(TrimmedIds(data)));
    LexLeTotalPreorder();
    SortSorted(unique, LexLe);
    DistinctPermutation(unique, CatalogModels(data));
  }

  /** The catalog holds exactly the non-empty trimmed ids of the items. */
  lemma CatalogModelsMembers(data: seq<Option<string>>)
    ensures forall m :: m in CatalogModels(data) ==> m != [] && Trimmed(m)
    ensures forall m :: m in CatalogModels(data) <==>
      m != [] && exists i :: 0 <= i < |data| && data[i].Some? && Trim(data[i].value) == m
  {
    var ids := TrimmedIds(data);
    var unique := FirstSeen(NonEmpty(ids));
    FirstSeenSpec(NonEmpty(ids));
    forall m
      ensures m in CatalogModels(data) <==> m in ids && m != []
    {
      assert m in CatalogModels(data) <==> m in multiset(CatalogModels(data));
      assert m in unique <==> m in NonEmpty(ids);
    }
    forall m | m != []
      ensures m in ids <==> exists i :: 0 <= i < |data| && data[i].Some? && Trim(data[i].value) == m
    {
      if m in ids {
        var i :| 0 <= i < |ids| && ids[i] == m;
        assert data[i].Some?;
      }
    }
    forall m | m in CatalogModels(data)
      ensures Trimmed(m)
    {
      var i :| 0 <= i < |ids| && ids[i] == m;
    }
  }

  /** A non-OK response: failure with the mapped code, `HTTP <status>`, and `unsupported` for 404, 405 and 501 exactly. */
  lemma ListModelsRejected(status: nat, body: ModelsBody)
    requires !IsOk(status)
    ensures var r := ListModels(ModelsResponse(status, body));
      && !r.success && r.models == []
      && r.errorCode == Some(MapError(status))
      && r.errorMessage == Some(StatusMessage(status))
      && (r.unsupported == Some(true) <==> status in {404, 405, 501})
  {
  }

  /** Two distinct trimmed ids come back in code-point order. */
  lemma ListModelsPair(a: string, b: string)
    requires a != [] && b != [] && Trimmed(a) && Trimmed(b) && a != b && LexLe(a, b)
    ensures ListModels(ModelsResponse(200, ModelsJson(Some([Some(a), Some(b)])))).models == [a, b]
  {
    TrimOfTrimmed(a);
    TrimOfTrimmed(b);
    var ids := TrimmedIds([Some(a), Some(b)]);
    assert ids == [a, b];
    assert NonEmpty(ids) == [a, b] by {
      assert ids[1..] == [b];
      assert ids[1..][1..] == [];
    }
    assert FirstSeen([a, b]) == [a, b] by {
      assert [a, b][..1] == [a];
      assert FirstSeen([a]) == [a] by {
        assert [a][..0] == [];
      }
    }
    assert SortedBy([a, b], LexLe);
    SortOfSorted([a, b], LexLe);
  }

  /** The catalog test's ids are in that order. */
  lemma DeepseekOrder()
    ensures LexLe("deepseek-chat", "deepseek-reasoner")
  {
    assert "deepseek-chat" == "deepseek-" + ['c'] + "hat";
    assert "deepseek-reasoner" == "deepseek-" + ['r'] + "easoner";
    LexLeFirstDifference("deepseek-", 'c', "hat", 'r', "easoner");
  }

  /** Model discovery on a 404 is a failure marked unsupported. */
  lemma NotFoundUnsupported(body: ModelsBody)
    ensures var r := ListModels(ModelsResponse(404, body));
      !r.success && r.unsupported == Some(true)
  {
  }

  // ---------------------------------------------------------------- summaries

  /** `s.slice(0, end)`: a negative end counts back from the length. */
  function SliceTo(s: string, end: int): (r: string)
    ensures r <= s
    ensures 0 <= end ==> r == s[..if end < |s| then end else |s|]
    ensures end < 0 ==> r == s[..if |s| + end > 0 then |s| + end else 0]
  {
    if end >= 0 then (if end < |s| then s[..end] else s)
    else if |s| + end > 0 then s[..|s| + end]
    else []
  }

  /** Whether the outcome carries usable content: an OK response whose first choice has non-blank content. */
  predicate HasContent(o: ChatOutcome) {
    o.ChatResponse? && IsOk(o.status) && o.body.ChatJson? && o.body.content.Some?
    && Trim(o.body.content.value) != []
  }

  /** The provider metadata every path reports. */
  function Meta(cfg: Config, latencyMs: int, tokensInput: Option<int>, tokensOutput: Option<int>, generatedAt: string): ProviderMeta {
    ProviderMeta(ProviderName, cfg.model, latencyMs, tokensInput, tokensOutput, generatedAt)
  }

  /** A failed response: empty summary, no token counts. */
  function Failure(cfg: Config, latencyMs: int, code: ErrorCode, message: string, generatedAt: string): (r: SummaryResponse)
    ensures !r.success && r.summary == [] && r.errorCode == Some(code) && r.errorMessage == Some(message)
  {
    SummaryResponse("", Meta(cfg, latencyMs, None, None, generatedAt), false, Some(code), Some(message))
  }

  /** `summarize`: the outcome classified into a summary or an error. */
  function Summarize(cfg: Config, req: SummaryRequest, o: ChatOutcome, generatedAt: string): (r: SummaryResponse)
    ensures r.providerMeta.provider == ProviderName && r.providerMeta.model == cfg.model
    ensures r.providerMeta.latencyMs == o.latencyMs && r.providerMeta.generatedAt == generatedAt
    ensures r.success <==> HasContent(o)
    ensures r.success ==>
      && r.errorCode.None? && r.errorMessage.None?
      && r.summary == SliceTo(Trim(o.body.content.value), req.maxChars)
      && r.providerMeta.tokensInput == o.body.promptTokens && r.providerMeta.tokensOutput == o.body.completionTokens
    ensures !r.success ==>
      && r.summary == [] && r.errorCode.Some? && r.errorMessage.Some?
      && r.providerMeta.tokensInput.None? && r.providerMeta.tokensOutput.None?
  {
    match o
    case ChatThrew(latency, t) =>
      Failure(cfg, latency, ThrownCode(t), ThrownMessage(t), generatedAt)
    case ChatResponse(status, latency, body) =>
      if !IsOk(status) then
        Failure(cfg, latency, MapError(status), StatusMessage(status), generatedAt)
      else
        match body
        case ChatBodyThrew(t) =>
          Failure(cfg, latency, ThrownCode(t), ThrownMessage(t), generatedAt)
        case ChatJson(content, promptTokens, completionTokens) =>
          if content.None? || Trim(content.value) == [] then
            Failure(cfg, latency, UpstreamInvalidResponse, MissingContentMessage, generatedAt)
          else
            var summary := SliceTo(Trim(content.value), req.maxChars);
            SummaryResponse(summary, Meta(cfg, latency, promptTokens, completionTokens, generatedAt), true, None, None)
  }

  /** Whether the outcome holds a throw, at the request or while reading the body of an OK response. */
  predicate ThrewWith(o: ChatOutcome, abort: bool) {
    (o.ChatThrew? && IsAbort(o.thrown) == abort)
    || (o.ChatResponse? && IsOk(o.status) && o.body.ChatBodyThrew? && IsAbort(o.body.thrown) == abort)
  }

  /**
   * Which failure yields which code: TIMEOUT exactly for the abort,
   * NETWORK_ERROR exactly for any other throw, AUTH_FAILED and RATE_LIMIT
   * exactly for their statuses, UPSTREAM_INVALID_RESPONSE for every other
   * status and for an OK response without content.
   */
  lemma SummarizeErrorCodes(cfg: Config, req: SummaryRequest, o: ChatOutcome, generatedAt: string)
    ensures var r := Summarize(cfg, req, o, generatedAt);
      && (r.errorCode == Some(Timeout) <==> ThrewWith(o, true))
      && (r.errorCode == Some(NetworkError) <==> ThrewWith(o, false))
      && (r.errorCode == Some(AuthFailed) <==> o.ChatResponse? && (o.status == 401 || o.status == 403))
      && (r.errorCode == Some(RateLimit) <==> o.ChatResponse? && o.status == 429)
      && (r.errorCode == Some(UpstreamInvalidResponse) <==>
            (o.ChatResponse? && !IsOk(o.status) && o.status !in {401, 403, 429})
            || (o.ChatResponse? && IsOk(o.status) && o.body.ChatJson? && !HasContent(o)))
  {
  }

  /** A successful summary is a prefix of the trimmed content, at most `max_chars` long, and all of it when it fits. */
  lemma SummaryTruncated(cfg: Config, req: SummaryRequest, o: ChatOutcome, generatedAt: string)
    requires req.maxChars >= 0
    requires Summarize(cfg, req, o, generatedAt).success
    ensures var content := Trim(o.body.content.value);
      var s := Summarize(cfg, req, o, generatedAt).summary;
      && s <= content && |s| <= req.maxChars
      && (|content| <= req.maxChars ==> s == content)
      && (req.maxChars > 0 ==> s != [])
      && s == content[..if |content| <= req.maxChars then |content| else req.maxChars]
  {
  }

  /** A failed response's message: `HTTP <status>` for a status, the error's message for a throw. */
  lemma SummarizeMessages(cfg: Config, req: SummaryRequest, o: ChatOutcome, generatedAt: string)
    ensures var r := Summarize(cfg, req, o, generatedAt);
      && (o.ChatResponse? && !IsOk(o.status) ==> r.errorMessage == Some(StatusMessage(o.status)))
      && (o.ChatThrew? ==> r.errorMessage == Some(ThrownMessage(o.thrown)))
      && (o.ChatResponse? && IsOk(o.status) && o.body.ChatJson? && !HasContent(o) ==>
            r.errorMessage == Some(MissingContentMessage))
  {
  }

  /** A 429 is a RATE_LIMIT failure whatever the body says. */
  lemma RateLimited(cfg: Config, req: SummaryRequest, latency: int, body: ChatBody, generatedAt: string)
    ensures var r := Summarize(cfg, req, ChatResponse(429, latency, body), generatedAt);
      !r.success && r.errorCode == Some(RateLimit) && r.errorMessage == Some("HTTP 429")
  {
    assert Decimal(429) == "429" by {
      assert Decimal(42) == "42" by {
        assert Decimal(4) == "4";
      }
    }
    assert StatusMessage(429) == "HTTP 429";
  }

  /** A 200 with content yields a non-empty summary reported under the configured model. */
  lemma SummarizeSucceeds(cfg: Config, req: SummaryRequest, latency: int, content: string,
                          promptTokens: Option<int>, completionTokens: Option<int>, generatedAt: string)
    requires Trim(content) != [] && req.maxChars > 0
    ensures var r := Summarize(cfg, req, ChatResponse(200, latency, ChatJson(Some(content), promptTokens, completionTokens)), generatedAt);
      r.success && |r.summary| > 0 && r.providerMeta.model == cfg.model
  {
  }
}

=== FILE: hash_state.dfy ===
/**
 * Content fingerprinting and the persisted-state store.  The SHA-256 digest
 * is an opaque function parameter; the state file is either missing, not
 * valid JSON, or a parsed object whose fields may each be absent.
 */
module HashState {
  import opened Wrappers
  import opened Text
  import opened IndexTypes

  /** `s.replace(/\r\n/g, "\n")`: a left-to-right scan replacing each CRLF pair. */
  function ReplaceCrlf(s: string): (r: string)
    ensures |r| <= |s|
  {
    if |s| == 0 then []
    else if |s| >= 2 && s[0] == '\r' && s[1] == '\n' then "\n" + ReplaceCrlf(s[2..])
    else [s[0]] + ReplaceCrlf(s[1..])
  }

  /** Line endings collapsed to LF, then surrounding whitespace trimmed. */
  function NormalizeMarkdown(content: string): (r: string)
    ensures Trimmed(r)
  {
    Trim(ReplaceCrlf(content))
  }

  /** The fingerprint: the digest of the normalised text. */
  function ContentHash(digest: string -> string, content: string): string {
    digest(NormalizeMarkdown(content))
  }

  /** Contents with equal normal forms have equal fingerprints, whatever the digest. */
  lemma SameNormalFormSameHash(digest: string -> string, a: string, b: string)
    requires NormalizeMarkdown(a) == NormalizeMarkdown(b)
    ensures ContentHash(digest, a) == ContentHash(digest, b)
  {
  }

  /** Text without a CR passes through the scan unchanged. */
  lemma {:induction false} ReplaceCrlfWithoutCr(s: string)
    requires '\r' !in s
    ensures ReplaceCrlf(s) == s
    decreases |s|
  {
    if |s| > 0 {
      ReplaceCrlfWithoutCr(s[1..]);
      assert [s[0]] + s[1..] == s;
    }
  }

  /** Text with no CR and no surrounding whitespace is already in normal form. */
  lemma NormalizeKeepsCleanText(s: string)
    requires '\r' !in s && Trimmed(s)
    ensures NormalizeMarkdown(s) == s
  {
    ReplaceCrlfWithoutCr(s);
    TrimOfTrimmed(s);
  }

  /** The scan deletes some CRs and nothing else: whitespace stays whitespace. */
  lemma {:induction false} ReplaceCrlfKeepsSpace(s: string)
    requires AllSpace(s)
    ensures AllSpace(ReplaceCrlf(s))
    decreases |s|
  {
    if |s| >= 2 && s[0] == '\r' && s[1] == '\n' {
      ReplaceCrlfKeepsSpace(s[2..]);
    } else if |s| > 0 {
      ReplaceCrlfKeepsSpace(s[1..]);
    }
  }

  /** A leading CRLF pair becomes one LF. */
  lemma ReplaceCrlfLeadingPair(t: string)
    ensures ReplaceCrlf("\r\n" + t) == "\n" + ReplaceCrlf(t)
  {
    var s := "\r\n" + t;
    assert s[0] == '\r' && s[1] == '\n' && s[2..] == t;
  }

  /** A one-character string passes through the scan unchanged. */
  lemma ReplaceCrlfSingle(c: char)
    ensures ReplaceCrlf([c]) == [c]
  {
    assert [c][1..] == [];
  }

  /**
   * The scan splits at a boundary unless a CR ends the left part and an LF
   * starts the right part.
   */
  lemma {:induction false} ReplaceCrlfAppend(a: string, b: string)
    requires !(|a| > 0 && a[|a| - 1] == '\r' && |b| > 0 && b[0] == '\n')
    ensures ReplaceCrlf(a + b) == ReplaceCrlf(a) + ReplaceCrlf(b)
    decreases |a|
  {
    var ab := a + b;
    if |a| == 0 {
      assert ab == b;
    } else if |a| >= 2 && a[0] == '\r' && a[1] == '\n' {
      assert ab[0] == '\r' && ab[1] == '\n';
      assert ab[2..] == a[2..] + b;
      ReplaceCrlfAppend(a[2..], b);
      ConcatAssoc("\n", ReplaceCrlf(a[2..]), ReplaceCrlf(b));
    } else {
      assert ab[0] == a[0];
      assert !(|ab| >= 2 && ab[0] == '\r' && ab[1] == '\n');
      assert ab[1..] == a[1..] + b;
      ReplaceCrlfAppend(a[1..], b);
      ConcatAssoc([a[0]], ReplaceCrlf(a[1..]), ReplaceCrlf(b));
    }
  }

  /** Every LF written as CRLF: the Windows line-ending form of `s`. */
  function ToCrlf(s: string): string {
    if s == [] then []
    else (if s[0] == '\n' then "\r\n" else [s[0]]) + ToCrlf(s[1..])
  }

  lemma {:induction false} ToCrlfAppend(a: string, b: string)
    ensures ToCrlf(a + b) == ToCrlf(a) + ToCrlf(b)
    decreases |a|
  {
    if a == [] {
      assert a + b == b;
    } else {
      assert (a + b)[0] == a[0] && (a + b)[1..] == a[1..] + b;
      ToCrlfAppend(a[1..], b);
    }
  }

  lemma {:induction false} ToCrlfWithoutLf(s: string)
    requires '\n' !in s
    ensures ToCrlf(s) == s
    decreases |s|
  {
    if s != [] {
      ToCrlfWithoutLf(s[1..]);
      assert [s[0]] + s[1..] == s;
    }
  }

  /** Converting an LF text to CRLF and back through the scan is the identity. */
  lemma {:induction false} ReplaceCrlfUndoesToCrlf(s: string)
    requires '\r' !in s
    ensures ReplaceCrlf(ToCrlf(s)) == s
    decreases |s|
  {
    if s != [] {
      ReplaceCrlfUndoesToCrlf(s[1..]);
      if s[0] == '\n' {
        assert ToCrlf(s) == "\r\n" + ToCrlf(s[1..]);
        ReplaceCrlfLeadingPair(ToCrlf(s[1..]));
      } else {
        assert ToCrlf(s) == [s[0]] + ToCrlf(s[1..]);
        ReplaceCrlfAppend([s[0]], ToCrlf(s[1..]));
        ReplaceCrlfSingle(s[0]);
      }
      assert [s[0]] + s[1..] == s;
    }
  }

  /** A note and its CRLF-encoded copy get the same fingerprint. */
  lemma LineEndingStyleIgnored(digest: string -> string, s: string)
    requires '\r' !in s
    ensures NormalizeMarkdown(ToCrlf(s)) == NormalizeMarkdown(s)
    ensures ContentHash(digest, ToCrlf(s)) == ContentHash(digest, s)
  {
    ReplaceCrlfUndoesToCrlf(s);
    ReplaceCrlfWithoutCr(s);
  }

  /** A CR-free prefix passes through the scan and does not disturb the rest. */
  lemma ReplaceCrlfCleanPrefix(lead: string, x: string)
    requires '\r' !in lead
    ensures ReplaceCrlf(lead + x) == lead + ReplaceCrlf(x)
  {
    if |lead| > 0 {
      assert lead[|lead| - 1] in lead;
    }
    ReplaceCrlfAppend(lead, x);
    ReplaceCrlfWithoutCr(lead);
  }

  /**
   * Prefixing whitespace to a text yields whitespace followed by the scan of
   * the text (a CR ending the whitespace pairs with an LF starting the text).
   */
  lemma ReplaceCrlfSpaceHead(lead: string, x: string) returns (u: string)
    requires AllSpace(lead)
    ensures ReplaceCrlf(lead + x) == u + ReplaceCrlf(x) && AllSpace(u)
  {
    if |lead| > 0 && lead[|lead| - 1] == '\r' && |x| > 0 && x[0] == '\n' {
      var l', x' := lead[..|lead| - 1], x[1..];
      assert l' + "\r" == lead && "\n" + x' == x;
      assert lead + x == l' + ("\r\n" + x');
      assert AllSpace(l');
      ReplaceCrlfAppend(l', "\r\n" + x');
      ReplaceCrlfLeadingPair(x');
      ReplaceCrlfAppend("\n", x');
      ReplaceCrlfSingle('\n');
      ReplaceCrlfKeepsSpace(l');
      u := ReplaceCrlf(l');
    } else {
      ReplaceCrlfAppend(lead, x);
      ReplaceCrlfKeepsSpace(lead);
      u := ReplaceCrlf(lead);
    }
  }

  /**
   * Appending whitespace to a note yields the scan of the note (up to a
   * trailing CR that the whitespace's first LF absorbs) followed by whitespace.
   */
  lemma ReplaceCrlfSpaceTail(s: string, trail: string) returns (x: string, w: string)
    requires AllSpace(trail)
    ensures ReplaceCrlf(s + trail) == x + w && AllSpace(w)
    ensures Trim(ReplaceCrlf(s)) == Trim(x)
  {
    if |s| > 0 && s[|s| - 1] == '\r' && |trail| > 0 && trail[0] == '\n' {
      // The CR ending the note pairs with the LF that starts the trailing space.
      var s', t' := s[..|s| - 1], trail[1..];
      assert s' + "\r" == s;
      assert s + trail == s' + ("\r\n" + t');
      assert AllSpace(t');
      ReplaceCrlfAppend(s', "\r\n" + t');
      ReplaceCrlfLeadingPair(t');
      ReplaceCrlfAppend(s', "\r");
      ReplaceCrlfSingle('\r');
      ReplaceCrlfKeepsSpace(t');
      x, w := ReplaceCrlf(s'), "\n" + ReplaceCrlf(t');
      assert ReplaceCrlf(s) == [] + x + "\r";
      TrimIgnoresSpace([], x, "\r");
    } else {
      ReplaceCrlfAppend(s, trail);
      ReplaceCrlfKeepsSpace(trail);
      x, w := ReplaceCrlf(s), ReplaceCrlf(trail);
    }
  }

  /** Whitespace around a note, CR and LF included, does not change its fingerprint. */
  lemma SurroundingWhitespaceIgnored(digest: string -> string, lead: string, s: string, trail: string)
    requires AllSpace(lead) && AllSpace(trail)
    ensures NormalizeMarkdown(lead + s + trail) == NormalizeMarkdown(s)
    ensures ContentHash(digest, lead + s + trail) == ContentHash(digest, s)
  {
    assert lead + s + trail == lead + (s + trail);
    var u := ReplaceCrlfSpaceHead(lead, s + trail);
    var x, w := ReplaceCrlfSpaceTail(s, trail);
    assert u + (x + w) == u + x + w;
    TrimIgnoresSpace(u, x, w);
  }

  /** Text that is free of CR and LF and has no surrounding whitespace: one clean line. */
  predicate CleanLine(a: string) {
    a != [] && '\r' !in a && '\n' !in a && Trimmed(a)
  }

  /** Two clean lines joined by `sep` and trimmed are left as they are. */
  lemma JoinedLinesTrimmed(a: string, sep: string, b: string)
    requires CleanLine(a) && CleanLine(b)
    ensures Trimmed(a + sep + b)
  {
    var j := a + sep + b;
    assert j[0] == a[0];
    assert j[|j| - 1] == b[|b| - 1];
  }

  /**
   * The test's example, for any two clean lines: CRLF endings and the final
   * line break disappear, so both spellings share one normal form and hash.
   */
  lemma CrlfExample(digest: string -> string, a: string, b: string)
    requires CleanLine(a) && CleanLine(b)
    ensures NormalizeMarkdown(a + "\r\n" + b + "\r\n") == a + "\n" + b
    ensures NormalizeMarkdown(a + "\n" + b) == a + "\n" + b
    ensures ContentHash(digest, a + "\r\n" + b + "\r\n") == ContentHash(digest, a + "\n" + b)
  {
    var e: string := [];
    ReplaceCrlfLeadingPair(e);
    assert "\r\n" + e == "\r\n" && "\n" + e == "\n";
    ReplaceCrlfCleanPrefix(b, "\r\n");
    assert b + "\r\n" + e == b + "\r\n";
    ReplaceCrlfLeadingPair(b + "\r\n");
    ReplaceCrlfCleanPrefix(a, "\r\n" + (b + "\r\n"));
    assert a + "\r\n" + b + "\r\n" == a + ("\r\n" + (b + "\r\n"));
    assert ReplaceCrlf(a + "\r\n" + b + "\r\n") == (a + "\n" + b) + "\n";
    JoinedLinesTrimmed(a, "\n", b);
    assert AllSpace("\n");
    assert [] + (a + "\n" + b) + "\n" == (a + "\n" + b) + "\n";
    TrimUnique([], a + "\n" + b, "\n");
    assert '\r' !in a + "\n" + b;
    NormalizeKeepsCleanText(a + "\n" + b);
  }

  /** One pass over `a CR CR LF b` leaves `a CR LF b`: only the second CR pairs with the LF. */
  lemma NormalizeDoubleCr(a: string, b: string)
    requires CleanLine(a) && CleanLine(b)
    ensures NormalizeMarkdown(a + "\r\r\n" + b) == a + "\r\n" + b
  {
    ReplaceCrlfLeadingPair(b);
    ReplaceCrlfWithoutCr(b);
    ReplaceCrlfAppend("\r", "\r\n" + b);
    ReplaceCrlfSingle('\r');
    assert "\r" + ("\r\n" + b) == "\r\r\n" + b;
    ReplaceCrlfCleanPrefix(a, "\r\r\n" + b);
    assert a + "\r\r\n" + b == a + ("\r\r\n" + b);
    assert a + ("\r" + ("\n" + b)) == a + "\r\n" + b;
    JoinedLinesTrimmed(a, "\r\n", b);
    TrimOfTrimmed(a + "\r\n" + b);
  }

  /** One pass over `a CR LF b` gives `a LF b`. */
  lemma NormalizeSingleCrlf(a: string, b: string)
    requires CleanLine(a) && CleanLine(b)
    ensures NormalizeMarkdown(a + "\r\n" + b) == a + "\n" + b
  {
    ReplaceCrlfLeadingPair(b);
    ReplaceCrlfWithoutCr(b);
    ReplaceCrlfCleanPrefix(a, "\r\n" + b);
    assert a + "\r\n" + b == a + ("\r\n" + b);
    assert a + ("\n" + b) == a + "\n" + b;
    JoinedLinesTrimmed(a, "\n", b);
    TrimOfTrimmed(a + "\n" + b);
  }

  /**
   * Normalisation is not idempotent: a CR before a CRLF survives one pass as
   * a new CRLF, which a second pass collapses.
   */
  lemma NormalizeNotIdempotent(a: string, b: string)
    requires CleanLine(a) && CleanLine(b)
    ensures NormalizeMarkdown(a + "\r\r\n" + b) == a + "\r\n" + b
    ensures NormalizeMarkdown(NormalizeMarkdown(a + "\r\r\n" + b)) == a + "\n" + b
  {
    NormalizeDoubleCr(a, b);
    NormalizeSingleCrlf(a, b);
  }

  // ---------------------------------------------------------------- state store

  /** A JSON field that may be missing, explicitly `null`, or set. */
  datatype Field<T> = Absent | Null | Present(value: T)

  /** The state object as parsed from disk: any field may be missing. */
  datatype PersistedState = PersistedState(
    schemaVersion: Option<string>,
    lastProcessedHash: Field<map<string, string>>,
    retryQueue: Field<seq<RetryQueueItem>>,
    lastSuccessAt: Option<string>,
    stats: Field<Stats>,
    rebuildCheckpoint: Field<RebuildCheckpoint>)

  /** The state file: missing, present but not JSON, or parsed. */
  datatype StoredFile = NoFile | Malformed | Parsed(data: PersistedState)

  datatype LoadError = InvalidJson

  /** The state a fresh install starts from. */
  function CreateEmptyState(): (s: IndexState)
    ensures s.lastProcessedHash == map[] && s.retryQueue == []
    ensures s.stats == Some(Stats(0, 0, 0, 0))
    ensures s.schemaVersion == "1.0.0" && s.rebuildCheckpoint.None?
  {
    IndexState(SchemaVersion, map[], [], Epoch, Some(Stats(0, 0, 0, 0)), None)
  }

  /**
   * The parsed fields laid over the empty state: a set field wins, a missing
   * one keeps the default, and an explicit `null` wins too, except on the
   * hash map and the retry queue, where it falls back to empty.
   */
  function Merge(p: PersistedState): IndexState {
    var d := CreateEmptyState();
    IndexState(
      p.schemaVersion.GetOr(d.schemaVersion),
      if p.lastProcessedHash.Present? then p.lastProcessedHash.value else map[],
      if p.retryQueue.Present? then p.retryQueue.value else [],
      p.lastSuccessAt.GetOr(d.lastSuccessAt),
      match p.stats
      case Absent => d.stats
      case Null => None
      case Present(v) => Some(v),
      if p.rebuildCheckpoint.Present? then Some(p.rebuildCheckpoint.value) else None)
  }

  /** `StateStore.load`: defaults without a file, an error for unparsable text, else the merge. */
  function Load(f: StoredFile): (r: Result<IndexState, LoadError>)
    ensures f.NoFile? ==> r == Success(CreateEmptyState())
    ensures f.Malformed? <==> r.Failure?
    ensures f.Parsed? ==> (r.Success?
      && (f.data.schemaVersion.Some? ==> r.value.schemaVersion == f.data.schemaVersion.value)
      && (f.data.lastSuccessAt.Some? ==> r.value.lastSuccessAt == f.data.lastSuccessAt.value)
      && (f.data.lastProcessedHash.Present? ==> r.value.lastProcessedHash == f.data.lastProcessedHash.value)
      && (!f.data.lastProcessedHash.Present? ==> r.value.lastProcessedHash == map[])
      && (f.data.retryQueue.Present? ==> r.value.retryQueue == f.data.retryQueue.value)
      && (!f.data.retryQueue.Present? ==> r.value.retryQueue == [])
      && (f.data.stats.Present? ==> r.value.stats == Some(f.data.stats.value))
      && (f.data.schemaVersion.None? ==> r.value.schemaVersion == "1.0.0")
      && (f.data.lastSuccessAt.None? ==> r.value.lastSuccessAt == Epoch)
      && (f.data.stats.Absent? ==> r.value.stats == Some(Stats(0, 0, 0, 0)))
      && (f.data.stats.Null? ==> r.value.stats.None?)
      && (f.data.rebuildCheckpoint.Present? ==> r.value.rebuildCheckpoint == Some(f.data.rebuildCheckpoint.value))
      && (!f.data.rebuildCheckpoint.Present? ==> r.value.rebuildCheckpoint.None?))
  {
    match f
    case NoFile => Success(CreateEmptyState())
    case Malformed => Failure(InvalidJson)
    case Parsed(p) => Success(Merge(p))
  }

  /**
   * `StateStore.save`: every field written.  Counters loaded as `null` are
   * written back as `null`; a missing checkpoint (`undefined`) is omitted.
   */
  function Save(s: IndexState): (p: PersistedState)
    ensures p.lastProcessedHash.Present? && p.retryQueue.Present?
    ensures p.schemaVersion.Some? && p.lastSuccessAt.Some?
    ensures !p.stats.Absent? && !p.rebuildCheckpoint.Null?
  {
    PersistedState(
      Some(s.schemaVersion),
      Present(s.lastProcessedHash),
      Present(s.retryQueue),
      Some(s.lastSuccessAt),
      if s.stats.Some? then Present(s.stats.value) else Null,
      if s.rebuildCheckpoint.Some? then Present(s.rebuildCheckpoint.value) else Absent)
  }

  /** Saving a state and loading it back yields that same state. */
  lemma SaveLoadRoundTrip(s: IndexState)
    ensures Load(Parsed(Save(s))) == Success(s)
  {
  }

  /** What the next `load` returns after `save(s)`. */
  function Reload(s: IndexState): (r: IndexState)
    ensures Load(Parsed(Save(s))) == Success(r)
    ensures r == s
  {
    Merge(Save(s))
  }
}

=== FILE: index_log.dfy ===
/**
 * The JSONL index: an append-only log of records, and its compaction to
 * the latest record per note in first-seen order.  A line is blank, a
 * parsed record, or text that is not valid JSON.
 */
module IndexLog {
  import opened Wrappers
  import opened IndexTypes
  import opened OrderedMap

  datatype LogLine = Blank | Entry(rec: IndexRecord) | Malformed

  /** The index file: missing, or present with its lines. */
  datatype LogFile = Missing | Present(lines: seq<LogLine>)

  /** `JSON.parse` threw on a line; the file is left as it was. */
  datatype CompactError = UnparsableLine

  /** The compaction key. */
  function NoteIdOf(r: IndexRecord): string {
    r.noteId
  }

  /** `append`: one line at the end; the adapter creates a missing file. */
  function Append(f: LogFile, rec: IndexRecord): (r: LogFile)
    ensures r.Present?
    ensures f.Present? ==> |r.lines| == |f.lines| + 1 && r.lines[..|f.lines|] == f.lines
    ensures f.Missing? ==> r.lines == [Entry(rec)]
    ensures r.lines[|r.lines| - 1] == Entry(rec)
  {
    match f
    case Missing => Present([Entry(rec)])
    case Present(lines) => Present(lines + [Entry(rec)])
  }

  /** The records of the non-blank lines, in order. */
  function Records(lines: seq<LogLine>): seq<IndexRecord> {
    if lines == [] then []
    else
      var last := lines[|lines| - 1];
      Records(lines[..|lines| - 1]) + (if last.Entry? then [last.rec] else [])
  }

  /** Whether every non-blank line parses. */
  predicate AllParse(lines: seq<LogLine>) {
    forall i :: 0 <= i < |lines| ==> !lines[i].Malformed?
  }

  /** The `latestByNoteId` table after reading `recs` in order. */
  function Latest(recs: seq<IndexRecord>): seq<IndexRecord> {
    if recs == [] then []
    else Put(Latest(recs[..|recs| - 1]), NoteIdOf, recs[|recs| - 1])
  }

  /** The last record of `recs` for note `id`. */
  function LastWith(recs: seq<IndexRecord>, id: string): Option<IndexRecord> {
    if recs == [] then None
    else if recs[|recs| - 1].noteId == id then Some(recs[|recs| - 1])
    else LastWith(recs[..|recs| - 1], id)
  }

  /** The file `compact` writes: one line per record, or empty text. */
  function Rewritten(recs: seq<IndexRecord>): (f: LogFile)
    ensures f.Present? && |f.lines| == |recs|
  {
    Present(seq(|recs|, i requires 0 <= i < |recs| => Entry(recs[i])))
  }

  /**
   * `compact`: nothing happens to a missing file; an unparsable line aborts
   * without writing; otherwise the file is rewritten with the latest
   * record per note in the order the notes first appeared.
   */
  method Compact(f: LogFile) returns (r: Result<LogFile, CompactError>)
    ensures f.Missing? ==> r == Success(Missing)
    ensures f.Present? ==> (r.Failure? <==> !AllParse(f.lines))
    ensures f.Present? && r.Success? ==> r.value == Rewritten(Latest(Records(f.lines)))
  {
    if f.Missing? {
      return Success(Missing);
    }
    var lines := f.lines;
    var table: seq<IndexRecord> := [];
    var i := 0;
    while i < |lines|
      invariant 0 <= i <= |lines|
      invariant AllParse(lines[..i])
      invariant table == Latest(Records(lines[..i]))
    {
      RecordsStep(lines, i);
      if lines[i].Malformed? {
        return Failure(UnparsableLine);
      } else if lines[i].Entry? {
        LatestStep(Records(lines[..i]), lines[i].rec);
        table := Put(table, NoteIdOf, lines[i].rec);
      } else {
        assert Records(lines[..i]) + [] == Records(lines[..i]);
      }
      i := i + 1;
    }
    assert lines[..i] == lines;
    return Success(Rewritten(table));
  }

  /** Reading one more line. */
  lemma RecordsStep(lines: seq<LogLine>, i: nat)
    requires i < |lines|
    ensures AllParse(lines[..i]) && !lines[i].Malformed? ==> AllParse(lines[..i + 1])
    ensures Records(lines[..i + 1]) == Records(lines[..i]) + (if lines[i].Entry? then [lines[i].rec] else [])
  {
    assert lines[..i + 1][..i] == lines[..i];
  }

  /** Reading one more record. */
  lemma LatestStep(recs: seq<IndexRecord>, r: IndexRecord)
    ensures Latest(recs + [r]) == Put(Latest(recs), NoteIdOf, r)
  {
    assert (recs + [r])[..|recs|] == recs;
  }

  // ---------------------------------------------------------------- properties

  /** The compacted notes are the notes of the input, once each, in first-seen order. */
  lemma {:induction false} LatestKeys(recs: seq<IndexRecord>)
    ensures Keys(Latest(recs), NoteIdOf) == FirstSeen(Keys(recs, NoteIdOf))
    decreases |recs|
  {
    if recs != [] {
      var init := recs[..|recs| - 1];
      LatestKeys(init);
      KeysAppend(init, recs[|recs| - 1], NoteIdOf);
      assert init + [recs[|recs| - 1]] == recs;
      assert Keys(recs, NoteIdOf)[..|recs| - 1] == Keys(init, NoteIdOf);
      PutKeys(Latest(init), NoteIdOf, recs[|recs| - 1]);
    }
  }

  /** Exactly one compacted record per distinct note of the input. */
  lemma OnePerNote(recs: seq<IndexRecord>)
    ensures Distinct(Keys(Latest(recs), NoteIdOf))
    ensures forall id :: id in Keys(Latest(recs), NoteIdOf) <==> id in Keys(recs, NoteIdOf)
  {
    LatestKeys(recs);
    FirstSeenSpec(Keys(recs, NoteIdOf));
  }

  /** Each compacted record is the last input record for its note. */
  lemma {:induction false} LastWriteWins(recs: seq<IndexRecord>, id: string)
    ensures Get(Latest(recs), NoteIdOf, id) == LastWith(recs, id)
    decreases |recs|
  {
    if recs != [] {
      LastWriteWins(recs[..|recs| - 1], id);
      GetPut(Latest(recs[..|recs| - 1]), NoteIdOf, recs[|recs| - 1], id);
    }
  }

  /** Compaction invents nothing: every compacted record is an input record. */
  lemma {:induction false} NothingInvented(recs: seq<IndexRecord>)
    ensures forall r :: r in Latest(recs) ==> r in recs
    decreases |recs|
  {
    if recs != [] {
      NothingInvented(recs[..|recs| - 1]);
      assert forall r :: r in recs[..|recs| - 1] ==> r in recs;
    }
  }

  /** A table whose notes are already distinct is its own compaction. */
  lemma {:induction false} LatestOfDistinct(recs: seq<IndexRecord>)
    requires Distinct(Keys(recs, NoteIdOf))
    ensures Latest(recs) == recs
    decreases |recs|
  {
    if recs != [] {
      var init := recs[..|recs| - 1];
      var x := recs[|recs| - 1];
      assert Keys(init, NoteIdOf) == Keys(recs, NoteIdOf)[..|recs| - 1];
      LatestOfDistinct(init);
      assert NoteIdOf(x) !in Keys(init, NoteIdOf);
      PutNew(init, NoteIdOf, x);
      assert init + [x] == recs;
    }
  }

  /** Compacting twice is compacting once. */
  lemma CompactIdempotent(recs: seq<IndexRecord>)
    ensures Latest(Latest(recs)) == Latest(recs)
  {
    OnePerNote(recs);
    LatestOfDistinct(Latest(recs));
  }

  /** The records of a rewritten file are the table it was written from. */
  lemma RecordsOfRewritten(recs: seq<IndexRecord>)
    ensures AllParse(Rewritten(recs).lines)
    ensures Records(Rewritten(recs).lines) == recs
  {
    var lines := Rewritten(recs).lines;
    RecordsOfEntries(lines, recs);
  }

  lemma {:induction false} RecordsOfEntries(lines: seq<LogLine>, recs: seq<IndexRecord>)
    requires |lines| == |recs| && forall i :: 0 <= i < |lines| ==> lines[i] == Entry(recs[i])
    ensures Records(lines) == recs
    decreases |lines|
  {
    if lines != [] {
      RecordsOfEntries(lines[..|lines| - 1], recs[..|recs| - 1]);
      assert recs[..|recs| - 1] + [recs[|recs| - 1]] == recs;
    }
  }

  /** A log without a single record is rewritten as an empty file, not deleted. */
  lemma NoRecordsEmptyFile(lines: seq<LogLine>)
    requires Records(lines) == []
    ensures Rewritten(Latest(Records(lines))) == Present([])
  {
  }

  /** After appending a record and compacting, that record is the one kept for its note. */
  lemma AppendThenCompact(f: LogFile, rec: IndexRecord)
    ensures Get(Latest(Records(Append(f, rec).lines)), NoteIdOf, rec.noteId) == Some(rec)
  {
    var lines := Append(f, rec).lines;
    var recs := Records(lines);
    assert recs == Records(lines[..|lines| - 1]) + [rec];
    assert LastWith(recs, rec.noteId) == Some(rec);
    LastWriteWins(recs, rec.noteId);
  }
}

=== FILE: index_types.dfy ===
/**
 * The plugin's records: index events, log records, retry items, the rebuild
 * checkpoint and the persisted index state, plus the gateway error taxonomy.
 * Timestamps the plugin renders as ISO-8601 text stay `string`; event
 * timestamps (milliseconds) are `int`.
 */
module IndexTypes {
  import opened Wrappers

  /** Schema version written into every record and into a fresh state. */
  const SchemaVersion: string := "1.0.0"

  /** ISO text of `new Date(0)`, the default `last_success_at`. */
  const Epoch: string := "1970-01-01T00:00:00.000Z"

  datatype EventKind = Create | Modify | Rename | Delete

  /** A change notification for one note. */
  datatype IndexEvent = IndexEvent(
    kind: EventKind,
    noteId: string,
    path: string,
    oldPath: Option<string>,
    timestamp: int)

  datatype SummaryStatus = Ok | Failed | Pending | Skipped

  /** Normalised gateway error codes; the last two are reserved and never produced. */
  datatype ErrorCode =
    | AuthFailed
    | RateLimit
    | Timeout
    | UpstreamInvalidResponse
    | NetworkError
    | ContentFiltered
    | Cancelled

  /** The wire spelling of an error code. */
  function ErrorCodeName(e: ErrorCode): (r: string)
    ensures |r| > 0
  {
    match e
    case AuthFailed => "AUTH_FAILED"
    case RateLimit => "RATE_LIMIT"
    case Timeout => "TIMEOUT"
    case UpstreamInvalidResponse => "UPSTREAM_INVALID_RESPONSE"
    case NetworkError => "NETWORK_ERROR"
    case ContentFiltered => "CONTENT_FILTERED"
    case Cancelled => "CANCELLED"
  }

  /** Distinct codes have distinct spellings, so a stored code names exactly one error. */
  lemma ErrorCodeNameInjective(a: ErrorCode, b: ErrorCode)
    requires ErrorCodeName(a) == ErrorCodeName(b)
    ensures a == b
  {
  }

  datatype ProviderMeta = ProviderMeta(
    provider: string,
    model: string,
    latencyMs: int,
    tokensInput: Option<int>,
    tokensOutput: Option<int>,
    generatedAt: string)

  /** One line of the JSONL index. */
  datatype IndexRecord = IndexRecord(
    schemaVersion: string,
    noteId: string,
    path: string,
    title: string,
    tags: seq<string>,
    outlinks: seq<string>,
    summary: Option<string>,
    summaryStatus: SummaryStatus,
    hash: string,
    mtime: string,
    providerMeta: Option<ProviderMeta>)

  /** A note whose last summarisation failed. */
  datatype RetryQueueItem = RetryQueueItem(
    noteId: string,
    path: string,
    failedAt: string,
    errorCode: string,
    errorMessage: Option<string>,
    retryCount: int,
    lastRetryAt: Option<string>)

  datatype Stats = Stats(
    totalNotes: nat,
    summarizedNotes: nat,
    failedNotes: nat,
    pendingNotes: nat)

  /** Progress of a full rebuild, persisted so that it can be resumed. */
  datatype RebuildCheckpoint = RebuildCheckpoint(
    inProgress: bool,
    totalFiles: nat,
    processedCount: nat,
    processedFiles: seq<string>,
    startedAt: string,
    lastUpdatedAt: string)

  /**
   * The persisted state.  `stats` is optional in the source's type, and the
   * source reads and writes `rebuild_checkpoint` although its declared type
   * lacks it; both are `Option` here.
   */
  datatype IndexState = IndexState(
    schemaVersion: string,
    lastProcessedHash: map<string, string>,
    retryQueue: seq<RetryQueueItem>,
    lastSuccessAt: string,
    stats: Option<Stats>,
    rebuildCheckpoint: Option<RebuildCheckpoint>)

  /** What the plugin hands the gateway for one note. */
  datatype SummaryRequest = SummaryRequest(
    noteId: string,
    title: string,
    content: string,
    maxChars: int)

  /** What the gateway hands back: a tagged success or failure, never both. */
  datatype SummaryResponse = SummaryResponse(
    summary: string,
    providerMeta: ProviderMeta,
    success: bool,
    errorCode: Option<ErrorCode>,
    errorMessage: Option<string>)
}

=== FILE: ops.dfy ===
/** The operations snapshot: queue counters and retry figures for the status view. */
module Ops {
  import opened IndexTypes
  import opened EventQueue

  datatype OpsSnapshot = OpsSnapshot(
    queue: QueueStats,
    failedCount: nat,
    retryCount: nat,
    lastSuccessAt: string)

  /**
   * `buildOpsSnapshot`: the failed count is the persisted `failed_notes`
   * when stats exist, else the retry-queue length.
   */
  function BuildOpsSnapshot(queue: QueueStats, state: IndexState): (r: OpsSnapshot)
    ensures r.queue == queue && r.lastSuccessAt == state.lastSuccessAt
    ensures r.retryCount == |state.retryQueue|
    ensures state.stats.Some? ==> r.failedCount == state.stats.value.failedNotes
    ensures state.stats.None? ==> r.failedCount == |state.retryQueue|
  {
    var failed := match state.stats
      case Some(s) => s.failedNotes
      case None => |state.retryQueue|;
    OpsSnapshot(queue, failed, |state.retryQueue|, state.lastSuccessAt)
  }

  /** Whether the persisted failed count agrees with the retry queue. */
  predicate FailedCountCurrent(state: IndexState) {
    state.stats.Some? ==> state.stats.value.failedNotes == |state.retryQueue|
  }

  /** When the stats are current, the two figures of the snapshot agree. */
  lemma SnapshotFiguresAgree(queue: QueueStats, state: IndexState)
    requires FailedCountCurrent(state)
    ensures BuildOpsSnapshot(queue, state).failedCount == BuildOpsSnapshot(queue, state).retryCount
  {
  }
}

=== FILE: ordered_map.dfy ===
/**
 * A JavaScript `Map` with string keys, as the plugin uses it for the
 * compaction table and the queue's pending events: its values in insertion
 * order, each value carrying its own key.  `set` on a present key replaces
 * the value in place; on a new key it appends.
 */
module OrderedMap {
  import opened Wrappers

  /** The keys of the values, in order. */
  function Keys<T>(xs: seq<T>, key: T -> string): (ks: seq<string>)
    ensures |ks| == |xs|
    ensures forall i :: 0 <= i < |xs| ==> ks[i] == key(xs[i])
  {
    seq(|xs|, i requires 0 <= i < |xs| => key(xs[i]))
  }

  /** No key occurs twice. */
  predicate Distinct(ks: seq<string>) {
    forall i, j :: 0 <= i < j < |ks| ==> ks[i] != ks[j]
  }

  /** `map.set(key(x), x)`. */
  function Put<T>(xs: seq<T>, key: T -> string, x: T): (r: seq<T>)
    ensures forall y :: y in r ==> y in xs || y == x
  {
    if xs == [] then [x]
    else if key(xs[0]) == key(x) then [x] + xs[1..]
    else [xs[0]] + Put(xs[1..], key, x)
  }

  /** `map.get(k)`: the value stored under `k`, if any. */
  function Get<T>(xs: seq<T>, key: T -> string, k: string): (r: Option<T>)
    ensures r.Some? ==> r.value in xs && key(r.value) == k
    ensures r.None? <==> k !in Keys(xs, key)
  {
    if xs == [] then None
    else if key(xs[0]) == k then Some(xs[0])
    else
      assert Keys(xs, key) == [key(xs[0])] + Keys(xs[1..], key);
      Get(xs[1..], key, k)
  }

  lemma KeysCons<T>(x: T, xs: seq<T>, key: T -> string)
    ensures Keys([x] + xs, key) == [key(x)] + Keys(xs, key)
  {
  }

  lemma KeysAppend<T>(xs: seq<T>, x: T, key: T -> string)
    ensures Keys(xs + [x], key) == Keys(xs, key) + [key(x)]
  {
  }

  /** A key list with a head is distinct when the head is new and the tail is distinct. */
  lemma DistinctCons(k: string, ks: seq<string>)
    ensures Distinct([k] + ks) <==> k !in ks && Distinct(ks)
  {
    var all := [k] + ks;
    if k !in ks && Distinct(ks) {
      forall i, j | 0 <= i < j < |all| ensures all[i] != all[j] {
        assert all[j] == ks[j - 1];
        if i > 0 { assert all[i] == ks[i - 1]; }
      }
    }
    if Distinct(all) {
      forall i | 0 <= i < |ks| ensures ks[i] != k {
        assert all[0] == k && all[i + 1] == ks[i];
      }
      forall i, j | 0 <= i < j < |ks| ensures ks[i] != ks[j] {
        assert all[i + 1] == ks[i] && all[j + 1] == ks[j];
      }
    }
  }

  /** Setting a key keeps the other keys in place and appends the key only when it is new. */
  lemma {:induction false} PutKeys<T>(xs: seq<T>, key: T -> string, x: T)
    ensures Keys(Put(xs, key, x), key) ==
      if key(x) in Keys(xs, key) then Keys(xs, key) else Keys(xs, key) + [key(x)]
    decreases |xs|
  {
    if xs != [] {
      KeysCons(xs[0], xs[1..], key);
      assert [xs[0]] + xs[1..] == xs;
      if key(xs[0]) == key(x) {
        KeysCons(x, xs[1..], key);
      } else {
        PutKeys(xs[1..], key, x);
        KeysCons(xs[0], Put(xs[1..], key, x), key);
      }
    }
  }

  /** After a set the key maps to the new value and every other key keeps its value. */
  lemma {:induction false} GetPut<T>(xs: seq<T>, key: T -> string, x: T, k: string)
    ensures Get(Put(xs, key, x), key, k) == if k == key(x) then Some(x) else Get(xs, key, k)
    decreases |xs|
  {
    if xs != [] && key(xs[0]) != key(x) {
      GetPut(xs[1..], key, x, k);
    }
  }

  /** Setting a new key appends the value. */
  lemma {:induction false} PutNew<T>(xs: seq<T>, key: T -> string, x: T)
    requires key(x) !in Keys(xs, key)
    ensures Put(xs, key, x) == xs + [x]
    decreases |xs|
  {
    if xs != [] {
      KeysCons(xs[0], xs[1..], key);
      assert [xs[0]] + xs[1..] == xs;
      PutNew(xs[1..], key, x);
      ConcatAssocOne(xs[0], xs[1..], x);
    }
  }

  lemma ConcatAssocOne<T>(a: T, xs: seq<T>, x: T)
    ensures [a] + (xs + [x]) == ([a] + xs) + [x]
  {
  }

  /** Setting a present key replaces its value in place. */
  lemma {:induction false} PutPresent<T>(xs: seq<T>, key: T -> string, x: T, i: nat)
    requires i < |xs| && key(xs[i]) == key(x)
    requires forall j :: 0 <= j < i ==> key(xs[j]) != key(x)
    ensures Put(xs, key, x) == xs[i := x]
    decreases i
  {
    if i > 0 {
      PutPresent(xs[1..], key, x, i - 1);
      assert xs[i := x] == [xs[0]] + xs[1..][i - 1 := x];
    }
  }

  /** Keys stay distinct under a set. */
  lemma PutDistinct<T>(xs: seq<T>, key: T -> string, x: T)
    requires Distinct(Keys(xs, key))
    ensures Distinct(Keys(Put(xs, key, x), key))
  {
    PutKeys(xs, key, x);
  }

  /** The keys of `ks` without repeats, each at its first occurrence. */
  function FirstSeen(ks: seq<string>): seq<string> {
    if ks == [] then []
    else
      var prior := FirstSeen(ks[..|ks| - 1]);
      if ks[|ks| - 1] in prior then prior else prior + [ks[|ks| - 1]]
  }

  /** The first-seen list holds every key exactly once. */
  lemma {:induction false} FirstSeenSpec(ks: seq<string>)
    ensures Distinct(FirstSeen(ks))
    ensures forall k :: k in FirstSeen(ks) <==> k in ks
    decreases |ks|
  {
    if ks != [] {
      var init := ks[..|ks| - 1];
      FirstSeenSpec(init);
      assert ks == init + [ks[|ks| - 1]];
    }
  }

  /**
   * First-seen order: of two compacted keys, the earlier one first occurs
   * in the input before the later one first occurs.
   */
  lemma {:induction false} FirstSeenOrder(ks: seq<string>, i: nat, j: nat)
    requires i < j < |FirstSeen(ks)|
    ensures exists a :: 0 <= a < |ks| && ks[a] == FirstSeen(ks)[i] && FirstSeen(ks)[j] !in ks[..a + 1]
    decreases |ks|
  {
    var init := ks[..|ks| - 1];
    var prior := FirstSeen(init);
    FirstSeenSpec(init);
    if j < |prior| {
      FirstSeenOrder(init, i, j);
      var a :| 0 <= a < |init| && init[a] == prior[i] && prior[j] !in init[..a + 1];
      assert ks[..a + 1] == init[..a + 1];
    } else {
      // The later key is the last input key, new to everything before it.
      assert FirstSeen(ks)[j] == ks[|ks| - 1] && ks[|ks| - 1] !in init;
      assert prior[i] in init;
      var a :| 0 <= a < |init| && init[a] == prior[i];
      assert ks[..a + 1] == init[..a + 1];
      assert forall x :: x in init[..a + 1] ==> x in init;
    }
  }

  /** A list without repeats has each value at most once in its multiset. */
  lemma {:induction false} DistinctCount(ks: seq<string>, v: string)
    requires Distinct(ks)
    ensures multiset(ks)[v] <= 1
    decreases |ks|
  {
    if ks != [] {
      assert ks == [ks[0]] + ks[1..];
      assert Distinct(ks[1..]) by {
        forall i, j | 0 <= i < j < |ks[1..]| ensures ks[1..][i] != ks[1..][j] {
          assert ks[1..][i] == ks[i + 1] && ks[1..][j] == ks[j + 1];
        }
      }
      DistinctCount(ks[1..], v);
      if ks[0] == v {
        assert v !in ks[1..] by {
          forall i | 0 <= i < |ks[1..]| ensures ks[1..][i] != v {
            assert ks[1..][i] == ks[i + 1];
          }
        }
      }
    }
  }

  /** Rearranging a list without repeats gives a list without repeats. */
  lemma DistinctPermutation(xs: seq<string>, ys: seq<string>)
    requires Distinct(xs) && multiset(xs) == multiset(ys)
    ensures Distinct(ys)
  {
    forall i, j | 0 <= i < j < |ys|
      ensures ys[i] != ys[j]
    {
      if ys[i] == ys[j] {
        var v := ys[i];
        assert ys == ys[..j] + [ys[j]] + ys[j + 1..];
        assert v in ys[..j];
        assert multiset(ys)[v] >= 2;
        DistinctCount(xs, v);
        assert false;
      }
    }
  }
}

=== FILE: pipeline.dfy ===
/**
 * The per-note pipeline of the plugin: what one queued event, or one file
 * of a rebuild, does to the persisted index state and to the JSONL log.
 * The vault, the clock, the tag and link extraction and the gateway's HTTP
 * exchange are inputs (`Host`); each operation returns the state it would
 * save, the record it would append, and whether it saves at all.
 */
module Pipeline {
  import opened Wrappers
  import opened Text
  import opened IndexTypes
  import opened OrderedMap
  import opened HashState
  import opened Exclusions
  import opened Gateway
  import opened RetryQueue
  import opened EventQueue
  import opened Ops

  /** The settings the pipeline reads. */
  datatype Settings = Settings(
    apiBaseUrl: string,
    apiToken: string,
    model: string,
    maxSummaryChars: int,
    timeoutMs: int,
    excludedFolders: seq<string>,
    excludedFilePatterns: seq<string>,
    excludedTags: seq<string>)

  /** A vault file: its path, name without extension, extension, text and modification time (ISO text). */
  datatype NoteFile = NoteFile(path: string, basename: string, extension: string, content: string, mtime: string)

  /**
   * What the host supplies while one note is handled: the SHA-256 hex
   * digest, the tags and outlinks extracted from the content, the outcome
   * of the summary request, and the current time as ISO text.
   */
  datatype Host = Host(
    digest: string -> string,
    tags: seq<string>,
    outlinks: seq<string>,
    chat: ChatOutcome,
    now: string)

  /** The state to save, the record to append, and whether anything is saved. */
  datatype Step = Step(state: IndexState, record: Option<IndexRecord>, saved: bool)

  const ZeroStats: Stats := Stats(0, 0, 0, 0)

  /** `hasApiConfig`: both the base URL and the token hold more than whitespace. */
  predicate HasApiConfig(s: Settings) {
    Trim(s.apiBaseUrl) != [] && Trim(s.apiToken) != []
  }

  /** `hasExcludedTag`: some tag equals some excluded tag, ignoring ASCII case. */
  predicate HasExcludedTag(excludedTags: seq<string>, tags: seq<string>) {
    exists i, j :: 0 <= i < |tags| && 0 <= j < |excludedTags| && Lower(tags[i]) == Lower(excludedTags[j])
  }

  /** `shouldExcludePath`. */
  predicate ShouldExcludePath(s: Settings, path: string) {
    IsPathExcluded(path, s.excludedFolders, s.excludedFilePatterns)
  }

  /** The gateway configuration built from the settings. */
  function GatewayConfig(s: Settings): Config {
    Config(s.apiBaseUrl, s.apiToken, s.model, s.timeoutMs)
  }

  /** The summary part of a record and the retry queue it leaves. */
  datatype Summarised = Summarised(
    status: SummaryStatus,
    summary: Option<string>,
    meta: Option<ProviderMeta>,
    retryQueue: seq<RetryQueueItem>)

  /** What the gateway answers when asked to summarise `f` under the settings. */
  function GatewayResult(s: Settings, f: NoteFile, host: Host): SummaryResponse {
    Summarize(GatewayConfig(s), SummaryRequest(f.path, f.basename, f.content, s.maxSummaryChars), host.chat, host.now)
  }

  /** The failure item a failed summary upserts: the gateway's code (or a default) and message, and the next count. */
  function FailureItem(s: Settings, queue: seq<RetryQueueItem>, f: NoteFile, host: Host): RetryQueueItem {
    var result := GatewayResult(s, f, host);
    var code := if result.errorCode.Some? then ErrorCodeName(result.errorCode.value) else "UPSTREAM_INVALID_RESPONSE";
    RetryQueueItem(f.path, f.path, host.now, code, result.errorMessage, NextRetryCount(queue, f.path), None)
  }

  /**
   * The summarisation step: `pending` without API configuration; otherwise
   * the gateway is asked, a success clears the note's retry items and a
   * failure upserts one with the next count.
   */
  function SummariseNote(s: Settings, queue: seq<RetryQueueItem>, f: NoteFile, host: Host): (r: Summarised)
    ensures r.status == Pending <==> !HasApiConfig(s)
    ensures r.status == Pending ==> r.retryQueue == queue && r.summary.None? && r.meta.None?
    ensures r.status != Pending ==> r.meta.Some? && r.meta.value.model == s.model
    ensures r.status == Ok ==> r.summary.Some? && r.retryQueue == Remove(queue, f.path)
    ensures r.status == Failed ==> r.summary.None?
    ensures r.status != Skipped
    ensures var g := Summarize(GatewayConfig(s), SummaryRequest(f.path, f.basename, f.content, s.maxSummaryChars), host.chat, host.now);
      && (r.status == Ok <==> HasApiConfig(s) && g.success)
      && (r.status == Ok ==> r.summary == Some(g.summary) && r.meta == Some(g.providerMeta))
      && (r.status == Failed ==> r.meta == Some(g.providerMeta) && r.retryQueue == Upsert(queue, FailureItem(s, queue, f, host)))
  {
    if !HasApiConfig(s) then Summarised(Pending, None, None, queue)
    else
      var result := GatewayResult(s, f, host);
      if result.success then
        Summarised(Ok, Some(result.summary), Some(result.providerMeta), Remove(queue, f.path))
      else
        Summarised(Failed, None, Some(result.providerMeta), Upsert(queue, FailureItem(s, queue, f, host)))
  }

  /** The stats written when a note completes: totals recounted, the status's own counter bumped. */
  function CompletedStats(prior: Option<Stats>, hashes: map<string, string>, status: SummaryStatus, retryQueue: seq<RetryQueueItem>): Stats {
    var p := prior.GetOr(ZeroStats);
    Stats(
      |hashes|,
      if status == Ok then p.summarizedNotes + 1 else p.summarizedNotes,
      |retryQueue|,
      if status == Pending then p.pendingNotes + 1 else p.pendingNotes)
  }

  /**
   * The shared tail of `processEvent` and `forceProcessFile`: a note with an
   * excluded tag loses its hash entry; any other note is summarised, logged
   * with its fingerprint, and recorded in the hash map, after the renamed
   * note's old entry (if any) is dropped.
   */
  function IndexNote(state: IndexState, s: Settings, f: NoteFile, host: Host, dropped: Option<string>): (r: Step)
    ensures r.saved && r.state.lastSuccessAt == host.now
    ensures r.state.schemaVersion == state.schemaVersion && r.state.rebuildCheckpoint == state.rebuildCheckpoint
  {
    if HasExcludedTag(s.excludedTags, host.tags) then
      Step(state.(lastProcessedHash := state.lastProcessedHash - {f.path}, lastSuccessAt := host.now), None, true)
    else
      var hash := ContentHash(host.digest, f.content);
      var sum := SummariseNote(s, state.retryQueue, f, host);
      var record := IndexRecord(SchemaVersion, f.path, f.path, f.basename, host.tags, host.outlinks,
                                sum.summary, sum.status, hash, f.mtime, sum.meta);
      var kept := if dropped.Some? then state.lastProcessedHash - {dropped.value} else state.lastProcessedHash;
      var hashes := kept[f.path := hash];
      var stats := CompletedStats(state.stats, hashes, sum.status, sum.retryQueue);
      Step(state.(lastProcessedHash := hashes, retryQueue := sum.retryQueue, lastSuccessAt := host.now, stats := Some(stats)),
           Some(record), true)
  }

  /**
   * The old path a rename drops from the hash map. Only a rename with a
   * non-empty old path drops one, since the empty string counts as false.
   */
  function RenamedFrom(e: IndexEvent): (r: Option<string>)
    ensures r.Some? ==> e.kind == Rename && e.oldPath == r && r.value != []
    ensures r.None? ==> e.kind != Rename || e.oldPath.None? || e.oldPath.value == []
  {
    if e.kind == Rename && e.oldPath.Some? && e.oldPath.value != [] then e.oldPath else None
  }

  /** Whether a looked-up file is a markdown note. */
  predicate IsNote(file: Option<NoteFile>) {
    file.Some? && file.value.extension == "md"
  }

  /**
   * `processEvent`: a delete, or an event on an excluded path, forgets the
   * note's hash; a path that is not a markdown file is ignored; content whose
   * fingerprint is already recorded is skipped unless the event is a rename;
   * everything else goes through `IndexNote`.  `file` is what the vault
   * resolves `event.path` to.
   */
  function ProcessEvent(state: IndexState, s: Settings, e: IndexEvent, file: Option<NoteFile>, host: Host): (r: Step)
    ensures r.state.schemaVersion == state.schemaVersion && r.state.rebuildCheckpoint == state.rebuildCheckpoint
    ensures !r.saved ==> r.state == state && r.record.None?
  {
    if e.kind == Delete || ShouldExcludePath(s, e.path) then
      Step(state.(lastProcessedHash := state.lastProcessedHash - {e.noteId}, lastSuccessAt := host.now), None, true)
    else if !IsNote(file) then
      Step(state, None, false)
    else
      var f := file.value;
      var hash := ContentHash(host.digest, f.content);
      if f.path in state.lastProcessedHash && state.lastProcessedHash[f.path] == hash && e.kind != Rename then
        Step(state, None, false)
      else
        IndexNote(state, s, f, host, RenamedFrom(e))
  }

  /** `forceProcessFile`: a rebuild's step, with no exclusion check, no fingerprint skip and no rename. */
  function ForceProcessFile(state: IndexState, s: Settings, f: NoteFile, host: Host): (r: Step)
    ensures r.saved && r.state.rebuildCheckpoint == state.rebuildCheckpoint
  {
    IndexNote(state, s, f, host, None)
  }

  // ---------------------------------------------------------------- properties

  /** `hasApiConfig` holds exactly when both values contain a non-whitespace character. */
  lemma ApiConfigNeedsText(s: Settings)
    ensures HasApiConfig(s) <==> !AllSpace(s.apiBaseUrl) && !AllSpace(s.apiToken)
  {
    TrimEmptyIffAllSpace(s.apiBaseUrl);
    TrimEmptyIffAllSpace(s.apiToken);
  }

  /** Tag exclusion ignores ASCII case on both sides. */
  lemma ExcludedTagIgnoresCase(excludedTags: seq<string>, tags: seq<string>, t: string, x: string)
    requires t in tags && x in excludedTags && Lower(t) == Lower(x)
    ensures HasExcludedTag(excludedTags, tags)
    ensures HasExcludedTag(excludedTags, [Lower(t)])
  {
    var i :| 0 <= i < |tags| && tags[i] == t;
    var j :| 0 <= j < |excludedTags| && excludedTags[j] == x;
    LowerIdempotent(t);
    assert Lower([Lower(t)][0]) == Lower(excludedTags[j]);
  }

  /** Without excluded tags no note is held back. */
  lemma NoExcludedTags(tags: seq<string>)
    ensures !HasExcludedTag([], tags)
  {
  }

  /**
   * A delete, or any event on an excluded path, removes only that note's
   * hash entry and appends nothing; the retry queue and stats stay as they were.
   */
  lemma ForgetOnly(state: IndexState, s: Settings, e: IndexEvent, file: Option<NoteFile>, host: Host)
    requires e.kind == Delete || ShouldExcludePath(s, e.path)
    ensures var r := ProcessEvent(state, s, e, file, host);
      && r.saved && r.record.None?
      && r.state.lastProcessedHash == state.lastProcessedHash - {e.noteId}
      && r.state.retryQueue == state.retryQueue && r.state.stats == state.stats
  {
  }

  /** An event whose path is not a markdown file changes nothing. */
  lemma NonNoteIgnored(state: IndexState, s: Settings, e: IndexEvent, file: Option<NoteFile>, host: Host)
    requires e.kind != Delete && !ShouldExcludePath(s, e.path) && !IsNote(file)
    ensures ProcessEvent(state, s, e, file, host) == Step(state, None, false)
  {
  }

  /** Content whose fingerprint is already recorded is skipped, unless the event is a rename. */
  lemma UnchangedSkipped(state: IndexState, s: Settings, e: IndexEvent, f: NoteFile, host: Host)
    requires e.kind != Delete && e.kind != Rename && !ShouldExcludePath(s, e.path) && f.extension == "md"
    requires f.path in state.lastProcessedHash && state.lastProcessedHash[f.path] == ContentHash(host.digest, f.content)
    ensures ProcessEvent(state, s, e, Some(f), host) == Step(state, None, false)
  {
  }

  /** A note carrying an excluded tag loses its hash entry and gets no record. */
  lemma ExcludedTagForgets(state: IndexState, s: Settings, f: NoteFile, host: Host, dropped: Option<string>)
    requires HasExcludedTag(s.excludedTags, host.tags)
    ensures var r := IndexNote(state, s, f, host, dropped);
      && r.record.None? && r.state.lastProcessedHash == state.lastProcessedHash - {f.path}
      && r.state.retryQueue == state.retryQueue
  {
  }

  /**
   * A completed note: one record carrying the fresh fingerprint, the hash
   * map updated (and a rename's old entry dropped), and the stats recounted
   * from the hash map and retry queue.
   */
  lemma Completion(state: IndexState, s: Settings, f: NoteFile, host: Host, dropped: Option<string>)
    requires !HasExcludedTag(s.excludedTags, host.tags)
    ensures var r := IndexNote(state, s, f, host, dropped);
      var hash := ContentHash(host.digest, f.content);
      && r.record.Some? && r.record.value.hash == hash
      && r.record.value.noteId == f.path && r.record.value.path == f.path && r.record.value.title == f.basename
      && r.state.lastProcessedHash[f.path] == hash
      && (forall k :: k in r.state.lastProcessedHash <==>
            k == f.path || (k in state.lastProcessedHash && (dropped.Some? ==> k != dropped.value)))
      && (forall k :: k in r.state.lastProcessedHash && k != f.path ==> r.state.lastProcessedHash[k] == state.lastProcessedHash[k])
      && (dropped.None? ==> r.state.lastProcessedHash == state.lastProcessedHash[f.path := hash])
      && r.state.stats.Some?
      && r.state.stats.value.totalNotes == |r.state.lastProcessedHash|
      && r.state.stats.value.failedNotes == |r.state.retryQueue|
  {
  }

  /**
   * The rest of a completed note's record: the summary, its status and the
   * provider metadata come from the summarisation step, the tags and links
   * from the host, the modification time from the file; the retry queue is
   * the one that step leaves.
   */
  lemma CompletedRecord(state: IndexState, s: Settings, f: NoteFile, host: Host, dropped: Option<string>)
    requires !HasExcludedTag(s.excludedTags, host.tags)
    ensures var r := IndexNote(state, s, f, host, dropped);
      var sum := SummariseNote(s, state.retryQueue, f, host);
      && r.record.Some? && r.record.value.schemaVersion == SchemaVersion
      && r.record.value.summary == sum.summary && r.record.value.summaryStatus == sum.status
      && r.record.value.providerMeta == sum.meta
      && r.record.value.tags == host.tags && r.record.value.outlinks == host.outlinks
      && r.record.value.mtime == f.mtime
      && r.state.retryQueue == sum.retryQueue
  {
  }

  /**
   * A create or modify whose fingerprint is new or changed, and any rename of
   * a markdown note on a kept path, is indexed, with a rename's old path dropped.
   */
  lemma ChangedNoteIndexed(state: IndexState, s: Settings, e: IndexEvent, f: NoteFile, host: Host)
    requires e.kind != Delete && !ShouldExcludePath(s, e.path) && f.extension == "md"
    requires e.kind == Rename || f.path !in state.lastProcessedHash
      || state.lastProcessedHash[f.path] != ContentHash(host.digest, f.content)
    ensures ProcessEvent(state, s, e, Some(f), host) == IndexNote(state, s, f, host, RenamedFrom(e))
  {
  }

  /** The summarised and pending counters each grow by one for their own status only. */
  lemma CountersFollowStatus(state: IndexState, s: Settings, f: NoteFile, host: Host, dropped: Option<string>)
    requires !HasExcludedTag(s.excludedTags, host.tags)
    ensures var r := IndexNote(state, s, f, host, dropped);
      var before := state.stats.GetOr(ZeroStats);
      var status := r.record.value.summaryStatus;
      && r.record.Some?
      && r.state.stats.value.summarizedNotes == before.summarizedNotes + (if status == Ok then 1 else 0)
      && r.state.stats.value.pendingNotes == before.pendingNotes + (if status == Pending then 1 else 0)
  {
  }

  /** The fingerprint is recorded even when the summary fails. */
  lemma FailureStillRecordsHash(state: IndexState, s: Settings, f: NoteFile, host: Host)
    requires !HasExcludedTag(s.excludedTags, host.tags) && HasApiConfig(s)
    requires !Summarize(GatewayConfig(s), SummaryRequest(f.path, f.basename, f.content, s.maxSummaryChars), host.chat, host.now).success
    ensures var r := ForceProcessFile(state, s, f, host);
      && r.record.value.summaryStatus == Failed
      && r.state.lastProcessedHash[f.path] == ContentHash(host.digest, f.content)
      && r.state.retryQueue == Upsert(state.retryQueue, FailureItem(s, state.retryQueue, f, host))
  {
  }

  /** A failed summary leaves exactly one retry item for the note, counted one higher than before. */
  lemma FailureUpsertsRetry(state: IndexState, s: Settings, f: NoteFile, host: Host)
    requires !HasExcludedTag(s.excludedTags, host.tags) && HasApiConfig(s)
    requires !Summarize(GatewayConfig(s), SummaryRequest(f.path, f.basename, f.content, s.maxSummaryChars), host.chat, host.now).success
    requires Distinct(Keys(state.retryQueue, ItemNote))
    ensures var q := ForceProcessFile(state, s, f, host).state.retryQueue;
      && Distinct(Keys(q, ItemNote))
      && Get(q, ItemNote, f.path).Some?
      && Get(q, ItemNote, f.path).value.retryCount == NextRetryCount(state.retryQueue, f.path)
      && (forall other :: other != f.path ==> Get(q, ItemNote, other) == Get(state.retryQueue, ItemNote, other))
  {
    var item := FailureItem(s, state.retryQueue, f, host);
    UpsertDistinct(state.retryQueue, item);
    forall other
      ensures Get(Upsert(state.retryQueue, item), ItemNote, other) ==
        if other == f.path then Some(Stored(state.retryQueue, item)) else Get(state.retryQueue, ItemNote, other)
    {
      GetUpsert(state.retryQueue, item, other);
    }
  }

  /** A successful summary clears the note's retry items; without API configuration the queue is untouched. */
  lemma RetryQueueOnSuccessOrNoConfig(state: IndexState, s: Settings, f: NoteFile, host: Host)
    requires !HasExcludedTag(s.excludedTags, host.tags)
    ensures var r := ForceProcessFile(state, s, f, host);
      && (r.record.value.summaryStatus == Ok ==> f.path !in Keys(r.state.retryQueue, ItemNote))
      && (!HasApiConfig(s) ==> r.state.retryQueue == state.retryQueue && r.record.value.summaryStatus == Pending)
  {
    var r := ForceProcessFile(state, s, f, host);
    if r.record.value.summaryStatus == Ok {
      assert r.state.retryQueue == Remove(state.retryQueue, f.path);
    }
  }

  /** Every outcome of processing keeps one retry item per note. */
  lemma ProcessKeepsRetryItemsUnique(state: IndexState, s: Settings, e: IndexEvent, file: Option<NoteFile>, host: Host)
    requires Distinct(Keys(state.retryQueue, ItemNote))
    ensures Distinct(Keys(ProcessEvent(state, s, e, file, host).state.retryQueue, ItemNote))
  {
    if IsNote(file) && !HasExcludedTag(s.excludedTags, host.tags) && HasApiConfig(s) {
      var f := file.value;
      RemoveDistinct(state.retryQueue, f.path);
      UpsertDistinct(state.retryQueue, FailureItem(s, state.retryQueue, f, host));
    }
  }

  /** Processing keeps the persisted failed count equal to the retry-queue length, so the ops snapshot's two figures agree. */
  lemma ProcessKeepsFailedCountCurrent(state: IndexState, s: Settings, e: IndexEvent, file: Option<NoteFile>, host: Host)
    requires FailedCountCurrent(state)
    ensures FailedCountCurrent(ProcessEvent(state, s, e, file, host).state)
  {
  }

  /**
   * `total_notes` is not recounted on delete: removing a recorded note
   * leaves the stats counting it.
   */
  lemma DeleteLeavesTotalStale(state: IndexState, s: Settings, e: IndexEvent, file: Option<NoteFile>, host: Host)
    requires e.kind == Delete && e.noteId in state.lastProcessedHash
    requires state.stats.Some? && state.stats.value.totalNotes == |state.lastProcessedHash|
    ensures var r := ProcessEvent(state, s, e, file, host);
      r.state.stats.value.totalNotes == |r.state.lastProcessedHash| + 1
  {
    var m := state.lastProcessedHash;
    assert m.Keys == (m - {e.noteId}).Keys + {e.noteId};
  }

  /** A rename drops the old path's entry and records the new one. */
  lemma RenameMovesEntry(state: IndexState, s: Settings, e: IndexEvent, f: NoteFile, host: Host)
    requires e.kind == Rename && e.oldPath.Some? && e.oldPath.value != [] && e.oldPath.value != f.path
    requires !ShouldExcludePath(s, e.path) && f.extension == "md" && !HasExcludedTag(s.excludedTags, host.tags)
    ensures var r := ProcessEvent(state, s, e, Some(f), host);
      && e.oldPath.value !in r.state.lastProcessedHash
      && r.state.lastProcessedHash[f.path] == ContentHash(host.digest, f.content)
      && r.record.Some?
  {
  }

  // ---------------------------------------------------------------- retries

  /** One `modify` event per retry item, all stamped `now`, enqueued in queue order. */
  function EnqueueRetries(q: Queue, items: seq<RetryQueueItem>, now: int): (r: Queue)
    requires Valid(q)
    ensures Valid(r) && r.isProcessing == q.isProcessing
    decreases |items|
  {
    if items == [] then q
    else
      var last := items[|items| - 1];
      Enqueue(EnqueueRetries(q, items[..|items| - 1], now), IndexEvent(Modify, last.noteId, last.path, None, now))
  }

  /** Every retried note ends up with a pending `modify` event for its path. */
  lemma {:induction false} RetriesPending(q: Queue, items: seq<RetryQueueItem>, now: int, k: nat)
    requires Valid(q) && k < |items|
    ensures PendingFor(EnqueueRetries(q, items, now), items[k].noteId).Some?
    ensures PendingFor(EnqueueRetries(q, items, now), items[k].noteId).value.kind == Modify
    decreases |items|
  {
    var init := items[..|items| - 1];
    var last := items[|items| - 1];
    EnqueueMapView(EnqueueRetries(q, init, now), IndexEvent(Modify, last.noteId, last.path, None, now), items[k].noteId);
    if k < |init| && items[k].noteId != last.noteId {
      RetriesPending(q, init, now, k);
    }
  }

  /**
   * `retryFailedSummaries`: nothing happens to an empty retry queue;
   * otherwise every item becomes a `modify` event, the retry queue is
   * emptied and saved, and the event queue is flushed.  The flush's
   * processor outcomes are the `ok` parameter.
   */
  method RetryFailedSummaries(state: IndexState, q: Queue, now: int, nowText: string, ok: IndexEvent -> bool)
    returns (r: IndexState, saved: bool, q': Queue, batch: seq<IndexEvent>)
    requires Valid(q)
    ensures state.retryQueue == [] ==> r == state && !saved && q' == q && batch == []
    ensures state.retryQueue != [] ==> saved && r == state.(retryQueue := []) && !q'.timerSet
    ensures state.retryQueue != [] && state.stats.Some? ==> (FailedCountCurrent(state) ==> !FailedCountCurrent(r))
    ensures state.retryQueue != [] && !q.isProcessing ==>
      && q'.pending == []
      && batch == Sorting.Sort(EnqueueRetries(q, state.retryQueue, now).pending, ByTimestamp)
  {
    if |state.retryQueue| == 0 {
      return state, false, q, [];
    }
    var pendingQueue := EnqueueRetries(q, state.retryQueue, now);
    r := state.(retryQueue := []);
    saved := true;
    q', batch := FlushNow(pendingQueue, nowText, ok);
  }

  /**
   * Emptying the retry queue leaves the persisted `failed_notes` as it was, so
   * until the next processed event the snapshot reports failures that the
   * retry queue no longer holds.
   */
  lemma RetryLeavesFailedCountStale(queue: QueueStats, state: IndexState)
    requires state.retryQueue != [] && state.stats.Some? && FailedCountCurrent(state)
    ensures var snap := BuildOpsSnapshot(queue, state.(retryQueue := []));
      snap.failedCount == |state.retryQueue| > 0 && snap.retryCount == 0
  {
  }

  /**
   * A retry of a note whose content did not change is lost: the summary
   * failed, the fingerprint was recorded all the same, the retry empties the
   * retry queue, and the `modify` event it queues hits the fingerprint skip.
   */
  lemma RetryOfUnchangedNoteIsLost(state: IndexState, s: Settings, f: NoteFile, host: Host, later: Host, now: int)
    requires f.extension == "md" && !ShouldExcludePath(s, f.path)
    requires !HasExcludedTag(s.excludedTags, host.tags) && HasApiConfig(s)
    requires !Summarize(GatewayConfig(s), SummaryRequest(f.path, f.basename, f.content, s.maxSummaryChars), host.chat, host.now).success
    requires later.digest == host.digest
    ensures var failed := ForceProcessFile(state, s, f, host).state;
      && f.path in Keys(failed.retryQueue, ItemNote)
      && var retried := failed.(retryQueue := []);
         ProcessEvent(retried, s, IndexEvent(Modify, f.path, f.path, None, now), Some(f), later) == Step(retried, None, false)
  {
    var item := FailureItem(s, state.retryQueue, f, host);
    UpsertKeys(state.retryQueue, item);
  }
}

=== FILE: rebuild.dfy ===
/**
 * Full rebuilds with a persisted checkpoint.  A fresh rebuild saves a
 * checkpoint, force-processes every eligible note, and at every tenth note
 * and at the last one records that note's path and the running count; a
 * resumed rebuild skips the recorded paths and counts on from the recorded
 * count.  The state store is followed through `Reload`: each step sees
 * what the previous step saved.
 */
module Rebuild {
  import opened Wrappers
  import opened IndexTypes
  import opened HashState
  import opened Pipeline

  /** How many notes pass between checkpoint updates. */
  const CheckpointInterval: nat := 10

  /** The vault's markdown files that no exclusion rule covers, in vault order. */
  function Eligible(s: Settings, files: seq<NoteFile>): (r: seq<NoteFile>)
    ensures |r| <= |files|
    ensures forall f :: f in r <==> f in files && !ShouldExcludePath(s, f.path)
  {
    if files == [] then []
    else (if ShouldExcludePath(s, files[0].path) then [] else [files[0]]) + Eligible(s, files[1..])
  }

  /** Selection distributes over concatenation: vault order and repeats are kept. */
  lemma {:induction false} EligibleAppend(s: Settings, a: seq<NoteFile>, b: seq<NoteFile>)
    ensures Eligible(s, a + b) == Eligible(s, a) + Eligible(s, b)
    decreases |a|
  {
    if a == [] {
      assert a + b == b;
    } else {
      assert (a + b)[0] == a[0] && (a + b)[1..] == a[1..] + b;
      EligibleAppend(s, a[1..], b);
    }
  }

  /** One file is kept exactly when no exclusion rule covers its path. */
  lemma EligibleSingle(s: Settings, f: NoteFile)
    ensures Eligible(s, [f]) == (if ShouldExcludePath(s, f.path) then [] else [f])
  {
  }

  /** The files whose path is not among the recorded ones, in order. */
  function NotProcessed(files: seq<NoteFile>, done: seq<string>): (r: seq<NoteFile>)
    ensures |r| <= |files|
  {
    if files == [] then []
    else (if files[0].path in done then [] else [files[0]]) + NotProcessed(files[1..], done)
  }

  /** A file is run again exactly when it is in the vault list and its path is not recorded. */
  lemma {:induction false} NotProcessedMembers(files: seq<NoteFile>, done: seq<string>)
    ensures forall f :: f in NotProcessed(files, done) <==> f in files && f.path !in done
    decreases |files|
  {
    if files != [] {
      NotProcessedMembers(files[1..], done);
      assert files == [files[0]] + files[1..];
    }
  }

  /** Whether the `i`-th step of a run over `n` files updates the checkpoint. */
  predicate IsCheckpointStep(i: nat, n: nat) {
    (i + 1) % CheckpointInterval == 0 || i == n - 1
  }

  /** The paths the first `i` steps push onto the checkpoint. */
  function CheckpointedPaths(files: seq<NoteFile>, i: nat): seq<string>
    requires i <= |files|
  {
    if i == 0 then []
    else CheckpointedPaths(files, i - 1) + (if IsCheckpointStep(i - 1, |files|) then [files[i - 1].path] else [])
  }

  /** How far the recorded count has advanced after `i` of `n` steps: to the last checkpoint step. */
  function Reached(i: nat, n: nat): nat {
    if i == n then n else (i / CheckpointInterval) * CheckpointInterval
  }

  /** An unfinished rebuild is recorded. */
  predicate Interrupted(state: IndexState) {
    state.rebuildCheckpoint.Some? && state.rebuildCheckpoint.value.inProgress
  }

  /** One checkpoint update: the count set, the note's path pushed, the time stamped. */
  function Advance(cp: RebuildCheckpoint, count: nat, path: string, now: string): RebuildCheckpoint {
    cp.(processedCount := count, processedFiles := cp.processedFiles + [path], lastUpdatedAt := now)
  }

  /** What a run has left after some of its steps: the stored state and the records appended. */
  datatype Progress = Progress(state: IndexState, records: seq<IndexRecord>)

  /** How one note is processed during a rebuild, from the state last saved. */
  type NoteStep = (IndexState, NoteFile) -> Step

  /** The rebuild's step: `forceProcessFile`, with what the host supplies for the note. */
  function Force(s: Settings, hostOf: NoteFile -> Host): NoteStep {
    (st: IndexState, f: NoteFile) => ForceProcessFile(st, s, f, hostOf(f))
  }

  /**
   * One note of the rebuild loop after `p`: the note processed against the
   * state `p` left saved and its record (if any) appended; at a checkpoint
   * step a load that finds a checkpoint gives it the running count
   * `start + i + 1` and the note's path, and saves it again.
   */
  function Next(p: Progress, force: NoteStep, files: seq<NoteFile>, start: nat, now: string, i: nat): (r: Progress)
    requires i < |files|
    ensures |r.records| <= |p.records| + 1
  {
    var f := files[i];
    var step := force(p.state, f);
    var stored := step.state;
    var records := p.records + (if step.record.Some? then [step.record.value] else []);
    if IsCheckpointStep(i, |files|) && stored.rebuildCheckpoint.Some? then
      Progress(stored.(rebuildCheckpoint := Some(Advance(stored.rebuildCheckpoint.value, start + i + 1, f.path, now))), records)
    else
      Progress(stored, records)
  }

  /** The reference for the rebuild loop: what is stored and what has been appended after the first `i` notes. */
  function RunSpec(state: IndexState, force: NoteStep, files: seq<NoteFile>, start: nat, now: string, i: nat): (r: Progress)
    requires i <= |files|
    ensures |r.records| <= i
    decreases i
  {
    if i == 0 then Progress(state, [])
    else Next(RunSpec(state, force, files, start, now, i - 1), force, files, start, now, i - 1)
  }

  /**
   * How many notes a run completes: all of them, or those before the note
   * whose processing throws (`failAt`, an index into the run's files).
   */
  function Stop(failAt: Option<nat>, n: nat): (r: nat)
    ensures r <= n
    ensures r < n <==> failAt.Some? && failAt.value < n
  {
    if failAt.Some? && failAt.value < n then failAt.value else n
  }

  /**
   * Where a run ends: a thrown error leaves the state of the last completed
   * note; a run that reaches the end marks its checkpoint finished, exactly
   * as `clearRebuildCheckpoint` does.
   */
  function RunOutcome(state: IndexState, force: NoteStep, files: seq<NoteFile>, start: nat, now: string, failAt: Option<nat>): Progress {
    var stop := Stop(failAt, |files|);
    var p := RunSpec(state, force, files, start, now, stop);
    if stop < |files| then p else Progress(Reload(ClearRebuildCheckpoint(p.state).state), p.records)
  }

  /**
   * `rebuildIndex`.  `state` is what the first load returns, `hostOf` what
   * the host supplies for each note, and `failAt` the note (if any) whose
   * processing throws.  `current` is what a load after the run returns,
   * `records` what the run appended to the log, `processed` the notes the
   * run goes through, in order, and `initial` the checkpoint a fresh run
   * saves before its first note.
   */
  method RebuildIndex(state: IndexState, s: Settings, vault: seq<NoteFile>, hostOf: NoteFile -> Host, resume: bool, now: string, failAt: Option<nat>)
    returns (current: IndexState, processed: seq<NoteFile>, records: seq<IndexRecord>, initial: Option<RebuildCheckpoint>)
    ensures var anew := !(resume && Interrupted(state));
      && (anew ==> processed == Eligible(s, vault))
      && (!anew ==> processed == NotProcessed(Eligible(s, vault), state.rebuildCheckpoint.value.processedFiles))
      && (anew && processed == [] ==> current == state && records == [] && initial.None?)
      && (anew && processed != [] ==> initial == Some(RebuildCheckpoint(true, |processed|, 0, [], now, now)))
      && (!anew ==> initial.None?)
    ensures var anew := !(resume && Interrupted(state));
      var begin := if anew then state.(rebuildCheckpoint := initial) else state;
      var start := if anew then 0 else state.rebuildCheckpoint.value.processedCount;
      (!anew || processed != []) ==>
        Progress(current, records) == RunOutcome(begin, Force(s, hostOf), processed, start, now, failAt)
    ensures var anew := !(resume && Interrupted(state));
      var start := if anew then 0 else state.rebuildCheckpoint.value.processedCount;
      var before := if anew then [] else state.rebuildCheckpoint.value.processedFiles;
      var stop := Stop(failAt, |processed|);
      (!anew || processed != []) ==>
        && current.rebuildCheckpoint.Some?
        && current.rebuildCheckpoint.value.totalFiles == (if anew then |processed| else state.rebuildCheckpoint.value.totalFiles)
        && (stop < |processed| ==>
              && Interrupted(current)
              && current.rebuildCheckpoint.value.processedCount == start + Reached(stop, |processed|)
              && current.rebuildCheckpoint.value.processedFiles == before + CheckpointedPaths(processed, stop))
        && (stop == |processed| ==>
              && !current.rebuildCheckpoint.value.inProgress
              && current.rebuildCheckpoint.value.processedCount == start + |processed|
              && current.rebuildCheckpoint.value.processedFiles == before + CheckpointedPaths(processed, |processed|))
  {
    var start: nat := 0;
    var begin := state;
    initial := None;
    if resume && Interrupted(state) {
      var cp := state.rebuildCheckpoint.value;
      processed := NotProcessed(Eligible(s, vault), cp.processedFiles);
      start := cp.processedCount;
    } else {
      processed := Eligible(s, vault);
      if |processed| == 0 {
        return state, processed, [], None;
      }
      var cp := RebuildCheckpoint(true, |processed|, 0, [], now, now);
      initial := Some(cp);
      begin := Reload(state.(rebuildCheckpoint := Some(cp)));
    }
    current, records := RunFiles(begin, Force(s, hostOf), processed, start, now, failAt);
    ForceKeepsCheckpoint(s, hostOf);
    OutcomeCheckpoint(begin, Force(s, hostOf), processed, start, now, failAt);
  }

  /**
   * The loop of `rebuildIndex`: each file processed against the last saved
   * state and its record appended, the checkpoint advanced at each
   * checkpoint step, and at the end marked finished.
   */
  method RunFiles(state: IndexState, force: NoteStep, files: seq<NoteFile>, start: nat, now: string, failAt: Option<nat>)
    returns (current: IndexState, records: seq<IndexRecord>)
    ensures Progress(current, records) == RunOutcome(state, force, files, start, now, failAt)
  {
    current, records := state, [];
    var stop := Stop(failAt, |files|);
    var i := 0;
    while i < stop
      invariant 0 <= i <= stop
      invariant Progress(current, records) == RunSpec(state, force, files, start, now, i)
    {
      current, records := StepFile(current, records, force, files, start, now, i);
      i := i + 1;
    }
    if stop == |files| {
      current := Reload(ClearRebuildCheckpoint(current).state);
    }
  }

  /** One pass of the loop of `rebuildIndex`. */
  method StepFile(state: IndexState, records: seq<IndexRecord>, force: NoteStep, files: seq<NoteFile>, start: nat, now: string, i: nat)
    returns (current: IndexState, appended: seq<IndexRecord>)
    requires i < |files|
    ensures Progress(current, appended) == Next(Progress(state, records), force, files, start, now, i)
  {
    var f := files[i];
    var step := force(state, f);
    appended := records;
    if step.record.Some? {
      appended := appended + [step.record.value];
    }
    current := Reload(step.state);
    if IsCheckpointStep(i, |files|) && current.rebuildCheckpoint.Some? {
      var cp := current.rebuildCheckpoint.value;
      current := Reload(current.(rebuildCheckpoint := Some(Advance(cp, start + i + 1, f.path, now))));
    }
  }

  // ---------------------------------------------------------------- the checkpoint through a run

  /** A step that leaves the checkpoint as it found it. */
  ghost predicate KeepsCheckpoint(force: NoteStep) {
    forall st: IndexState, f: NoteFile :: force(st, f).state.rebuildCheckpoint == st.rebuildCheckpoint
  }

  /** `forceProcessFile` never touches the checkpoint. */
  lemma ForceKeepsCheckpoint(s: Settings, hostOf: NoteFile -> Host)
    ensures KeepsCheckpoint(Force(s, hostOf))
  {
    forall st: IndexState, f: NoteFile
      ensures Force(s, hostOf)(st, f).state.rebuildCheckpoint == st.rebuildCheckpoint
    {
      var r := ForceProcessFile(st, s, f, hostOf(f));
    }
  }

  /**
   * The checkpoint alone through the first `i` notes: untouched by the
   * notes themselves, advanced at each checkpoint step.
   */
  function CheckpointAfter(cp: RebuildCheckpoint, files: seq<NoteFile>, start: nat, now: string, i: nat): RebuildCheckpoint
    requires i <= |files|
  {
    if i == 0 then cp
    else
      var prior := CheckpointAfter(cp, files, start, now, i - 1);
      if IsCheckpointStep(i - 1, |files|) then Advance(prior, start + i, files[i - 1].path, now) else prior
  }

  /** The run's checkpoint is the checkpoint alone, advanced. */
  lemma {:induction false} RunTracksCheckpoint(state: IndexState, force: NoteStep, files: seq<NoteFile>, start: nat, now: string, i: nat)
    requires i <= |files| && state.rebuildCheckpoint.Some? && KeepsCheckpoint(force)
    ensures RunSpec(state, force, files, start, now, i).state.rebuildCheckpoint == Some(CheckpointAfter(state.rebuildCheckpoint.value, files, start, now, i))
    decreases i
  {
    if i > 0 {
      RunTracksCheckpoint(state, force, files, start, now, i - 1);
    }
  }

  /** What the advanced checkpoint holds: the flag and total kept, the count at the last checkpoint step, the steps' paths. */
  lemma {:induction false} CheckpointAfterFacts(cp: RebuildCheckpoint, files: seq<NoteFile>, start: nat, now: string, i: nat)
    requires i <= |files| && cp.processedCount == start
    ensures var r := CheckpointAfter(cp, files, start, now, i);
      && r.inProgress == cp.inProgress && r.totalFiles == cp.totalFiles
      && r.processedCount == start + CountAt(|files|, i)
      && r.processedFiles == cp.processedFiles + CheckpointedPaths(files, i)
    decreases i
  {
    if i > 0 {
      CheckpointAfterFacts(cp, files, start, now, i - 1);
    }
  }

  /** The count recorded after `i` of `n` notes: the notes up to the last checkpoint step. */
  function CountAt(n: nat, i: nat): nat
    requires i <= n
  {
    if i == 0 then 0 else if IsCheckpointStep(i - 1, n) then i else CountAt(n, i - 1)
  }

  /** The recorded count in closed form. */
  lemma {:induction false} CountAtReached(n: nat, i: nat)
    requires i <= n
    ensures CountAt(n, i) == Reached(i, n)
    decreases i
  {
    if i > 0 {
      CountAtReached(n, i - 1);
      ReachedStep(i - 1, n);
    }
  }

  /**
   * The checkpoint a run leaves when it starts from an unfinished one:
   * still unfinished, at the last checkpoint step before the note that
   * throws, or finished with every note counted.
   */
  lemma OutcomeCheckpoint(state: IndexState, force: NoteStep, files: seq<NoteFile>, start: nat, now: string, failAt: Option<nat>)
    requires Interrupted(state) && state.rebuildCheckpoint.value.processedCount == start && KeepsCheckpoint(force)
    ensures var stop := Stop(failAt, |files|);
      var cp := RunOutcome(state, force, files, start, now, failAt).state.rebuildCheckpoint;
      && cp.Some? && cp.value.totalFiles == state.rebuildCheckpoint.value.totalFiles
      && (stop < |files| ==>
            && cp.value.inProgress
            && cp.value.processedCount == start + Reached(stop, |files|)
            && cp.value.processedFiles == state.rebuildCheckpoint.value.processedFiles + CheckpointedPaths(files, stop))
      && (stop == |files| ==>
            && !cp.value.inProgress
            && cp.value.processedCount == start + |files|
            && cp.value.processedFiles == state.rebuildCheckpoint.value.processedFiles + CheckpointedPaths(files, |files|))
  {
    var stop := Stop(failAt, |files|);
    RunTracksCheckpoint(state, force, files, start, now, stop);
    CheckpointAfterFacts(state.rebuildCheckpoint.value, files, start, now, stop);
    CountAtReached(|files|, stop);
  }

  // ---------------------------------------------------------------- the notes through a run

  /**
   * From any state, `force` logs `f` with its fingerprint and stores that
   * fingerprint under the note's path, leaving every other entry as it was.
   */
  ghost predicate IndexesNote(force: NoteStep, hostOf: NoteFile -> Host, f: NoteFile) {
    forall st: IndexState ::
      && force(st, f).record.Some?
      && force(st, f).record.value.noteId == f.path
      && force(st, f).record.value.hash == ContentHash(hostOf(f).digest, f.content)
      && force(st, f).state.lastProcessedHash == st.lastProcessedHash[f.path := ContentHash(hostOf(f).digest, f.content)]
  }

  /** `force` indexes each of the first `i` notes. */
  ghost predicate IndexesFirst(force: NoteStep, hostOf: NoteFile -> Host, files: seq<NoteFile>, i: nat)
    requires i <= |files|
  {
    i == 0 || (IndexesFirst(force, hostOf, files, i - 1) && IndexesNote(force, hostOf, files[i - 1]))
  }

  /** `forceProcessFile` indexes every note without an excluded tag. */
  lemma {:induction false} ForceIndexesUntagged(s: Settings, files: seq<NoteFile>, hostOf: NoteFile -> Host, i: nat)
    requires i <= |files|
    requires forall k :: 0 <= k < i ==> !HasExcludedTag(s.excludedTags, hostOf(files[k]).tags)
    ensures IndexesFirst(Force(s, hostOf), hostOf, files, i)
    decreases i
  {
    if i > 0 {
      ForceIndexesUntagged(s, files, hostOf, i - 1);
      var f := files[i - 1];
      forall st: IndexState
        ensures Force(s, hostOf)(st, f).record.Some?
        ensures Force(s, hostOf)(st, f).record.value.noteId == f.path
        ensures Force(s, hostOf)(st, f).record.value.hash == ContentHash(hostOf(f).digest, f.content)
        ensures Force(s, hostOf)(st, f).state.lastProcessedHash == st.lastProcessedHash[f.path := ContentHash(hostOf(f).digest, f.content)]
      {
        Completion(st, s, f, hostOf(f), None);
      }
    }
  }

  /**
   * A rebuild over notes without an excluded tag logs each of them, in
   * order, with its fingerprint, and leaves each in the hash map, losing no
   * entry that was there: a path holds the fingerprint of the last note run
   * under it, and a path no note of the run has keeps its old value.
   */
  lemma RunIndexesEachNote(state: IndexState, s: Settings, files: seq<NoteFile>, hostOf: NoteFile -> Host, start: nat, now: string, i: nat)
    requires i <= |files|
    requires forall k :: 0 <= k < i ==> !HasExcludedTag(s.excludedTags, hostOf(files[k]).tags)
    ensures var r := RunSpec(state, Force(s, hostOf), files, start, now, i);
      && |r.records| == i
      && (forall k :: 0 <= k < i ==>
            && r.records[k].noteId == files[k].path
            && r.records[k].hash == ContentHash(hostOf(files[k]).digest, files[k].content))
      && (forall k :: 0 <= k < i ==> files[k].path in r.state.lastProcessedHash)
      && (forall p :: p in state.lastProcessedHash ==> p in r.state.lastProcessedHash)
      && (forall k :: 0 <= k < i && (forall j :: k < j < i ==> files[j].path != files[k].path) ==>
            r.state.lastProcessedHash[files[k].path] == ContentHash(hostOf(files[k]).digest, files[k].content))
      && (forall p :: p in state.lastProcessedHash && (forall j :: 0 <= j < i ==> files[j].path != p) ==>
            r.state.lastProcessedHash[p] == state.lastProcessedHash[p])
  {
    ForceIndexesUntagged(s, files, hostOf, i);
    RunHashValues(state, Force(s, hostOf), hostOf, files, start, now, i);
    RunLogsFiles(state, Force(s, hostOf), hostOf, files, start, now, i);
    LogsFilesMeans(RunSpec(state, Force(s, hostOf), files, start, now, i).records, files, hostOf, i);
    RunHashesFiles(state, Force(s, hostOf), hostOf, files, start, now, i);
    RunKeepsEntries(state, Force(s, hostOf), hostOf, files, start, now, i);
  }

  /** `records` hold one record for each of the first `i` notes, in order, with its fingerprint. */
  predicate LogsFiles(records: seq<IndexRecord>, files: seq<NoteFile>, hostOf: NoteFile -> Host, i: nat)
    requires i <= |files|
  {
    && |records| == i
    && (i > 0 ==>
          && LogsFiles(records[..i - 1], files, hostOf, i - 1)
          && records[i - 1].noteId == files[i - 1].path
          && records[i - 1].hash == ContentHash(hostOf(files[i - 1]).digest, files[i - 1].content))
  }

  lemma {:induction false} RunLogsFiles(state: IndexState, force: NoteStep, hostOf: NoteFile -> Host, files: seq<NoteFile>, start: nat, now: string, i: nat)
    requires i <= |files| && IndexesFirst(force, hostOf, files, i)
    ensures LogsFiles(RunSpec(state, force, files, start, now, i).records, files, hostOf, i)
    decreases i
  {
    if i > 0 {
      RunLogsFiles(state, force, hostOf, files, start, now, i - 1);
      var prior := RunSpec(state, force, files, start, now, i - 1);
      var rec := force(prior.state, files[i - 1]).record.value;
      assert (prior.records + [rec])[..i - 1] == prior.records;
    }
  }

  lemma {:induction false} LogsFilesMeans(records: seq<IndexRecord>, files: seq<NoteFile>, hostOf: NoteFile -> Host, i: nat)
    requires i <= |files| && LogsFiles(records, files, hostOf, i)
    ensures forall k :: 0 <= k < i ==>
      && records[k].noteId == files[k].path
      && records[k].hash == ContentHash(hostOf(files[k]).digest, files[k].content)
    decreases i
  {
    if i > 0 {
      LogsFilesMeans(records[..i - 1], files, hostOf, i - 1);
      forall k | 0 <= k < i - 1
        ensures records[k] == records[..i - 1][k]
      {
      }
    }
  }

  lemma {:induction false} RunHashesFiles(state: IndexState, force: NoteStep, hostOf: NoteFile -> Host, files: seq<NoteFile>, start: nat, now: string, i: nat)
    requires i <= |files| && IndexesFirst(force, hostOf, files, i)
    ensures forall k :: 0 <= k < i ==> files[k].path in RunSpec(state, force, files, start, now, i).state.lastProcessedHash
    decreases i
  {
    if i > 0 {
      RunHashesFiles(state, force, hostOf, files, start, now, i - 1);
      var prior := RunSpec(state, force, files, start, now, i - 1).state;
      var after := RunSpec(state, force, files, start, now, i).state;
      assert after.lastProcessedHash == force(prior, files[i - 1]).state.lastProcessedHash;
      forall k | 0 <= k < i
        ensures files[k].path in after.lastProcessedHash
      {
        if k < i - 1 {
          assert files[k].path in prior.lastProcessedHash;
        }
      }
    }
  }

  lemma {:induction false} RunKeepsEntries(state: IndexState, force: NoteStep, hostOf: NoteFile -> Host, files: seq<NoteFile>, start: nat, now: string, i: nat)
    requires i <= |files| && IndexesFirst(force, hostOf, files, i)
    ensures forall p :: p in state.lastProcessedHash ==> p in RunSpec(state, force, files, start, now, i).state.lastProcessedHash
    decreases i
  {
    if i > 0 {
      RunKeepsEntries(state, force, hostOf, files, start, now, i - 1);
      var prior := RunSpec(state, force, files, start, now, i - 1);
      assert force(prior.state, files[i - 1]).record.Some?;
    }
  }

  /** The hash map after the first `i` notes are stored over `m`, each note's fingerprint overwriting its path's entry. */
  function HashesAfter(m: map<string, string>, files: seq<NoteFile>, hostOf: NoteFile -> Host, i: nat): map<string, string>
    requires i <= |files|
  {
    if i == 0 then m
    else HashesAfter(m, files, hostOf, i - 1)[files[i - 1].path := ContentHash(hostOf(files[i - 1]).digest, files[i - 1].content)]
  }

  lemma {:induction false} RunStoresHashes(state: IndexState, force: NoteStep, hostOf: NoteFile -> Host, files: seq<NoteFile>, start: nat, now: string, i: nat)
    requires i <= |files| && IndexesFirst(force, hostOf, files, i)
    ensures RunSpec(state, force, files, start, now, i).state.lastProcessedHash == HashesAfter(state.lastProcessedHash, files, hostOf, i)
    decreases i
  {
    if i > 0 {
      RunStoresHashes(state, force, hostOf, files, start, now, i - 1);
      var prior := RunSpec(state, force, files, start, now, i - 1).state;
      assert RunSpec(state, force, files, start, now, i).state.lastProcessedHash == force(prior, files[i - 1]).state.lastProcessedHash;
    }
  }

  /** A path holds the fingerprint of the last note stored under it. */
  lemma {:induction false} HashesAfterLast(m: map<string, string>, files: seq<NoteFile>, hostOf: NoteFile -> Host, i: nat, k: nat)
    requires k < i <= |files|
    requires forall j :: k < j < i ==> files[j].path != files[k].path
    ensures files[k].path in HashesAfter(m, files, hostOf, i)
    ensures HashesAfter(m, files, hostOf, i)[files[k].path] == ContentHash(hostOf(files[k]).digest, files[k].content)
    decreases i
  {
    if k < i - 1 {
      HashesAfterLast(m, files, hostOf, i - 1, k);
    }
  }

  /** A path no stored note has keeps its entry, or its absence. */
  lemma {:induction false} HashesAfterUntouched(m: map<string, string>, files: seq<NoteFile>, hostOf: NoteFile -> Host, i: nat, p: string)
    requires i <= |files|
    requires forall j :: 0 <= j < i ==> files[j].path != p
    ensures p in HashesAfter(m, files, hostOf, i) <==> p in m
    ensures p in m ==> HashesAfter(m, files, hostOf, i)[p] == m[p]
    decreases i
  {
    if i > 0 {
      HashesAfterUntouched(m, files, hostOf, i - 1, p);
    }
  }

  /** The values a run leaves in the hash map. */
  lemma RunHashValues(state: IndexState, force: NoteStep, hostOf: NoteFile -> Host, files: seq<NoteFile>, start: nat, now: string, i: nat)
    requires i <= |files| && IndexesFirst(force, hostOf, files, i)
    ensures var after := RunSpec(state, force, files, start, now, i).state.lastProcessedHash;
      && (forall k :: 0 <= k < i && (forall j :: k < j < i ==> files[j].path != files[k].path) ==>
            files[k].path in after && after[files[k].path] == ContentHash(hostOf(files[k]).digest, files[k].content))
      && (forall p :: p in state.lastProcessedHash && (forall j :: 0 <= j < i ==> files[j].path != p) ==>
            p in after && after[p] == state.lastProcessedHash[p])
  {
    RunStoresHashes(state, force, hostOf, files, start, now, i);
    forall k | 0 <= k < i && (forall j :: k < j < i ==> files[j].path != files[k].path)
      ensures files[k].path in HashesAfter(state.lastProcessedHash, files, hostOf, i)
      ensures HashesAfter(state.lastProcessedHash, files, hostOf, i)[files[k].path] == ContentHash(hostOf(files[k]).digest, files[k].content)
    {
      HashesAfterLast(state.lastProcessedHash, files, hostOf, i, k);
    }
    forall p | p in state.lastProcessedHash && (forall j :: 0 <= j < i ==> files[j].path != p)
      ensures p in HashesAfter(state.lastProcessedHash, files, hostOf, i)
      ensures HashesAfter(state.lastProcessedHash, files, hostOf, i)[p] == state.lastProcessedHash[p]
    {
      HashesAfterUntouched(state.lastProcessedHash, files, hostOf, i, p);
    }
  }

  /** One more step reaches that step exactly when it is a checkpoint step. */
  lemma ReachedStep(i: nat, n: nat)
    requires i < n
    ensures Reached(i + 1, n) == if IsCheckpointStep(i, n) then i + 1 else Reached(i, n)
  {
    var q, r := i / CheckpointInterval, i % CheckpointInterval;
    assert i == q * CheckpointInterval + r;
    if r == CheckpointInterval - 1 {
      assert i + 1 == (q + 1) * CheckpointInterval;
      assert (i + 1) / CheckpointInterval == q + 1;
    } else {
      assert i + 1 == q * CheckpointInterval + (r + 1);
      assert (i + 1) / CheckpointInterval == q;
    }
  }

  /** `resumeRebuild`: nothing without an unfinished rebuild, else a resumed run. */
  method ResumeRebuild(state: IndexState, s: Settings, vault: seq<NoteFile>, hostOf: NoteFile -> Host, now: string, failAt: Option<nat>)
    returns (current: IndexState, processed: seq<NoteFile>, records: seq<IndexRecord>)
    ensures !Interrupted(state) ==> current == state && processed == [] && records == []
    ensures Interrupted(state) ==>
      && processed == NotProcessed(Eligible(s, vault), state.rebuildCheckpoint.value.processedFiles)
      && Progress(current, records) == RunOutcome(state, Force(s, hostOf), processed, state.rebuildCheckpoint.value.processedCount, now, failAt)
    ensures Interrupted(state) && Stop(failAt, |processed|) == |processed| ==>
      && current.rebuildCheckpoint.Some? && !current.rebuildCheckpoint.value.inProgress
      && current.rebuildCheckpoint.value.totalFiles == state.rebuildCheckpoint.value.totalFiles
      && current.rebuildCheckpoint.value.processedCount == state.rebuildCheckpoint.value.processedCount + |processed|
  {
    if !Interrupted(state) {
      return state, [], [];
    }
    var initial;
    current, processed, records, initial := RebuildIndex(state, s, vault, hostOf, true, now, failAt);
  }

  /** `clearRebuildCheckpoint`: an existing checkpoint is marked finished and saved. */
  function ClearRebuildCheckpoint(state: IndexState): (r: Step)
    ensures r.record.None? && !Interrupted(r.state)
    ensures r.saved <==> state.rebuildCheckpoint.Some?
    ensures state.rebuildCheckpoint.Some? ==>
      r.state == state.(rebuildCheckpoint := Some(state.rebuildCheckpoint.value.(inProgress := false)))
    ensures state.rebuildCheckpoint.None? ==> r.state == state
  {
    match state.rebuildCheckpoint
    case None => Step(state, None, false)
    case Some(cp) => Step(state.(rebuildCheckpoint := Some(cp.(inProgress := false))), None, true)
  }

  // ---------------------------------------------------------------- properties

  /** A cleared checkpoint is not resumed. */
  lemma ClearedIsNotResumed(state: IndexState)
    ensures !Interrupted(ClearRebuildCheckpoint(state).state)
    ensures ClearRebuildCheckpoint(state).state.rebuildCheckpoint.Some? == state.rebuildCheckpoint.Some?
  {
  }

  /** Ten steps into a run over more than ten notes, only the tenth note's path is recorded. */
  lemma {:induction false} TenthOnly(files: seq<NoteFile>, i: nat)
    requires i <= 10 < |files|
    ensures CheckpointedPaths(files, i) == if i == 10 then [files[9].path] else []
    decreases i
  {
    if i > 0 {
      TenthOnly(files, i - 1);
    }
  }

  /** Skipping one file's path, when no other file shares it, removes exactly that file. */
  lemma NotProcessedOne(files: seq<NoteFile>, k: nat)
    requires k < |files|
    requires forall a :: 0 <= a < |files| && a != k ==> files[a].path != files[k].path
    ensures NotProcessed(files, [files[k].path]) == files[..k] + files[k + 1..]
  {
    var p := files[k].path;
    var before, after := files[..k], files[k + 1..];
    calc {
      NotProcessed(files, [p]);
      { SplitAt(files, k); }
      NotProcessed(before + ([files[k]] + after), [p]);
      { NotProcessedAppend(before, [files[k]] + after, [p]); }
      NotProcessed(before, [p]) + NotProcessed([files[k]] + after, [p]);
      { NotProcessedAppend([files[k]], after, [p]);
        assert [files[k]][1..] == []; }
      NotProcessed(before, [p]) + NotProcessed(after, [p]);
      { forall a | 0 <= a < |before| ensures before[a].path != p {
          assert before[a] == files[a];
        }
        NotProcessedNone(before, p); }
      before + NotProcessed(after, [p]);
      { forall a | 0 <= a < |after| ensures after[a].path != p {
          assert after[a] == files[k + 1 + a];
        }
        NotProcessedNone(after, p); }
      before + after;
    }
  }

  /** A sequence is its part before `k`, its `k`-th element, and its part after. */
  lemma SplitAt<T>(s: seq<T>, k: nat)
    requires k < |s|
    ensures s == s[..k] + ([s[k]] + s[k + 1..])
  {
    assert s[k..] == [s[k]] + s[k + 1..];
  }

  /** Skipping recorded paths works file by file, so it splits over concatenation. */
  lemma {:induction false} NotProcessedAppend(a: seq<NoteFile>, b: seq<NoteFile>, done: seq<string>)
    ensures NotProcessed(a + b, done) == NotProcessed(a, done) + NotProcessed(b, done)
    decreases |a|
  {
    if a == [] {
      assert a + b == b;
    } else {
      assert (a + b)[1..] == a[1..] + b;
      NotProcessedAppend(a[1..], b, done);
    }
  }

  lemma {:induction false} NotProcessedNone(files: seq<NoteFile>, p: string)
    requires forall a :: 0 <= a < |files| ==> files[a].path != p
    ensures NotProcessed(files, [p]) == files
    decreases |files|
  {
    if files != [] {
      calc {
        NotProcessed(files, [p]);
        { assert files[0].path != p; }
        [files[0]] + NotProcessed(files[1..], [p]);
        { forall a | 0 <= a < |files| - 1 ensures files[1..][a].path != p {
            assert files[1..][a] == files[a + 1];
          }
          NotProcessedNone(files[1..], p); }
        [files[0]] + files[1..];
        files;
      }
    }
  }


  /**
   * Resuming after ten of `n > 10` notes: the checkpoint names only the
   * tenth note, so the other nine already indexed are run again, and the
   * resumed run's final count is `10 + (n - 1)`, beyond the `n` files there are.
   */
  lemma ResumeRerunsUncheckpointed(files: seq<NoteFile>)
    requires |files| > 10
    requires forall a :: 0 <= a < |files| && a != 9 ==> files[a].path != files[9].path
    ensures CheckpointedPaths(files, 10) == [files[9].path] && Reached(10, |files|) == 10
    ensures var rest := NotProcessed(files, CheckpointedPaths(files, 10));
      && rest == files[..9] + files[10..]
      && 10 + |rest| == |files| + 9
  {
    TenthOnly(files, 10);
    NotProcessedOne(files, 9);
  }

  /** The recorded count never goes back: it only moves to later checkpoint steps. */
  lemma ReachedMonotone(i: nat, j: nat, n: nat)
    requires i <= j <= n
    ensures Reached(i, n) <= Reached(j, n) && Reached(j, n) <= j
  {
    if j < n {
      assert (i / CheckpointInterval) <= (j / CheckpointInterval);
    }
  }

  /**
   * A fresh rebuild over more than ten notes that throws at the eleventh,
   * then resumed: the checkpoint names only the tenth note, so the resumed
   * run goes through every other note again, nine of them a second time,
   * and the finished count exceeds the number of notes by nine.
   */
  method InterruptedThenResumed(state: IndexState, s: Settings, vault: seq<NoteFile>, hostOf: NoteFile -> Host, now: string, later: string)
    returns (mid: IndexState, final: IndexState, first: seq<NoteFile>, second: seq<NoteFile>)
    requires |Eligible(s, vault)| > 10
    requires forall a :: 0 <= a < |Eligible(s, vault)| && a != 9 ==> Eligible(s, vault)[a].path != Eligible(s, vault)[9].path
    ensures first == Eligible(s, vault) && second == first[..9] + first[10..]
    ensures Interrupted(mid)
    ensures mid.rebuildCheckpoint.value.processedCount == 10 && mid.rebuildCheckpoint.value.processedFiles == [first[9].path]
    ensures final.rebuildCheckpoint.Some? && !final.rebuildCheckpoint.value.inProgress
    ensures final.rebuildCheckpoint.value.totalFiles == |first|
    ensures final.rebuildCheckpoint.value.processedCount == |first| + 9
  {
    var logged, initial;
    mid, first, logged, initial := RebuildIndex(state, s, vault, hostOf, false, now, Some(10));
    ResumeRerunsUncheckpointed(first);
    var relogged;
    final, second, relogged := ResumeRebuild(mid, s, vault, hostOf, later, None);
  }
}

=== FILE: retry_queue.dfy ===
/**
 * The retry queue of failed summaries: at most one item per note when the
 * queue is maintained through these operations.  A failure upserts an item
 * for the note with its count one higher; a success removes every item for
 * the note.
 */
module RetryQueue {
  import opened Wrappers
  import opened IndexTypes
  import opened OrderedMap

  /** The key items are found by. */
  function ItemNote(it: RetryQueueItem): string {
    it.noteId
  }

  /** `nextRetryCount`: one more than the count of the first item for the note, or 1 when there is none. */
  function NextRetryCount(q: seq<RetryQueueItem>, noteId: string): (n: int)
    ensures noteId !in Keys(q, ItemNote) ==> n == 1
    ensures noteId in Keys(q, ItemNote) ==> n == Get(q, ItemNote, noteId).value.retryCount + 1
  {
    match Get(q, ItemNote, noteId)
    case None => 1
    case Some(existing) => existing.retryCount + 1
  }

  /** `{...existing, ...item}`: every field of the new item wins except `last_retry_at`, which it does not set. */
  function Overlay(existing: RetryQueueItem, item: RetryQueueItem): RetryQueueItem {
    item.(lastRetryAt := existing.lastRetryAt)
  }

  /** `upsertRetryQueueItem`: the first item for the note is overlaid in place, or the item is appended. */
  function Upsert(q: seq<RetryQueueItem>, item: RetryQueueItem): (r: seq<RetryQueueItem>)
    ensures |r| == if item.noteId in Keys(q, ItemNote) then |q| else |q| + 1
  {
    if q == [] then [item]
    else if q[0].noteId == item.noteId then [Overlay(q[0], item)] + q[1..]
    else
      assert Keys(q, ItemNote) == [q[0].noteId] + Keys(q[1..], ItemNote);
      [q[0]] + Upsert(q[1..], item)
  }

  /** `removeRetryQueueItem`: every item for the note dropped, the rest kept in order. */
  function Remove(q: seq<RetryQueueItem>, noteId: string): (r: seq<RetryQueueItem>)
    ensures |r| <= |q|
    ensures forall x :: x in r <==> x in q && x.noteId != noteId
  {
    if q == [] then []
    else (if q[0].noteId == noteId then [] else [q[0]]) + Remove(q[1..], noteId)
  }

  /** Removal distributes over concatenation: the kept items stay in order, repeats included. */
  lemma {:induction false} RemoveAppend(a: seq<RetryQueueItem>, b: seq<RetryQueueItem>, noteId: string)
    ensures Remove(a + b, noteId) == Remove(a, noteId) + Remove(b, noteId)
    decreases |a|
  {
    if a == [] {
      assert a + b == b;
    } else {
      assert (a + b)[1..] == a[1..] + b;
      RemoveAppend(a[1..], b, noteId);
    }
  }

  /** One item is dropped exactly when it belongs to the note. */
  lemma RemoveSingle(x: RetryQueueItem, noteId: string)
    ensures Remove([x], noteId) == (if x.noteId == noteId then [] else [x])
  {
  }

  // ---------------------------------------------------------------- properties

  /** The merged item an upsert stores for the note. */
  function Stored(q: seq<RetryQueueItem>, item: RetryQueueItem): RetryQueueItem {
    match Get(q, ItemNote, item.noteId)
    case None => item
    case Some(existing) => Overlay(existing, item)
  }

  /** An upsert keeps the notes in place and appends the note only when it is new. */
  lemma {:induction false} UpsertKeys(q: seq<RetryQueueItem>, item: RetryQueueItem)
    ensures Keys(Upsert(q, item), ItemNote) ==
      if item.noteId in Keys(q, ItemNote) then Keys(q, ItemNote) else Keys(q, ItemNote) + [item.noteId]
    decreases |q|
  {
    if q != [] {
      KeysCons(q[0], q[1..], ItemNote);
      assert [q[0]] + q[1..] == q;
      if q[0].noteId == item.noteId {
        KeysCons(Overlay(q[0], item), q[1..], ItemNote);
      } else {
        UpsertKeys(q[1..], item);
        KeysCons(q[0], Upsert(q[1..], item), ItemNote);
      }
    }
  }

  /** After an upsert the note's item is the merged one and every other note's item is unchanged. */
  lemma {:induction false} GetUpsert(q: seq<RetryQueueItem>, item: RetryQueueItem, noteId: string)
    ensures Get(Upsert(q, item), ItemNote, noteId) ==
      if noteId == item.noteId then Some(Stored(q, item)) else Get(q, ItemNote, noteId)
    decreases |q|
  {
    if q != [] && q[0].noteId != item.noteId {
      GetUpsert(q[1..], item, noteId);
    }
  }

  /** Upserts keep one item per note. */
  lemma UpsertDistinct(q: seq<RetryQueueItem>, item: RetryQueueItem)
    requires Distinct(Keys(q, ItemNote))
    ensures Distinct(Keys(Upsert(q, item), ItemNote))
  {
    UpsertKeys(q, item);
  }

  /** Removing keeps one item per note. */
  lemma {:induction false} RemoveDistinct(q: seq<RetryQueueItem>, noteId: string)
    requires Distinct(Keys(q, ItemNote))
    ensures Distinct(Keys(Remove(q, noteId), ItemNote))
    decreases |q|
  {
    if q != [] {
      KeysCons(q[0], q[1..], ItemNote);
      assert [q[0]] + q[1..] == q;
      DistinctCons(q[0].noteId, Keys(q[1..], ItemNote));
      RemoveDistinct(q[1..], noteId);
      var rest := Remove(q[1..], noteId);
      if q[0].noteId != noteId {
        KeysCons(q[0], rest, ItemNote);
        DistinctCons(q[0].noteId, Keys(rest, ItemNote));
      } else {
        assert [] + rest == rest;
      }
    }
  }

  /** Removing the note of a queue that has none changes nothing. */
  lemma {:induction false} RemoveAbsent(q: seq<RetryQueueItem>, noteId: string)
    requires noteId !in Keys(q, ItemNote)
    ensures Remove(q, noteId) == q
    decreases |q|
  {
    if q != [] {
      KeysCons(q[0], q[1..], ItemNote);
      assert [q[0]] + q[1..] == q;
      RemoveAbsent(q[1..], noteId);
    }
  }

  /** A success after a failure leaves the queue as a success alone would have. */
  lemma {:induction false} RemoveUndoesUpsert(q: seq<RetryQueueItem>, item: RetryQueueItem)
    ensures Remove(Upsert(q, item), item.noteId) == Remove(q, item.noteId)
    decreases |q|
  {
    if q == [] {
      assert Remove([item], item.noteId) == [] + Remove([], item.noteId);
    } else if q[0].noteId == item.noteId {
      var u := [Overlay(q[0], item)] + q[1..];
      assert u[0] == Overlay(q[0], item) && u[1..] == q[1..];
    } else {
      RemoveUndoesUpsert(q[1..], item);
      var u := [q[0]] + Upsert(q[1..], item);
      assert u[0] == q[0] && u[1..] == Upsert(q[1..], item);
    }
  }

  /**
   * Two failures of a note that had no item leave a single item for it,
   * counted 2, after the other notes' items.
   */
  lemma TwoFailures(q: seq<RetryQueueItem>, first: RetryQueueItem, second: RetryQueueItem)
    requires first.noteId == second.noteId && first.noteId !in Keys(q, ItemNote)
    requires first.retryCount == NextRetryCount(q, first.noteId)
    requires second.retryCount == NextRetryCount(Upsert(q, first), second.noteId)
    ensures var r := Upsert(Upsert(q, first), second);
      && Keys(r, ItemNote) == Keys(q, ItemNote) + [first.noteId]
      && Get(r, ItemNote, first.noteId) == Some(second.(lastRetryAt := first.lastRetryAt))
      && Get(r, ItemNote, first.noteId).value.retryCount == 2
  {
    var q1 := Upsert(q, first);
    UpsertKeys(q, first);
    GetUpsert(q, first, first.noteId);
    assert Get(q1, ItemNote, first.noteId) == Some(first);
    UpsertKeys(q1, second);
    GetUpsert(q1, second, second.noteId);
  }
}

=== FILE: sorting.dfy ===
/**
 * A stable sort under a caller-supplied total preorder, standing in for
 * `Array.prototype.sort` (stable since ECMAScript 2019) with a comparator.
 */
module Sorting {

  /** Any two elements are comparable. */
  ghost predicate Total<T(!new)>(le: (T, T) -> bool) {
    forall a, b :: le(a, b) || le(b, a)
  }

  /** The order is transitive. */
  ghost predicate Transitive<T(!new)>(le: (T, T) -> bool) {
    forall a, b, c :: le(a, b) && le(b, c) ==> le(a, c)
  }

  /** Every earlier element is at most every later one. */
  predicate SortedBy<T>(xs: seq<T>, le: (T, T) -> bool) {
    forall i, j :: 0 <= i < j < |xs| ==> le(xs[i], xs[j])
  }

  /** `x` placed before the first element it is at most. */
  function Insert<T>(x: T, ys: seq<T>, le: (T, T) -> bool): (r: seq<T>)
    ensures |r| == |ys| + 1
    ensures multiset(r) == multiset(ys) + multiset{x}
  {
    if ys == [] then [x]
    else if le(x, ys[0]) then [x] + ys
    else
      assert ys == [ys[0]] + ys[1..];
      [ys[0]] + Insert(x, ys[1..], le)
  }

  /** Insertion sort: each element inserted into the sorted rest. */
  function Sort<T>(xs: seq<T>, le: (T, T) -> bool): (r: seq<T>)
    ensures |r| == |xs|
    ensures multiset(r) == multiset(xs)
  {
    if xs == [] then []
    else
      assert xs == [xs[0]] + xs[1..];
      Insert(xs[0], Sort(xs[1..], le), le)
  }

  /** Inserting into a sorted list keeps it sorted. */
  lemma {:induction false} InsertSorted<T(!new)>(x: T, ys: seq<T>, le: (T, T) -> bool)
    requires Total(le) && Transitive(le)
    requires SortedBy(ys, le)
    ensures SortedBy(Insert(x, ys, le), le)
    decreases |ys|
  {
    if ys != [] && !le(x, ys[0]) {
      InsertSorted(x, ys[1..], le);
      var r := Insert(x, ys, le);
      var rest := Insert(x, ys[1..], le);
      assert r == [ys[0]] + rest;
      forall k | 0 <= k < |rest|
        ensures le(ys[0], rest[k])
      {
        assert rest[k] in multiset(rest);
        assert rest[k] == x || rest[k] in multiset(ys[1..]);
        if rest[k] != x {
          var m :| 0 <= m < |ys[1..]| && ys[1..][m] == rest[k];
          assert ys[1..][m] == ys[m + 1];
        }
      }
    }
  }

  /** The result is sorted. */
  lemma {:induction false} SortSorted<T(!new)>(xs: seq<T>, le: (T, T) -> bool)
    requires Total(le) && Transitive(le)
    ensures SortedBy(Sort(xs, le), le)
    decreases |xs|
  {
    if xs != [] {
      SortSorted(xs[1..], le);
      InsertSorted(xs[0], Sort(xs[1..], le), le);
    }
  }

  /** A list that is already sorted comes back unchanged. */
  lemma {:induction false} SortOfSorted<T>(xs: seq<T>, le: (T, T) -> bool)
    requires SortedBy(xs, le)
    ensures Sort(xs, le) == xs
    decreases |xs|
  {
    if xs != [] {
      assert SortedBy(xs[1..], le) by {
        forall i, j | 0 <= i < j < |xs[1..]| ensures le(xs[1..][i], xs[1..][j]) {
          assert xs[1..][i] == xs[i + 1] && xs[1..][j] == xs[j + 1];
        }
      }
      SortOfSorted(xs[1..], le);
      if |xs| > 1 {
        assert le(xs[0], xs[1]);
      }
    }
  }

  /** The elements of `xs` that the order ranks level with `k`, in their order in `xs`. */
  function Tied<T>(xs: seq<T>, le: (T, T) -> bool, k: T): (r: seq<T>)
    ensures |r| <= |xs|
  {
    if xs == [] then []
    else (if le(xs[0], k) && le(k, xs[0]) then [xs[0]] else []) + Tied(xs[1..], le, k)
  }

  /** The tied elements of `x` followed by `ys`. */
  lemma TiedCons<T>(x: T, ys: seq<T>, le: (T, T) -> bool, k: T)
    ensures Tied([x] + ys, le, k) == (if le(x, k) && le(k, x) then [x] else []) + Tied(ys, le, k)
  {
    assert ([x] + ys)[0] == x && ([x] + ys)[1..] == ys;
  }

  /** Two pieces of which one is empty can change places. */
  lemma SwapEmpty<T>(a: seq<T>, b: seq<T>, z: seq<T>)
    requires a == [] || b == []
    ensures a + (b + z) == b + (a + z)
  {
    if a == [] {
      assert [] + (b + z) == b + z && [] + z == z;
    } else {
      assert [] + z == z;
    }
  }

  /** Two elements that do not both tie with `k` can change places without changing the tied elements. */
  lemma TiedSwap<T>(x: T, y: T, rest: seq<T>, ys: seq<T>, le: (T, T) -> bool, k: T)
    requires !(le(x, k) && le(k, x) && le(y, k) && le(k, y))
    requires Tied(rest, le, k) == Tied([x] + ys, le, k)
    ensures Tied([y] + rest, le, k) == Tied([x] + ([y] + ys), le, k)
  {
    var tx: seq<T> := if le(x, k) && le(k, x) then [x] else [];
    var ty: seq<T> := if le(y, k) && le(k, y) then [y] else [];
    calc {
      Tied([y] + rest, le, k);
      { TiedCons(y, rest, le, k); }
      ty + Tied(rest, le, k);
      { TiedCons(x, ys, le, k); }
      ty + (tx + Tied(ys, le, k));
      { SwapEmpty(ty, tx, Tied(ys, le, k)); }
      tx + (ty + Tied(ys, le, k));
      { TiedCons(y, ys, le, k); }
      tx + Tied([y] + ys, le, k);
      { TiedCons(x, [y] + ys, le, k); }
      Tied([x] + ([y] + ys), le, k);
    }
  }

  /** Inserting `x` keeps it ahead of every element it ties with. */
  lemma {:induction false} InsertTied<T(!new)>(x: T, ys: seq<T>, le: (T, T) -> bool, k: T)
    requires Transitive(le)
    ensures Tied(Insert(x, ys, le), le, k) == Tied([x] + ys, le, k)
    decreases |ys|
  {
    if ys != [] && !le(x, ys[0]) {
      var y := ys[0];
      InsertTied(x, ys[1..], le, k);
      assert Insert(x, ys, le) == [y] + Insert(x, ys[1..], le);
      assert ys == [y] + ys[1..];
      // `x` and `y` cannot both tie with `k`, since that would give `le(x, y)`.
      assert !(le(x, k) && le(k, y));
      TiedSwap(x, y, Insert(x, ys[1..], le), ys[1..], le, k);
    }
  }

  /** Stability: elements the order ranks level come out in their input order. */
  lemma {:induction false} SortStable<T(!new)>(xs: seq<T>, le: (T, T) -> bool, k: T)
    requires Transitive(le)
    ensures Tied(Sort(xs, le), le, k) == Tied(xs, le, k)
    decreases |xs|
  {
    if xs != [] {
      SortStable(xs[1..], le, k);
      InsertTied(xs[0], Sort(xs[1..], le), le, k);
      TiedCons(xs[0], Sort(xs[1..], le), le, k);
      TiedCons(xs[0], xs[1..], le, k);
      assert xs == [xs[0]] + xs[1..];
    }
  }
}

=== FILE: text.dfy ===
/**
 * String primitives the plugin takes from JavaScript: `trim`, ASCII
 * `toLowerCase`, and `split` on a character class.  Strings are `seq<char>`.
 */
module Text {

  /** Concatenation is associative; stated once so proofs can regroup cheaply. */
  lemma ConcatAssoc<T>(x: seq<T>, y: seq<T>, z: seq<T>)
    ensures x + (y + z) == (x + y) + z
  {
  }

  /** Whitespace removed by `String.prototype.trim` (the ASCII part of it). */
  predicate IsSpace(c: char) {
    c == ' ' || c == '\t' || c == '\n' || c == '\r' || c == '\U{000B}' || c == '\U{000C}'
  }

  /** Every character of `s` is whitespace. */
  predicate AllSpace(s: string) {
    forall i :: 0 <= i < |s| ==> IsSpace(s[i])
  }

  /** `s` neither starts nor ends with whitespace. */
  predicate Trimmed(s: string) {
    s == [] || (!IsSpace(s[0]) && !IsSpace(s[|s| - 1]))
  }

  /** Drops leading whitespace. */
  function TrimStart(s: string): (r: string)
    ensures |r| <= |s|
  {
    if |s| > 0 && IsSpace(s[0]) then TrimStart(s[1..]) else s
  }

  /** Drops trailing whitespace. */
  function TrimEnd(s: string): (r: string)
    ensures |r| <= |s|
  {
    if |s| > 0 && IsSpace(s[|s| - 1]) then TrimEnd(s[..|s| - 1]) else s
  }

  /** TrimStart removes exactly the leading whitespace run. */
  lemma {:induction false} TrimStartSpec(s: string)
    ensures TrimStart(s) == s[|s| - |TrimStart(s)|..]
    ensures AllSpace(s[..|s| - |TrimStart(s)|])
    ensures TrimStart(s) == [] || !IsSpace(TrimStart(s)[0])
    decreases |s|
  {
    if |s| > 0 && IsSpace(s[0]) {
      TrimStartSpec(s[1..]);
      var n := |s| - |TrimStart(s)|;
      assert s[..n] == [s[0]] + s[1..][..n - 1];
    }
  }

  /** TrimEnd removes exactly the trailing whitespace run. */
  lemma {:induction false} TrimEndSpec(s: string)
    ensures TrimEnd(s) == s[..|TrimEnd(s)|]
    ensures AllSpace(s[|TrimEnd(s)|..])
    ensures TrimEnd(s) == [] || !IsSpace(TrimEnd(s)[|TrimEnd(s)| - 1])
    decreases |s|
  {
    if |s| > 0 && IsSpace(s[|s| - 1]) {
      var s' := s[..|s| - 1];
      TrimEndSpec(s');
      var n := |TrimEnd(s)|;
      assert s[n..] == s'[n..] + [s[|s| - 1]];
    }
  }

  /** Length of the leading whitespace run of `s`. */
  function LeadingSpace(s: string): (n: nat)
    ensures n <= |s|
  {
    |s| - |TrimStart(s)|
  }

  /** `String.prototype.trim`: no whitespace left at either end. */
  function Trim(s: string): (r: string)
    ensures Trimmed(r)
  {
    TrimStartSpec(s);
    TrimEndSpec(TrimStart(s));
    var r := TrimEnd(TrimStart(s));
    assert r != [] ==> r[0] == TrimStart(s)[0];
    r
  }

  /** Trim keeps an infix of `s` and removes only whitespace around it. */
  lemma TrimInfix(s: string)
    ensures LeadingSpace(s) + |Trim(s)| <= |s|
    ensures Trim(s) == s[LeadingSpace(s)..LeadingSpace(s) + |Trim(s)|]
    ensures AllSpace(s[..LeadingSpace(s)]) && AllSpace(s[LeadingSpace(s) + |Trim(s)|..])
  {
    var a := TrimStart(s);
    TrimStartSpec(s);
    TrimEndSpec(a);
    var r := TrimEnd(a);
    var i := LeadingSpace(s);
    assert Trim(s) == r && a == s[i..];
    SuffixSlices(s, i, |r|);
  }

  /** Slicing a suffix is slicing the whole. */
  lemma SuffixSlices<T>(s: seq<T>, i: nat, m: nat)
    requires i + m <= |s|
    ensures s[i..][..m] == s[i..i + m] && s[i..][m..] == s[i + m..]
  {
  }

  lemma {:induction false} TrimStartSkips(p: string, x: string)
    requires AllSpace(p)
    ensures TrimStart(p + x) == TrimStart(x)
    decreases |p|
  {
    if |p| > 0 {
      assert (p + x)[0] == p[0] && (p + x)[1..] == p[1..] + x;
      TrimStartSkips(p[1..], x);
    } else {
      assert p + x == x;
    }
  }

  lemma {:induction false} TrimEndSkips(x: string, q: string)
    requires AllSpace(q)
    ensures TrimEnd(x + q) == TrimEnd(x)
    decreases |q|
  {
    if |q| > 0 {
      assert (x + q)[..|x + q| - 1] == x + q[..|q| - 1];
      TrimEndSkips(x, q[..|q| - 1]);
    } else {
      assert x + q == x;
    }
  }

  /** Trim is determined by the decomposition into whitespace, trimmed core, whitespace. */
  lemma TrimUnique(p: string, m: string, q: string)
    requires AllSpace(p) && AllSpace(q) && Trimmed(m)
    ensures Trim(p + m + q) == m
  {
    assert p + m + q == p + (m + q);
    TrimStartSkips(p, m + q);
    if m == [] {
      var e: string := [];
      assert m + q == q;
      TrimStartSkips(q, e);
      assert q + e == q;
      assert TrimStart(e) == [];
      assert TrimStart(q) == [];
      assert TrimStart(m + q) == [];
      assert TrimStart(p + m + q) == [];
      assert TrimEnd([]) == [];
    } else {
      assert (m + q)[0] == m[0];
      assert TrimStart(p + m + q) == m + q;
      TrimEndSkips(m, q);
      assert Trim(p + m + q) == TrimEnd(m + q);
    }
  }

  /** Whitespace around any text disappears under Trim. */
  lemma TrimIgnoresSpace(p: string, x: string, q: string)
    requires AllSpace(p) && AllSpace(q)
    ensures Trim(p + x + q) == Trim(x)
  {
    var m := Trim(x);
    TrimInfix(x);
    var i := LeadingSpace(x);
    var pre, post := x[..i], x[i + |m|..];
    assert x == pre + m + post;
    assert p + x + q == (p + pre) + m + (post + q);
    assert AllSpace(p + pre);
    assert AllSpace(post + q);
    TrimUnique(p + pre, m, post + q);
  }

  /** Trimming an already trimmed string changes nothing. */
  lemma TrimOfTrimmed(s: string)
    requires Trimmed(s)
    ensures Trim(s) == s
  {
    assert [] + s + [] == s;
    TrimUnique([], s, []);
  }

  /** Trimming leaves nothing exactly when the text is all whitespace. */
  lemma TrimEmptyIffAllSpace(s: string)
    ensures Trim(s) == [] <==> AllSpace(s)
  {
    TrimInfix(s);
    var n := LeadingSpace(s);
    if Trim(s) == [] {
      assert s == s[..n] + s[n..];
      forall i | 0 <= i < |s| ensures IsSpace(s[i]) {
        if i < n { assert s[..n][i] == s[i]; } else { assert s[n..][i - n] == s[i]; }
      }
    } else if AllSpace(s) {
      assert false;
    }
  }

  /** Each piece trimmed, in order. */
  function TrimAll(pieces: seq<string>): (r: seq<string>)
    ensures |r| == |pieces|
    ensures forall k :: 0 <= k < |r| ==> r[k] == Trim(pieces[k])
  {
    if pieces == [] then [] else [Trim(pieces[0])] + TrimAll(pieces[1..])
  }

  /** The non-empty pieces, in order. */
  function NonEmpty(pieces: seq<string>): (r: seq<string>)
    ensures |r| <= |pieces|
    ensures forall k :: 0 <= k < |r| ==> r[k] != [] && r[k] in pieces
    ensures forall x :: x in pieces && x != [] ==> x in r
  {
    if pieces == [] then []
    else if pieces[0] == [] then NonEmpty(pieces[1..])
    else [pieces[0]] + NonEmpty(pieces[1..])
  }

  /** Filtering distributes over concatenation: order and repeats are kept. */
  lemma {:induction false} NonEmptyAppend(a: seq<string>, b: seq<string>)
    ensures NonEmpty(a + b) == NonEmpty(a) + NonEmpty(b)
    decreases |a|
  {
    if a == [] {
      assert a + b == b;
    } else {
      assert (a + b)[1..] == a[1..] + b;
      NonEmptyAppend(a[1..], b);
    }
  }

  /** One piece survives exactly when it is non-empty. */
  lemma NonEmptySingle(x: string)
    ensures NonEmpty([x]) == (if x == [] then [] else [x])
  {
  }

  /** Trimming keeps a sub-string, so it introduces no new character. */
  lemma TrimKeepsChars(s: string, c: char)
    requires c in Trim(s)
    ensures c in s
  {
    TrimInfix(s);
    var i :| 0 <= i < |Trim(s)| && Trim(s)[i] == c;
    assert s[LeadingSpace(s) + i] == c;
  }

  /** ASCII `toLowerCase` of one character. */
  function LowerChar(c: char): (r: char)
    ensures !('A' <= r <= 'Z')
    ensures r == c || ('A' <= c <= 'Z' && r as int == c as int + 32)
  {
    if 'A' <= c <= 'Z' then (c as int + 32) as char else c
  }

  /** ASCII `toLowerCase`: every upper-case letter replaced by its lower-case form. */
  function Lower(s: string): (r: string)
    ensures |r| == |s|
    ensures forall i :: 0 <= i < |s| ==> r[i] == LowerChar(s[i])
  {
    if s == [] then [] else [LowerChar(s[0])] + Lower(s[1..])
  }

  /** Lower-casing is idempotent: its output is its own lower-case form. */
  lemma LowerIdempotent(s: string)
    ensures Lower(Lower(s)) == Lower(s)
  {
  }

  /** `s.split(/[...]/)` on a set of separator characters (always at least one piece). */
  function Split(s: string, seps: set<char>): (r: seq<string>)
    ensures |r| >= 1
  {
    if |s| == 0 then [""]
    else
      var rest := Split(s[1..], seps);
      if s[0] in seps then [""] + rest
      else [[s[0]] + rest[0]] + rest[1..]
  }

  /** The pieces concatenated without separators. */
  function Flatten(pieces: seq<string>): string {
    if pieces == [] then [] else pieces[0] + Flatten(pieces[1..])
  }

  /** `s` with every separator character deleted. */
  function Without(s: string, seps: set<char>): string {
    if s == [] then []
    else (if s[0] in seps then [] else [s[0]]) + Without(s[1..], seps)
  }

  /** Pieces joined with one separator character between neighbours. */
  function Join(pieces: seq<string>, sep: char): string {
    if |pieces| == 0 then []
    else if |pieces| == 1 then pieces[0]
    else pieces[0] + [sep] + Join(pieces[1..], sep)
  }

  /** No piece holds a separator. */
  lemma {:induction false} SplitPiecesFree(s: string, seps: set<char>)
    ensures forall k, c :: 0 <= k < |Split(s, seps)| && c in Split(s, seps)[k] ==> c !in seps
    decreases |s|
  {
    if |s| > 0 {
      SplitPiecesFree(s[1..], seps);
    }
  }

  /** Splitting loses exactly the separators: the pieces concatenate to the rest of the text. */
  lemma {:induction false} SplitKeepsText(s: string, seps: set<char>)
    ensures Flatten(Split(s, seps)) == Without(s, seps)
    decreases |s|
  {
    if |s| > 0 {
      SplitKeepsText(s[1..], seps);
      var rest := Split(s[1..], seps);
      if s[0] !in seps {
        assert rest == [rest[0]] + rest[1..];
        ConcatAssoc([s[0]], rest[0], Flatten(rest[1..]));
      }
    }
  }

  /** Splitting a separator-free piece followed by a separator starts a new piece. */
  lemma {:induction false} SplitAfterPiece(a: string, sep: char, b: string, seps: set<char>)
    requires sep in seps
    requires forall c :: c in a ==> c !in seps
    ensures Split(a + [sep] + b, seps) == [a] + Split(b, seps)
    decreases |a|
  {
    if |a| == 0 {
      assert a + [sep] + b == [sep] + b;
      assert ([sep] + b)[1..] == b;
    } else {
      assert (a + [sep] + b)[1..] == a[1..] + [sep] + b;
      assert (a + [sep] + b)[0] == a[0];
      SplitAfterPiece(a[1..], sep, b, seps);
      assert [a[0]] + a[1..] == a;
    }
  }

  /** A separator-free string is a single piece. */
  lemma {:induction false} SplitSingle(a: string, seps: set<char>)
    requires forall c :: c in a ==> c !in seps
    ensures Split(a, seps) == [a]
    decreases |a|
  {
    if |a| > 0 {
      SplitSingle(a[1..], seps);
      assert [a[0]] + a[1..] == a;
    }
  }

  /** Splitting undoes joining when no piece holds a separator. */
  lemma {:induction false} SplitJoin(pieces: seq<string>, sep: char, seps: set<char>)
    requires |pieces| >= 1 && sep in seps
    requires forall k, c :: 0 <= k < |pieces| && c in pieces[k] ==> c !in seps
    ensures Split(Join(pieces, sep), seps) == pieces
    decreases |pieces|
  {
    if |pieces| == 1 {
      SplitSingle(pieces[0], seps);
    } else {
      SplitAfterPiece(pieces[0], sep, Join(pieces[1..], sep), seps);
      SplitJoin(pieces[1..], sep, seps);
      assert [pieces[0]] + pieces[1..] == pieces;
    }
  }

  // ---------------------------------------------------------------- ordering

  /**
   * Code-point lexicographic order. JavaScript `<=` compares UTF-16 code units;
   * the two agree unless a string holds characters above U+FFFF.
   */
  predicate LexLe(a: string, b: string) {
    a == [] || (b != [] && (a[0] < b[0] || (a[0] == b[0] && LexLe(a[1..], b[1..]))))
  }

  lemma {:induction false} LexLeTotal(a: string, b: string)
    ensures LexLe(a, b) || LexLe(b, a)
    decreases |a|
  {
    if a != [] && b != [] && a[0] == b[0] {
      LexLeTotal(a[1..], b[1..]);
    }
  }

  lemma {:induction false} LexLeTransitive(a: string, b: string, c: string)
    requires LexLe(a, b) && LexLe(b, c)
    ensures LexLe(a, c)
    decreases |a|
  {
    if a != [] && a[0] == b[0] && b[0] == c[0] {
      LexLeTransitive(a[1..], b[1..], c[1..]);
    }
  }

  lemma {:induction false} LexLeAntisymmetric(a: string, b: string)
    requires LexLe(a, b) && LexLe(b, a)
    ensures a == b
    decreases |a|
  {
    if a != [] {
      LexLeAntisymmetric(a[1..], b[1..]);
      assert a == [a[0]] + a[1..] && b == [b[0]] + b[1..];
    }
  }

  /** Strings that agree up to a position are ordered by their first differing character. */
  lemma {:induction false} LexLeFirstDifference(p: string, c: char, s: string, d: char, t: string)
    requires c < d
    ensures LexLe(p + [c] + s, p + [d] + t) && !LexLe(p + [d] + t, p + [c] + s)
    decreases |p|
  {
    if p != [] {
      assert (p + [c] + s)[1..] == p[1..] + [c] + s;
      assert (p + [d] + t)[1..] == p[1..] + [d] + t;
      LexLeFirstDifference(p[1..], c, s, d, t);
    }
  }

  // ---------------------------------------------------------------- decimals

  /** The digit character for `d`. */
  function DigitChar(d: nat): (c: char)
    requires d < 10
    ensures '0' <= c <= '9' && c as int - '0' as int == d
  {
    (48 + d) as char
  }

  /** Base-10 text of a natural number, as `${n}` renders it. */
  function Decimal(n: nat): (r: string)
    ensures r != [] && (r[0] == '0' ==> n == 0)
    ensures forall i :: 0 <= i < |r| ==> '0' <= r[i] <= '9'
  {
    if n < 10 then [DigitChar(n)] else Decimal(n / 10) + [DigitChar(n % 10)]
  }

  /** The number a string of digits denotes. */
  function DigitsValue(s: string): nat
    requires forall i :: 0 <= i < |s| ==> '0' <= s[i] <= '9'
  {
    if s == [] then 0 else DigitsValue(s[..|s| - 1]) * 10 + (s[|s| - 1] as int - '0' as int)
  }

  /** Reading the decimal text back gives the number. */
  lemma {:induction false} DecimalRoundTrip(n: nat)
    ensures DigitsValue(Decimal(n)) == n
    decreases n
  {
    if n >= 10 {
      DecimalRoundTrip(n / 10);
      var r := Decimal(n);
      assert r[..|r| - 1] == Decimal(n / 10);
    }
  }

  /** Different numbers render differently. */
  lemma DecimalInjective(m: nat, n: nat)
    requires Decimal(m) == Decimal(n)
    ensures m == n
  {
    DecimalRoundTrip(m);
    DecimalRoundTrip(n);
  }
}

=== FILE: wrappers.dfy ===
/** Failure-compatible wrappers shared by every module of the model. */
module Wrappers {

  /** A value that may be missing: an optional TypeScript field or `undefined`. */
  datatype Option<+T> = None | Some(value: T) {

    /** The value, or `default` when missing (TypeScript's `??`). */
    function GetOr(default: T): T {
      match this
      case Some(v) => v
      case None => default
    }
  }

  /** The outcome of an operation that may fail with an error value. */
  datatype Result<+T, +E> = Success(value: T) | Failure(error: E)
}
